=== FILE: README.md ===
# SignalR benchmark coordinator: a Dafny model

This project models the core of the Azure SignalR benchmark system.

- **The coordinator's test runner.** A `TestRunner` owns one test job. It loads the job's status record and provisions the
  service instances. It then creates the server and client pods and waits until every pod reports ready. Each client pod
  gets a contiguous range of connection ids. The runner then starts the client connections and runs the rounds. Each round
  sets a scenario, starts it, dwells, stops it and stores one merged report. Finally the runner stops the connections and,
  in a `finally` block, deletes the pods and resource groups.
- **The shared enumerations.** A `SignalRProtocol` value packs an HTTP transport into its low nibble and a transfer format
  into its high nibble. `LatencyClass` and `ClientBehavior` are closed sets.
- **The simple benchmark configuration.** It decides whether a YAML root asks for the "simple" mode. Its builders fill a
  `MasterStep`'s parameter dictionary entry by entry.
- **The Python generator for the send-to-client benchmark.** Its epoch loop emits growing remainder windows and stops at
  the first window wider than the connection count.

Modules, one per file:

- `Wrappers`: `Option` and `Result`.
- `Numerals`: decimal text of integers and .NET's `Int32` parsing.
- `Enums`.
- `Messages`: the messages, records and settings the runner handles.
- `Readiness`: the pure range arithmetic of the ready handler, and what a stream of ready reports leaves behind.
- `Aggregation`: status snapshots and their order-independent merge.
- `Coordinator`: the class `TestRunner`, whose fields are those the C# class updates in place.
- `BenchmarkConfiguration`: the `MasterStep` class and the builder methods.
- `ConfigGenerator`: `generate_config`.

Every call the runner makes to the outside world appends an `Action` to its `trace` field. This covers storage, Kubernetes,
the resource provider and the message bus. An `Environment`, given to the constructor, decides which call numbers throw. It
also supplies the stored status record, the server url, the instance keys, the ready-report stream and each round's
status-report stream. Ordering, teardown and error paths are therefore stated over the trace. Each networked phase is one
"await acknowledgements from `_clients.Keys`" action followed by one send action.

The whole run is decided by the environment. Functions of it name what `RunAsync` will do: `SetupError()` is what the
setup throws, `Hangs()` says whether a barrier never completes, and `TryError()` and `TryEnd()` are what the try block
throws and where its calls stop. `Escaped` is what gets out of the catch and finally blocks: both catches swallow their
exception, so only a throw of their own persist calls escapes. The ready state is the fold of the ready reports (`ReadyEnd`).

Where the code does something other than what its names and parameters suggest, the model follows the code:

- `CollectStatisticsInternal` ignores its interval argument and always stores 1000.
- `CollectConnectionStatistics` ignores its `percentileList` argument.
- `isSimple` uses `Enum.TryParse`, so the mode value "0" also counts as simple.

## Model

| member | source | states |
|---|---|---|
| Readiness.ClientPodCount | src/Pods/Coordinator/TestRunner.cs:22-94 | The client pod count is the ceiling of T/5000: `(p-1)*5000 < T <= p*5000`. It is at least 1 and at most T when T ≥ 1. |
| Readiness.TruncDiv | src/Pods/Coordinator/TestRunner.cs:263 | C# integer division truncates toward zero: `|q| = |a| / |b|`, the sign of q follows the signs of a and b, and q agrees with Euclidean division for non-negative operands. |
| Readiness.MakeBarrier | src/Pods/Coordinator/TestRunner.cs:254-267 | Building the ready handler succeeds exactly when the client pod count is non-zero (otherwise line 263 divides by zero). On success, countPerPod is the truncated quotient. |
| Readiness.RangeFor | src/Pods/Coordinator/TestRunner.cs:282-302 | Every client report before the last expected pod gets one share of countPerPod ids. The last expected pod's range ends at the total. Every later report gets an empty range. |
| Readiness.Step | src/Pods/Coordinator/TestRunner.cs:268-326 | A client report adds one to the client counter and gives its sender the range of the new count, replacing any earlier one. It completes the client barrier when the count reaches P, and a completed barrier stays complete. The server side is untouched. A server report adds one to the server counter, appends its sender to the server list and completes the server barrier at S, leaving the client side untouched. Any other report changes nothing. |
| Readiness.Fold | src/Pods/Coordinator/TestRunner.cs:268-326 | Handling a stream never lowers a counter, never drops a client or a listed server, and never reopens a completed barrier. |
| Readiness.IgnoredReport | src/Pods/Coordinator/TestRunner.cs:270-275 | A report with no parameters, or with a role that is neither Clients nor AppServers, leaves the whole ready state unchanged. |
| Readiness.FoldCounters | src/Pods/Coordinator/TestRunner.cs:277-319 | After a stream, each counter is the number of reports of its role and `_serverPods` lists the AppServer senders in arrival order. The client barrier is complete iff 1 ≤ P ≤ the client reports. The server barrier is complete iff 1 ≤ S ≤ the server reports, so it never completes when S = 0. |
| Readiness.FoldClients | src/Pods/Coordinator/TestRunner.cs:277-308 | After a stream, the sender of the n-th client report holds the range of arrival n, unless it reported again later. No other sender holds a range. |
| Readiness.ClientStep | src/Pods/Coordinator/TestRunner.cs:277-308 | One more client report keeps every sender at the range of its last arrival. |
| Readiness.EarlierStep | src/Pods/Coordinator/TestRunner.cs:282-302 | When a new client reports, a sender whose last report came earlier keeps the range of that report. |
| Readiness.ReadyClientsNonEmpty | src/Pods/Coordinator/TestRunner.cs:289-298 | Once the client barrier completes, at least one client holds a range. |
| Readiness.ExtraReportGetsEmptyRange | src/Pods/Coordinator/TestRunner.cs:299-308 | Every client report after the P-th gets `(0, 0)`. |
| Readiness.RangesContiguous | src/Pods/Coordinator/TestRunner.cs:280-296 | The first range starts at 0 and each range ends where the next starts. The P-th range ends at T and no count is negative. |
| Readiness.CountSumIsEnd | src/Pods/Coordinator/TestRunner.cs:280-296 | The counts of the first n ranges sum to where the n-th range ends. |
| Readiness.CountsSumToTotal | src/Pods/Coordinator/TestRunner.cs:280-296 | The counts of the P ranges sum to exactly T. |
| Readiness.RangeOwner | src/Pods/Coordinator/TestRunner.cs:280-296 | Every id in [0, T) lies in some range among the first P. |
| Readiness.RangesDisjoint | src/Pods/Coordinator/TestRunner.cs:280-296 | An earlier range ends no later than a later one starts. |
| Readiness.Example12001 | src/Pods/Coordinator/TestRunner.cs:94-296 | T = 12001 gives 3 pods and the ranges (0,4000), (4000,4000) and (8000,4001). |
| Readiness.StreamPartition | src/Pods/Coordinator/TestRunner.cs:277-308 | At least P client reports from distinct senders complete the client barrier. Each sender then holds one range, and every id in [0, T) is owned by exactly one of them. |
| Readiness.PartitionByArrival | src/Pods/Coordinator/TestRunner.cs:277-308 | Distinct senders holding the ranges of their arrival order partition [0, T). |
| Readiness.ArrivalOwnersUnique | src/Pods/Coordinator/TestRunner.cs:280-302 | Distinct senders holding the ranges of their arrival order never share a connection id. |
| Readiness.DistinctCardinality | src/Pods/Coordinator/TestRunner.cs:282-302 | Distinct senders give as many map keys as reports. |
| Readiness.RepeatedSenderLosesRange | src/Pods/Coordinator/TestRunner.cs:282-302 | When a client's i-th report is not its sender's last, no client holds any id of the range that report was given: those ids have no owner. |
| Readiness.LostRange | src/Pods/Coordinator/TestRunner.cs:282-302 | The same for any client map assigned by arrival: the range of a position that is not its sender's last holds no id of any client. |
| Readiness.ArrivalRangesDisjoint | src/Pods/Coordinator/TestRunner.cs:282-302 | The ranges given to two different arrivals share no id. |
| Readiness.RepeatedSenderOverwritesOwnRange | src/Pods/Coordinator/TestRunner.cs:282-302 | Example: with T = 10000 and P = 2, client reports from a, b, a leave a with the empty range and b with ids 5000..9999, so ids 0..4999 have no owner. |
| Aggregation.Collect | src/Pods/Coordinator/TestRunner.cs:246-251 | A status report sets its sender's snapshot and leaves every other sender's snapshot as it was. |
| Aggregation.CollectAllKeepsLatest | src/Pods/Coordinator/TestRunner.cs:246-251 | After a stream, a sender has a snapshot iff it reported, and that snapshot is its last one. |
| Aggregation.SumRemove | src/Pods/Coordinator/TestRunner.cs:186-199 | A sum over senders splits off any one sender's contribution. |
| Aggregation.SumOfAbsentBucket | src/Pods/Coordinator/TestRunner.cs:193-198 | A latency bucket no sender has sums to 0. |
| Aggregation.MergedSums | src/Pods/Coordinator/TestRunner.cs:177-199 | Each merged counter is the sum of that counter over the snapshots. A bucket is present iff some snapshot has it, and its value is the sum over the senders, with absence counting as 0. |
| Aggregation.AddLatency | src/Pods/Coordinator/TestRunner.cs:193-198 | Adding a histogram gives the union of the keys, and each bucket is the sum with absence counting as 0. |
| Aggregation.Add | src/Pods/Coordinator/TestRunner.cs:188-198 | Adding a snapshot adds every counter and every bucket. |
| Aggregation.SnapshotExtensionality | src/Pods/Coordinator/TestRunner.cs:177-199 | Two snapshots with the same measures and the same bucket keys are equal. |
| Aggregation.MergedOverNothing | src/Pods/Coordinator/TestRunner.cs:177-185 | The merge over no sender is the zero snapshot. |
| Aggregation.MeasuredMergedOver | src/Pods/Coordinator/TestRunner.cs:186-199 | Every measure of a partial merge is the sum of that measure over the senders merged. |
| Aggregation.MergeOneMore | src/Pods/Coordinator/TestRunner.cs:186-199 | Merging one more sender adds that sender's snapshot, so visiting order does not matter. |
| Aggregation.ReplacedSnapshotCountsOnce | src/Pods/Coordinator/TestRunner.cs:246-251 | After a sender's snapshot is replaced, the merge counts the new snapshot once and the old one not at all. |
| Aggregation.SumOnSameSnapshots | src/Pods/Coordinator/TestRunner.cs:186-199 | Sums depend only on the snapshots of the senders summed. |
| Aggregation.MergedOfTwo | src/Pods/Coordinator/TestRunner.cs:186-199 | Two senders merge into the sum of their snapshots. |
| Aggregation.HistogramExample | src/Pods/Coordinator/TestRunner.cs:193-198 | A worked merge in which the buckets of two senders are added key by key. |
| Coordinator.LastIndexOf | src/Pods/Coordinator/TestRunner.cs:91 | The result is the last position of the character, or -1 when it does not occur. |
| Coordinator.WithStatus | src/Pods/Coordinator/TestRunner.cs:158-171 | Status and Healthy are overwritten and Report is kept. The old ErrorInfo is a prefix of the new one. ErrorInfo grows iff the update is unhealthy and carries an exception, and then by exactly that exception's entry. |
| Coordinator.ErrorLogKeepsBoth | src/Pods/Coordinator/TestRunner.cs:166-171 | Two unhealthy updates with exceptions leave both entries in the log, in order. |
| Coordinator.ScenariosForSpec | src/Pods/Coordinator/TestRunner.cs:405-434 | Building a round's scenarios fails iff some GroupBroadcast setting lacks a group family. Otherwise there is one definition per setting, carrying its behaviour and details, with a family exactly for GroupBroadcast. |
| Coordinator.GroupLocations | src/Pods/Coordinator/TestRunner.cs:143-147 | The locations whose resource groups are deleted are pairwise distinct. |
| Coordinator.GroupLocationsCover | src/Pods/Coordinator/TestRunner.cs:143-147 | A location is deleted iff some setting without a connection string has it as `Location ?? DefaultLocation`. |
| Coordinator.DeleteGroups | src/Pods/Coordinator/TestRunner.cs:142-147 | There is one deletion per location, in the locations' order. |
| Coordinator.AddSnapshot | src/Pods/Coordinator/TestRunner.cs:188-198 | One turn of the outer loop adds a snapshot's counters and, bucket by bucket, its histogram into the running total. |
| Coordinator.MergeSnapshots | src/Pods/Coordinator/TestRunner.cs:177-199 | The loop over the held snapshots computes their merge, whatever order it visits them in. |
| Coordinator.TestRunner.constructor | src/Pods/Coordinator/TestRunner.cs:22-39 | A new runner has no clients, snapshots, reports or server pods, has made no call, and has url `http://localhost:8080/`. |
| Coordinator.TestRunner.Call | src/Pods/Coordinator/TestRunner.cs:82-156 | An external call is appended to the trace and throws exactly when the environment lists its number. |
| Coordinator.TestRunner.UpdateTestStatus | src/Pods/Coordinator/TestRunner.cs:158-173 | The record becomes `WithStatus` of the old one and is then persisted, as exactly one more call. |
| Coordinator.TestRunner.CollectClientStatus | src/Pods/Coordinator/TestRunner.cs:246-251 | The handler overwrites the sender's snapshot (`Aggregation.Collect`). |
| Coordinator.TestRunner.CollectAllClientStatus | src/Pods/Coordinator/TestRunner.cs:246-251 | A stream of status reports leaves the collect of them all, in arrival order. |
| Coordinator.TestRunner.UpdateTestReports | src/Pods/Coordinator/TestRunner.cs:175-204 | Exactly one report, the merge of the held snapshots, is appended to the list. The record's Report becomes the list, and the record is persisted. |
| Coordinator.TestRunner.ReportReady | src/Pods/Coordinator/TestRunner.cs:268-326 | The ready handler updates the counters, the client ranges, the server list and both barrier flags as `Readiness.Step`. |
| Coordinator.TestRunner.HandleReadyReports | src/Pods/Coordinator/TestRunner.cs:268-326 | A stream of ready reports leaves the fold of `Readiness.Step` over it. |
| Coordinator.TestRunner.InstanceName | src/Pods/Coordinator/TestRunner.cs:215 | Setting i's instance is named by the test id, a '-' and more text. |
| Coordinator.TestRunner.InstanceNamesDistinct | src/Pods/Coordinator/TestRunner.cs:209-221 | Different settings get different instance names. |
| Coordinator.TestRunner.ProvisionPlanGrows | src/Pods/Coordinator/TestRunner.cs:209-221 | The calls that provision fewer settings are a prefix of the calls for more. |
| Coordinator.TestRunner.ConnectionStrings | src/Pods/Coordinator/TestRunner.cs:208-223 | Entry i is setting i's supplied connection string or, when none is supplied, its new instance's key. |
| Coordinator.TestRunner.CreateAsrs | src/Pods/Coordinator/TestRunner.cs:226-244 | The calls are: create the resource group, create the instance (tier "Standard" and size 1 by default), fetch its key. The first throw ends it; otherwise the result is the key. |
| Coordinator.TestRunner.ProvisionSetting | src/Pods/Coordinator/TestRunner.cs:211-220 | One loop turn keeps a supplied string without a call, or provisions an instance. A throw is reported as a failed run of the whole provisioning plan. |
| Coordinator.TestRunner.PrepareInstances | src/Pods/Coordinator/TestRunner.cs:206-224 | The settings are provisioned in order and the first throw ends the loop. On success, entry i is setting i's connection string. |
| Coordinator.TestRunner.AckPhase | src/Pods/Coordinator/TestRunner.cs:440-466 | A phase awaits acknowledgements from the current clients, then sends the command. A throw stops it. |
| Coordinator.TestRunner.LaunchPods | src/Pods/Coordinator/TestRunner.cs:337-348 | The runner subscribes the ready handler, then creates the server pods, then the client pods. Each call runs only if the one before did not throw. Once the server pods exist, the runner keeps their url. |
| Coordinator.TestRunner.SetScenarioPhase | src/Pods/Coordinator/TestRunner.cs:393-438 | The ack barrier is installed first. A GroupBroadcast setting without a family then throws "Group family is required" before anything is sent. Otherwise the round's scenarios are sent. |
| Coordinator.TestRunner.CreatePods | src/Pods/Coordinator/TestRunner.cs:329-368 | With a pod count of 0 the runner throws DivideByZero and makes no call. Otherwise it subscribes, creates the server pods and the client pods. If those three calls go through, the ready state it leaves is the fold of the environment's ready reports, and the server url is the environment's. It hangs exactly when those calls went through and that fold leaves a barrier incomplete. When both barriers complete, every client of the fold is sent its range. |
| Coordinator.TestRunner.StartRound | src/Pods/Coordinator/TestRunner.cs:116-120 | A round shows "Testing Round i", then clears the snapshots (unless that status call threw), then runs the set-scenario and start-scenario calls. A GroupBroadcast setting without a family throws GroupFamilyRequired once the ack barrier is installed. The first throwing call ends it. |
| Coordinator.TestRunner.DelayRange | src/Pods/Coordinator/TestRunner.cs:121 | `Task.Delay` accepts a duration of s seconds iff 0 ≤ s ≤ 4294967, that is at most 4294967294 ms. |
| Coordinator.TestRunner.EndRound | src/Pods/Coordinator/TestRunner.cs:122-123 | After the dwell, the round stops the scenario and stores the round's report, as exactly the round's closing calls. Without a throw, exactly that round's report is appended. |
| Coordinator.TestRunner.RunRound | src/Pods/Coordinator/TestRunner.cs:114-124 | A round's calls are the round plan: "Testing Round i", set and start the scenario, then stop it and store the report. The plan stops early if the set phase threw GroupFamilyRequired, or if the duration is out of Task.Delay's range, which throws ArgumentOutOfRange. The first throwing call ends it. Without a throw, exactly that round's report is appended. The record stays healthy with its error log unchanged. A throw appends nothing or that one report. |
| Coordinator.TestRunner.RoundTurn | src/Pods/Coordinator/TestRunner.cs:113-124 | One loop turn extends the run of the rounds plan by one round and keeps the loop invariant. |
| Coordinator.TestRunner.ConnectionParameters | src/Pods/Coordinator/TestRunner.cs:378-388 | The StartClientConnections parameters carry the server url and the total connection count. Their per-client rate is the one the stop phase sends. |
| Coordinator.TestRunner.RateShare | src/Pods/Coordinator/TestRunner.cs:386 | For a non-negative rate, each client's share times the client count is at most the rate and less than one message per client short of it. |
| Coordinator.TestRunner.StartClients | src/Pods/Coordinator/TestRunner.cs:111-112 | The runner shows "Starting client connections", awaits the current clients' acknowledgements and sends the connection parameters. These calls are exactly the start plan, and the first throw ends it. |
| Coordinator.TestRunner.RunRounds | src/Pods/Coordinator/TestRunner.cs:113-124 | The calls are the rounds plan, ending where a round throws. N completed rounds yield N reports, in round order. The record's report is then that list, and the error log is untouched. |
| Coordinator.TestRunner.StopClients | src/Pods/Coordinator/TestRunner.cs:126-128 | The runner shows "Stopping client connections", awaits acknowledgements and sends the stop command with the rate shared by integer division, then shows "Test Finishes". These calls are exactly the stop plan, and the first throw ends it. |
| Coordinator.TestRunner.RunClients | src/Pods/Coordinator/TestRunner.cs:111-128 | From starting the connections to "Test Finishes", the calls are the start plan, the rounds plan and, unless a round threw on its own, the stop plan. The first throw ends them. |
| Coordinator.TestRunner.PodsAndClients | src/Pods/Coordinator/TestRunner.cs:109-128 | A pod count of 0 throws DivideByZero with no call. Otherwise the calls are the pod plan, then the clients plan over the clients of the ready fold, if that fold completes both barriers. It hangs exactly when the pod launch calls went through and the fold leaves a barrier incomplete. |
| Coordinator.TestRunner.ClientsAfterPods | src/Pods/Coordinator/TestRunner.cs:111-128 | A run of the clients plan after fault-free pod calls is an ending of both together. |
| Coordinator.TestRunner.RunPhases | src/Pods/Coordinator/TestRunner.cs:106-128 | The try block's calls are exactly "Creating pods", then the pods and clients plans over the fold of the ready reports. A provisioning failure ends it with that error, and otherwise the first throw ends it. It hangs exactly when provisioning succeeded, the pod count is non-zero, "Creating pods" and the three launch calls went through and the fold leaves a barrier incomplete. The error log is kept and the record stays healthy. When nothing throws it leaves one report per round and the status "Test Finishes". |
| Coordinator.TestRunner.FirstFault | src/Pods/Coordinator/TestRunner.cs:142-147 | The first throwing call in a stretch is a listed fault inside that stretch. |
| Coordinator.TestRunner.FirstFaultExtend | src/Pods/Coordinator/TestRunner.cs:142-147 | With one more call, the first fault stays first, or the new call is the first to throw. |
| Coordinator.TestRunner.FirstFaultNone | src/Pods/Coordinator/TestRunner.cs:142-147 | There is no first fault iff no call in the stretch throws. |
| Coordinator.TestRunner.DeleteResourceGroups | src/Pods/Coordinator/TestRunner.cs:142-147 | Every deletion is issued and the first exception, in call order, is reported. |
| Coordinator.TestRunner.Teardown | src/Pods/Coordinator/TestRunner.cs:136-147 | The runner deletes the client pods, then the server pods, then the resource groups. A throwing pod deletion stops the rest. |
| Coordinator.TestRunner.OpenRecord | src/Pods/Coordinator/TestRunner.cs:90-92 | The runner opens the status table. A test id without '-' then throws ArgumentOutOfRange; otherwise it loads the record under the id split at its last '-'. The first throw ends it. What it throws is the environment's head error: the first fault of those calls, or ArgumentOutOfRange. |
| Coordinator.TestRunner.PrepareCluster | src/Pods/Coordinator/TestRunner.cs:101-105 | The runner shows "Creating vms", sizes the node pool to the client plus server pods, connects to the bus and subscribes to status reports. The first throw ends it. |
| Coordinator.TestRunner.Setup | src/Pods/Coordinator/TestRunner.cs:90-105 | The pod count is the ceiling formula. A test id without '-' throws after opening the table. Otherwise the runner loads the record, provisions the instances (a provisioning throw is kept for later) and then continues. If no record was found it throws NullReference before any persist; otherwise it shows "Creating vms", sizes the node pool, connects and subscribes. The first throwing call ends it. What it throws is SetupError(), which the environment decides. On success the record is the stored one showing "Creating vms", healthy, provisioning yielded Provisioned(), and the try block starts at call TryStart(). |
| Coordinator.TestRunner.SetupRest | src/Pods/Coordinator/TestRunner.cs:93-105 | After the head calls, provisioning runs, then, on a stored record, "Creating vms" and the three cluster calls. Without a stored record it throws NullReference. Otherwise it throws the first fault of the four calls after provisioning. On success the record is the stored one showing "Creating vms". |
| Coordinator.TestRunner.Prepare | src/Pods/Coordinator/TestRunner.cs:90-105 | The setup throws exactly SetupError(). When it does not, a record is stored, the runner's record is that one showing "Creating vms", provisioning yielded Provisioned(), and TryStart() calls have been made. |
| Coordinator.TestRunner.CleanUp | src/Pods/Coordinator/TestRunner.cs:132-153 | The finally block runs the teardown plan. Exactly when it throws, "Clean up failed" is recorded, unhealthy, with the first exception, and the record is persisted. The teardown's exception is swallowed: the block throws only what that persist call throws, and nothing when the teardown went through. |
| Coordinator.TestRunner.Finish | src/Pods/Coordinator/TestRunner.cs:129-155 | A failure of the try block is recorded as unhealthy with its exception appended, by one persist call of the "Testing Round failed " record. Teardown then runs, starting at the next call. What escapes is exactly Escaped: the finally block's persist fault, or else the catch block's persist fault, or else nothing. The try block's exception itself is never rethrown. |
| Coordinator.TestRunner.FailuresSwallowed | src/Pods/Coordinator/TestRunner.cs:129-153 | Nothing escapes the catch and finally blocks exactly when both catch blocks' persist calls go through. Neither the try block's exception nor the teardown's is rethrown. |
| Coordinator.TestRunner.TryBlock | src/Pods/Coordinator/TestRunner.cs:106-128 | The try block hangs exactly when provisioning succeeded, the pod count is non-zero, its first four calls went through and the ready fold leaves a barrier incomplete. Otherwise it throws the first fault among the calls of its plan, or else its own exception, and stops right after that call. The error log is kept and the record stays healthy. |
| Coordinator.TestRunner.TryCatchFinally | src/Pods/Coordinator/TestRunner.cs:106-155 | It hangs under the same condition as the try block, with no teardown. Otherwise a try-block failure is recorded (unhealthy, exception logged) and teardown starts right after the try block's last call, one call later when a failure was recorded. It then returns or throws exactly as Escaped says: only a throw of one of the two catch blocks' persist calls gets out. Success leaves one report per round, "Test Finishes" and an unchanged error log. |
| Coordinator.TestRunner.RunTry | src/Pods/Coordinator/TestRunner.cs:106-155 | After a setup that went through, the run hangs exactly when Hangs() holds. Otherwise the try block throws exactly TryError(), and teardown starts at call TryEnd(), or one call later when the failure is recorded first. The run then ends as Escaped says, and returns normally whenever both catch blocks' persist calls go through. |
| Coordinator.TestRunner.RunAsync | src/Pods/Coordinator/TestRunner.cs:82-156 | No service setting means no call. The setup's exception is exactly SetupError(), and RunAsync then throws it with no teardown. The run hangs exactly when Hangs() holds: the setup went through, there is a client pod, the launch calls went through and the ready reports leave a barrier incomplete. Teardown is skipped exactly when there is no service setting, when setup threw or when the run hangs. Otherwise the try block throws exactly TryError() and teardown starts at TryEnd(), or one call later. The try block's and the teardown's exceptions are swallowed: RunAsync throws only what a catch block's own persist call throws (Escaped), and returns normally when both go through. A try-block failure leaves the record unhealthy with its exception logged. Success leaves one report per round, "Test Finishes", healthy and an unchanged error log. |
| Enums.Transport | src/Libs/Common/Enums.cs:9-35 | A protocol's transport code is its value's low nibble: WebSockets 1, ServerSentEvents 2, LongPolling 4. |
| Enums.Format | src/Libs/Common/Enums.cs:10-35 | A protocol's format code is its value's high nibble. The format is Binary exactly for the MessagePack members. |
| Enums.Encode | src/Libs/Common/Enums.cs:9-11 | `transport | (format << 4)` decodes back to both parts. |
| Enums.ValueIsEncoding | src/Libs/Common/Enums.cs:19-35 | Every member's value is the packing of its own transport and format. |
| Enums.FromValue | src/Libs/Common/Enums.cs:19-35 | The decoded member is exactly the one whose value is v, if any. |
| Enums.ProtocolDeterminedByParts | src/Libs/Common/Enums.cs:19-35 | The five values are pairwise distinct, and transport and format together determine the member. |
| Enums.BehaviorOrdinal | src/Libs/Common/Enums.cs:39-45 | Each behaviour sits at its declaration position. |
| Enums.ClientBehaviorsAreFour | src/Libs/Common/Enums.cs:39-45 | There are exactly four behaviours, each listed once. |
| Enums.LatencyOrdinal | src/Libs/Common/Enums.cs:48-58 | Each latency class sits at its declaration position. |
| Enums.LatencyClassesAreEight | src/Libs/Common/Enums.cs:48-58 | There are exactly eight classes, each listed once, from LessThan50ms to MoreThan5s. |
| Numerals.NatToString | src/Pods/Coordinator/TestRunner.cs:215 | `i.ToString()` is a non-empty digit string with no leading zero. |
| Numerals.DigitRoundTrip | src/Pods/Coordinator/TestRunner.cs:215 | Each digit character has its own value. |
| Numerals.NatToStringRoundTrip | src/Pods/Coordinator/TestRunner.cs:215 | Reading the digits back gives the number. |
| Numerals.NatToStringInjective | src/Pods/Coordinator/TestRunner.cs:215 | Different naturals print as different digit strings. |
| Numerals.ParseInt32 | SignalRServiceBenchmarkPlugin/plugins/Plugin.Microsoft.Azure.SignalR.Benchmark/SignalRPlugin/Configuration/SimpleBenchmarkConfiguration.cs:44-46 | A parsed numeral lies in the Int32 range and has digits, and a negative result has a '-' sign. |
| Numerals.IntToStringRoundTrip | SignalRServiceBenchmarkPlugin/plugins/Plugin.Microsoft.Azure.SignalR.Benchmark/SignalRPlugin/Configuration/SimpleBenchmarkConfiguration.cs:44-46 | Every Int32 printed in decimal parses back to itself. |
| Numerals.DigitsValueZero | SignalRServiceBenchmarkPlugin/plugins/Plugin.Microsoft.Azure.SignalR.Benchmark/SignalRPlugin/Configuration/SimpleBenchmarkConfiguration.cs:44-46 | A digit string denotes 0 iff all its digits are '0'. |
| BenchmarkConfiguration.TrimStart | SignalRServiceBenchmarkPlugin/plugins/Plugin.Microsoft.Azure.SignalR.Benchmark/SignalRPlugin/Configuration/SimpleBenchmarkConfiguration.cs:44-46 | The result is the suffix left after the leading whitespace, and it does not start with whitespace. |
| BenchmarkConfiguration.TrimEnd | SignalRServiceBenchmarkPlugin/plugins/Plugin.Microsoft.Azure.SignalR.Benchmark/SignalRPlugin/Configuration/SimpleBenchmarkConfiguration.cs:44-46 | The result is the prefix left before the trailing whitespace, and it does not end with whitespace. |
| BenchmarkConfiguration.TrimPadded | SignalRServiceBenchmarkPlugin/plugins/Plugin.Microsoft.Azure.SignalR.Benchmark/SignalRPlugin/Configuration/SimpleBenchmarkConfiguration.cs:44-46 | Whitespace padding around a word trims off to the word. |
| BenchmarkConfiguration.IsSimple | SignalRServiceBenchmarkPlugin/plugins/Plugin.Microsoft.Azure.SignalR.Benchmark/SignalRPlugin/Configuration/SimpleBenchmarkConfiguration.cs:39-51 | isSimple is true iff the root has a "mode" key whose trimmed value is "simple" or an Int32 numeral equal to 0. |
| BenchmarkConfiguration.ParseMode | SignalRServiceBenchmarkPlugin/plugins/Plugin.Microsoft.Azure.SignalR.Benchmark/SignalRPlugin/Configuration/SimpleBenchmarkConfiguration.cs:45 | Every value `Enum.TryParse` accepts fits in 32 bits. A blank text is refused. |
| BenchmarkConfiguration.ModeNames | SignalRServiceBenchmarkPlugin/plugins/Plugin.Microsoft.Azure.SignalR.Benchmark/SignalRPlugin/Configuration/SimpleBenchmarkConfiguration.cs:45 | The names "simple" and "advance", with white space around them, parse to their own values. |
| BenchmarkConfiguration.ModeIsSimple | SignalRServiceBenchmarkPlugin/plugins/Plugin.Microsoft.Azure.SignalR.Benchmark/SignalRPlugin/Configuration/SimpleBenchmarkConfiguration.cs:45-47 | A mode text parses to simple iff, trimmed, it is "simple" or a zero numeral. |
| BenchmarkConfiguration.ParsesToZero | SignalRServiceBenchmarkPlugin/plugins/Plugin.Microsoft.Azure.SignalR.Benchmark/SignalRPlugin/Configuration/SimpleBenchmarkConfiguration.cs:44-46 | The Int32 parse gives 0 exactly for a non-empty string of zeros after an optional sign. |
| BenchmarkConfiguration.NameIsSimple | SignalRServiceBenchmarkPlugin/plugins/Plugin.Microsoft.Azure.SignalR.Benchmark/SignalRPlugin/Configuration/SimpleBenchmarkConfiguration.cs:39-51 | For a value that does not start with a digit or sign, the mode is "simple" iff the trimmed value is "simple". Such a value is never a zero numeral. |
| BenchmarkConfiguration.NumeralIsSimple | SignalRServiceBenchmarkPlugin/plugins/Plugin.Microsoft.Azure.SignalR.Benchmark/SignalRPlugin/Configuration/SimpleBenchmarkConfiguration.cs:39-51 | For a value that starts with a digit or sign, the mode is "simple" iff the trimmed value is a zero numeral. Such a value is never the word "simple". |
| BenchmarkConfiguration.NamedModes | SignalRServiceBenchmarkPlugin/plugins/Plugin.Microsoft.Azure.SignalR.Benchmark/SignalRPlugin/Configuration/SimpleBenchmarkConfiguration.cs:39-51 | A padded "simple" gives true, a padded "advance" gives false, and a missing key gives false. |
| BenchmarkConfiguration.MasterStep.Set | SignalRServiceBenchmarkPlugin/plugins/Plugin.Microsoft.Azure.SignalR.Benchmark/SignalRPlugin/Configuration/SimpleBenchmarkConfiguration.cs:55 | A write sets one entry, overwriting an earlier one, and keeps every other entry. |
| BenchmarkConfiguration.AttachType | SignalRServiceBenchmarkPlugin/plugins/Plugin.Microsoft.Azure.SignalR.Benchmark/SignalRPlugin/Configuration/SimpleBenchmarkConfiguration.cs:53-57 | The same step is returned, with Type set to the type name and every other entry unchanged. |
| BenchmarkConfiguration.PlainStep | SignalRServiceBenchmarkPlugin/plugins/Plugin.Microsoft.Azure.SignalR.Benchmark/SignalRPlugin/Configuration/SimpleBenchmarkConfiguration.cs:59-65 | A new step holds exactly Method and Type. |
| BenchmarkConfiguration.RegisterRecordLatency | SignalRServiceBenchmarkPlugin/plugins/Plugin.Microsoft.Azure.SignalR.Benchmark/SignalRPlugin/Configuration/SimpleBenchmarkConfiguration.cs:59-65 | A new step holds exactly Method RegisterCallbackRecordLatency and Type. |
| BenchmarkConfiguration.RegisterOnConnected | SignalRServiceBenchmarkPlugin/plugins/Plugin.Microsoft.Azure.SignalR.Benchmark/SignalRPlugin/Configuration/SimpleBenchmarkConfiguration.cs:67-73 | A new step holds exactly Method RegisterCallbackOnConnected and Type. |
| BenchmarkConfiguration.CollectConnectionId | SignalRServiceBenchmarkPlugin/plugins/Plugin.Microsoft.Azure.SignalR.Benchmark/SignalRPlugin/Configuration/SimpleBenchmarkConfiguration.cs:261-267 | A new step holds exactly Method CollectConnectionId and Type. |
| BenchmarkConfiguration.StopCollector | SignalRServiceBenchmarkPlugin/plugins/Plugin.Microsoft.Azure.SignalR.Benchmark/SignalRPlugin/Configuration/SimpleBenchmarkConfiguration.cs:486-492 | A new step holds exactly Method StopCollector and Type. |
| BenchmarkConfiguration.StopConnection | SignalRServiceBenchmarkPlugin/plugins/Plugin.Microsoft.Azure.SignalR.Benchmark/SignalRPlugin/Configuration/SimpleBenchmarkConfiguration.cs:494-500 | A new step holds exactly Method StopConnection and Type. |
| BenchmarkConfiguration.DisposeConnection | SignalRServiceBenchmarkPlugin/plugins/Plugin.Microsoft.Azure.SignalR.Benchmark/SignalRPlugin/Configuration/SimpleBenchmarkConfiguration.cs:502-508 | A new step holds exactly Method DisposeConnection and Type. |
| BenchmarkConfiguration.CreateConnectionInternal | SignalRServiceBenchmarkPlugin/plugins/Plugin.Microsoft.Azure.SignalR.Benchmark/SignalRPlugin/Configuration/SimpleBenchmarkConfiguration.cs:111-125 | A new step holds exactly ConnectionTotal, HubUrls, HubProtocol, TransportType and Type. |
| BenchmarkConfiguration.CreateConnection | SignalRServiceBenchmarkPlugin/plugins/Plugin.Microsoft.Azure.SignalR.Benchmark/SignalRPlugin/Configuration/SimpleBenchmarkConfiguration.cs:75-110 | The connection entries plus the Method of the connection kind. |
| BenchmarkConfiguration.ConnectionBuildersDifferOnlyInMethod | SignalRServiceBenchmarkPlugin/plugins/Plugin.Microsoft.Azure.SignalR.Benchmark/SignalRPlugin/Configuration/SimpleBenchmarkConfiguration.cs:75-125 | The direct, ASP.NET and Core builders agree on every entry but Method, and their Methods are pairwise different. |
| BenchmarkConfiguration.StartConnection | SignalRServiceBenchmarkPlugin/plugins/Plugin.Microsoft.Azure.SignalR.Benchmark/SignalRPlugin/Configuration/SimpleBenchmarkConfiguration.cs:191-204 | A new step holds exactly the batch entries, Method StartConnection and Type. |
| BenchmarkConfiguration.Reconnect | SignalRServiceBenchmarkPlugin/plugins/Plugin.Microsoft.Azure.SignalR.Benchmark/SignalRPlugin/Configuration/SimpleBenchmarkConfiguration.cs:217-233 | The connection entries plus the batch entries, with Method Reconnect. |
| BenchmarkConfiguration.ReconnectCombinesConnectAndStart | SignalRServiceBenchmarkPlugin/plugins/Plugin.Microsoft.Azure.SignalR.Benchmark/SignalRPlugin/Configuration/SimpleBenchmarkConfiguration.cs:217-233 | A Reconnect step holds every connection entry and ConcurrentConnection, BatchMode and BatchWait, and its Method is Reconnect. |
| BenchmarkConfiguration.Wait | SignalRServiceBenchmarkPlugin/plugins/Plugin.Microsoft.Azure.SignalR.Benchmark/SignalRPlugin/Configuration/SimpleBenchmarkConfiguration.cs:206-215 | A new step holds exactly Method Wait, Type and Duration. |
| BenchmarkConfiguration.RepairConnections | SignalRServiceBenchmarkPlugin/plugins/Plugin.Microsoft.Azure.SignalR.Benchmark/SignalRPlugin/Configuration/SimpleBenchmarkConfiguration.cs:235-244 | A new step holds exactly Method RepairConnections, Type and ActionAfterConnect. |
| BenchmarkConfiguration.ConditionalStop | SignalRServiceBenchmarkPlugin/plugins/Plugin.Microsoft.Azure.SignalR.Benchmark/SignalRPlugin/Configuration/SimpleBenchmarkConfiguration.cs:246-259 | A new step holds Method ConditionalStop, Type and the three thresholds. |
| BenchmarkConfiguration.InitStatisticsCollectorInternal | SignalRServiceBenchmarkPlugin/plugins/Plugin.Microsoft.Azure.SignalR.Benchmark/SignalRPlugin/Configuration/SimpleBenchmarkConfiguration.cs:141-148 | A new step holds Type, LatencyStep and LatencyMax from the plugin constants. |
| BenchmarkConfiguration.InitCollector | SignalRServiceBenchmarkPlugin/plugins/Plugin.Microsoft.Azure.SignalR.Benchmark/SignalRPlugin/Configuration/SimpleBenchmarkConfiguration.cs:127-140 | The collector entries plus the Method of the collector kind. |
| BenchmarkConfiguration.CollectStatisticsInternal | SignalRServiceBenchmarkPlugin/plugins/Plugin.Microsoft.Azure.SignalR.Benchmark/SignalRPlugin/Configuration/SimpleBenchmarkConfiguration.cs:175-189 | The step always stores Interval 1000, whatever interval it is given. |
| BenchmarkConfiguration.CollectStatistics | SignalRServiceBenchmarkPlugin/plugins/Plugin.Microsoft.Azure.SignalR.Benchmark/SignalRPlugin/Configuration/SimpleBenchmarkConfiguration.cs:150-162 | The statistics entries with Method CollectStatistics. |
| BenchmarkConfiguration.CollectConnectionStatistics | SignalRServiceBenchmarkPlugin/plugins/Plugin.Microsoft.Azure.SignalR.Benchmark/SignalRPlugin/Configuration/SimpleBenchmarkConfiguration.cs:163-174 | The statistics entries with Method CollectConnectionStatistics and the plugin constants' percentile list, whatever list it is given. |
| BenchmarkConfiguration.StatisticsIntervalFixed | SignalRServiceBenchmarkPlugin/plugins/Plugin.Microsoft.Azure.SignalR.Benchmark/SignalRPlugin/Configuration/SimpleBenchmarkConfiguration.cs:150-189 | Both statistics steps carry Interval 1000 and their own Method. |
| BenchmarkConfiguration.SimpleSendingScenario | SignalRServiceBenchmarkPlugin/plugins/Plugin.Microsoft.Azure.SignalR.Benchmark/SignalRPlugin/Configuration/SimpleBenchmarkConfiguration.cs:433-451 | The step stores RemainderBegin = beginIndex, RemainderEnd = endIndex and Modulo = totalConnections, together with the sending entries. |
| BenchmarkConfiguration.GroupSendingScenario | SignalRServiceBenchmarkPlugin/plugins/Plugin.Microsoft.Azure.SignalR.Benchmark/SignalRPlugin/Configuration/SimpleBenchmarkConfiguration.cs:414-431 | The sending entries plus GroupConfigMode "Connection", GroupCount and ConnectionTotal. |
| BenchmarkConfiguration.GroupSendingKeepsSending | SignalRServiceBenchmarkPlugin/plugins/Plugin.Microsoft.Azure.SignalR.Benchmark/SignalRPlugin/Configuration/SimpleBenchmarkConfiguration.cs:414-431 | The group step keeps every sending entry and has ConnectionTotal = Modulo = totalConnections. |
| BenchmarkConfiguration.Scenario | SignalRServiceBenchmarkPlugin/plugins/Plugin.Microsoft.Azure.SignalR.Benchmark/SignalRPlugin/Configuration/SimpleBenchmarkConfiguration.cs:270-412 | Every public scenario stores RemainderBegin 0, RemainderEnd endIndex and Modulo equal to the connection count. Its Method is its own name, and it has a GroupCount iff it is a group scenario. |
| BenchmarkConfiguration.ScenarioNamesDistinct | SignalRServiceBenchmarkPlugin/plugins/Plugin.Microsoft.Azure.SignalR.Benchmark/SignalRPlugin/Configuration/SimpleBenchmarkConfiguration.cs:270-412 | The ten scenario methods have ten different names. |
| BenchmarkConfiguration.GroupInternal | SignalRServiceBenchmarkPlugin/plugins/Plugin.Microsoft.Azure.SignalR.Benchmark/SignalRPlugin/Configuration/SimpleBenchmarkConfiguration.cs:473-484 | A new step holds the group entries, with Method LeaveGroup. |
| BenchmarkConfiguration.JoinGroup | SignalRServiceBenchmarkPlugin/plugins/Plugin.Microsoft.Azure.SignalR.Benchmark/SignalRPlugin/Configuration/SimpleBenchmarkConfiguration.cs:453-461 | The group entries with Method overwritten to JoinGroup. |
| BenchmarkConfiguration.LeaveGroup | SignalRServiceBenchmarkPlugin/plugins/Plugin.Microsoft.Azure.SignalR.Benchmark/SignalRPlugin/Configuration/SimpleBenchmarkConfiguration.cs:463-471 | The group entries with Method LeaveGroup. |
| BenchmarkConfiguration.JoinAndLeaveDifferOnlyInMethod | SignalRServiceBenchmarkPlugin/plugins/Plugin.Microsoft.Azure.SignalR.Benchmark/SignalRPlugin/Configuration/SimpleBenchmarkConfiguration.cs:453-484 | Join and leave steps agree on every entry but Method. |
| ConfigGenerator.Helpers | SignalRServiceBenchmarkPlugin/plugins/Plugin.Microsoft.Azure.SignalR.Benchmark/Scripts/BenchmarkConfigurationGenerator/SendToClient.py:14-20 | The steps of the unseen helpers, one per label, in order. |
| ConfigGenerator.EpochsFrom | SignalRServiceBenchmarkPlugin/plugins/Plugin.Microsoft.Azure.SignalR.Benchmark/Scripts/BenchmarkConfigurationGenerator/SendToClient.py:26-30 | From epoch e, the loop runs on while the epoch is below step_length and the window fits, and stops at the first window that does not fit. |
| ConfigGenerator.Epochs | SignalRServiceBenchmarkPlugin/plugins/Plugin.Microsoft.Azure.SignalR.Benchmark/Scripts/BenchmarkConfigurationGenerator/SendToClient.py:26-30 | At most step_length epochs send, every window that sends fits the connections, and an early stop happens only at a window wider than them. |
| ConfigGenerator.GenerateConfig | SignalRServiceBenchmarkPlugin/plugins/Plugin.Microsoft.Azure.SignalR.Benchmark/Scripts/BenchmarkConfigurationGenerator/SendToClient.py:13-44 | The pipeline is the common steps, the latency callback and collect connection id, then the sending steps of every epoch that sends, then the post-sending steps. |
| ConfigGenerator.Sending | SignalRServiceBenchmarkPlugin/plugins/Plugin.Microsoft.Azure.SignalR.Benchmark/Scripts/BenchmarkConfigurationGenerator/SendToClient.py:25-42 | The sending steps of n epochs hold at least a send and a wait for each epoch. |
| ConfigGenerator.Epoch | SignalRServiceBenchmarkPlugin/plugins/Plugin.Microsoft.Azure.SignalR.Benchmark/Scripts/BenchmarkConfigurationGenerator/SendToClient.py:32-42 | An epoch adds the conditional-stop and reconnect steps the helper returns for the sends so far (none at epoch 0), and two more steps. |
| ConfigGenerator.EpochShape | SignalRServiceBenchmarkPlugin/plugins/Plugin.Microsoft.Azure.SignalR.Benchmark/Scripts/BenchmarkConfigurationGenerator/SendToClient.py:32-42 | An epoch's steps are helper steps, then its one send, to the window [0, base_step + e * step), then a wait of wait_time. |
| ConfigGenerator.SendsAppend | SignalRServiceBenchmarkPlugin/plugins/Plugin.Microsoft.Azure.SignalR.Benchmark/Scripts/BenchmarkConfigurationGenerator/SendToClient.py:44 | The send steps of a concatenation are those of each part, in order. |
| ConfigGenerator.HelpersSendNothing | SignalRServiceBenchmarkPlugin/plugins/Plugin.Microsoft.Azure.SignalR.Benchmark/Scripts/BenchmarkConfigurationGenerator/SendToClient.py:14-20 | Helper steps contain no send step. |
| ConfigGenerator.SendsByEpoch | SignalRServiceBenchmarkPlugin/plugins/Plugin.Microsoft.Azure.SignalR.Benchmark/Scripts/BenchmarkConfigurationGenerator/SendToClient.py:26-42 | The send steps of n epochs are exactly the n epochs' sends, in epoch order. |
| ConfigGenerator.GeneratedSends | SignalRServiceBenchmarkPlugin/plugins/Plugin.Microsoft.Azure.SignalR.Benchmark/Scripts/BenchmarkConfigurationGenerator/SendToClient.py:22-44 | The pipeline's send steps are one per epoch that sends, at most step_length of them. Each has remainder_begin 0 and remainder_end = base_step + epoch * step ≤ connections. |
| ConfigGenerator.SendingGrows | SignalRServiceBenchmarkPlugin/plugins/Plugin.Microsoft.Azure.SignalR.Benchmark/Scripts/BenchmarkConfigurationGenerator/SendToClient.py:25-42 | The sending list only grows: the steps of fewer epochs are a prefix of those of more. |
| ConfigGenerator.EpochLayout | SignalRServiceBenchmarkPlugin/plugins/Plugin.Microsoft.Azure.SignalR.Benchmark/Scripts/BenchmarkConfigurationGenerator/SendToClient.py:33-42 | Each epoch's steps sit right after the earlier epochs' steps. They are the conditional-stop and reconnect steps (none at epoch 0), then the send, then a wait. |
| ConfigGenerator.SendThenWait | SignalRServiceBenchmarkPlugin/plugins/Plugin.Microsoft.Azure.SignalR.Benchmark/Scripts/BenchmarkConfigurationGenerator/SendToClient.py:37-42 | Every send step is immediately followed by a wait of wait_time. |

## Left out

- Concurrency: the runner's handlers, `Task.WhenAll`, the `TaskCompletionSource` barriers and the concurrent dictionary are modelled as one sequential stream of events.
- Provisioning order: `PrepairAsrsInstancesAsync` runs beside the node-pool and bus setup in the source. The model runs it in place, at line 100, and its failure surfaces where it is awaited, inside the try block.
- Ready-report timing: the ready reports are all handled after the client pods are created. When a barrier never completes, the source waits forever; the model reports `Hung`, with no teardown.
- Status-report timing: a round's status reports are all collected after the dwell and before StopScenario. No interleaving with the other phases is modelled.
- Message bus internals: the acknowledgement barrier, `GetWhenAllAckAsync`, subscription order and a client that never acknowledges are not modelled. Each phase is one await action and one send action.
- Dwell and cancellation: the `Task.Delay` dwell is one action. It throws ArgumentOutOfRange for a negative duration and for one above the .NET 6 timer limit of 4294967294 ms. The lower limit of earlier .NET versions (Int32.MaxValue ms) is not modelled, and neither are cancellation tokens.
- Coordinator.TestRunner.UpdateTestReports: a status report whose `Latency` is null makes the source throw NullReference at TestRunner.cs:193. Snapshots in the model always hold a histogram, so this path is not modelled.
- External services: storage, Kubernetes, the resource provider and logging are not modelled. They are trace actions whose failures the environment chooses.
- Coordinator.TestRunner.CreateAsrs: the service-mode argument (`Job.TestMethod.GetServiceMode()`) is not part of the instance action.
- Coordinator.TestRunner.StartClients: the `GroupDefinitions` field of the StartClientConnections parameters is not carried in the payload.
- Exception text: the string of an exception, with its stack trace, is approximated by a fixed description per exception kind.
- Report serialisation: the JSON of the report list is the list of snapshots itself.
- Integer width: 32-bit overflow of counters, of the range arithmetic and of the rate division is not modelled; integers are unbounded.
- Pod count: `Math.Ceiling` on a double is modelled as integer ceiling division. It is exact for every Int32 connection count.
- TestCategory: the enum `TestCategory` (src/Libs/Common/Enums.cs:61-66) has no logic and is not modelled.
- BenchmarkConfiguration.IsSimple: the comma-separated flag lists accepted by `Enum.TryParse`, and whitespace outside Latin-1, are not modelled. ParseMode trims the same white space (`char.IsWhiteSpace`, U+0085 and U+00A0 included) in the numeric branch as in the name branch, as .NET Framework and .NET Core 2.x do. From .NET Core 3.0 on, a numeral may be followed only by U+0009–U+000D or U+0020, so a numeral followed by U+0085 or U+00A0 is accepted here but refused there.
- YAML: the YAML node API is a map from keys to scalar text. Non-scalar value nodes are not modelled.
- Null fields: null configuration fields (`BenchConfigData` members) are not modelled.
- Floating point: the double thresholds of ConditionalStop are Dafny `real`s.
- Builder placement: the builders are instance methods of the C# class, but the model gives them as module-level methods. They read no instance state besides the plugin constants, which are passed in as `PluginConstants`.
- Parameter keys: the key strings of `SignalRConstants` are modelled as the datatype `Key`, assumed pairwise distinct. LATENCY_STEP, LATENCY_MAX and PERCENTILE_LIST are the fields of `PluginConstants`.
- Unseen Python helpers: `CommonStep`, `TemplateSetter` and `ConfigSaver` are not part of this model. Their steps are opaque helper steps named by labels, and the conditional-stop helper is a function parameter. `set_config` and `save_yaml` (SendToClient.py:46-48) are left out.

=== FILE: aggregation.dfy ===
/**
 * The status aggregator of the coordinator (CollectClientStatus and
 * UpdateTestReports in src/Pods/Coordinator/TestRunner.cs): every client's
 * latest snapshot is kept by sender, and a round's report sums every counter
 * and merges the latency histograms bucket by bucket over the snapshots held
 * when the round ends. This module is the specification; the class in module
 * Coordinator computes the same report with the source's loops.
 */
module Aggregation {
  import opened Enums
  import opened Messages

  /** A status report overwrites its sender's previous snapshot. */
  function Collect(m: map<Sender, Snapshot>, r: StatusReport): (m': map<Sender, Snapshot>)
    ensures m'.Keys == m.Keys + {r.sender} && m'[r.sender] == r.snapshot
    ensures forall s :: s in m && s != r.sender ==> s in m' && m'[s] == m[s]
  {
    m[r.sender := r.snapshot]
  }

  /** The snapshot map after a stream of reports, handled in arrival order. */
  function CollectAll(m: map<Sender, Snapshot>, rs: seq<StatusReport>): map<Sender, Snapshot>
    decreases |rs|
  {
    if rs == [] then m else Collect(CollectAll(m, rs[..|rs| - 1]), rs[|rs| - 1])
  }

  /** The last snapshot `s` sent in `rs`, if any. */
  function LastFrom(rs: seq<StatusReport>, s: Sender): Wrappers.Option<Snapshot>
    decreases |rs|
  {
    if rs == [] then Wrappers.None
    else if rs[|rs| - 1].sender == s then Wrappers.Some(rs[|rs| - 1].snapshot)
    else LastFrom(rs[..|rs| - 1], s)
  }

  /**
   * Starting from an empty map (the map is cleared at the start of every
   * round), a sender has an entry exactly when it reported, and the entry
   * is its latest snapshot: earlier snapshots from the same sender are gone.
   */
  lemma {:induction false} CollectAllKeepsLatest(rs: seq<StatusReport>, s: Sender)
    ensures s in CollectAll(map[], rs) <==> LastFrom(rs, s).Some?
    ensures s in CollectAll(map[], rs) ==> CollectAll(map[], rs)[s] == LastFrom(rs, s).value
    decreases |rs|
  {
    if rs != [] {
      CollectAllKeepsLatest(rs[..|rs| - 1], s);
    }
  }

  datatype Counter = TotalReconnect | Connected | Reconnecting | Sent | Received

  /** What one snapshot contributes to a counter or to a latency bucket (an absent bucket is 0). */
  datatype Measure = Count(c: Counter) | Bucket(lc: LatencyClass)

  function Get(lat: map<LatencyClass, int>, lc: LatencyClass): int {
    if lc in lat then lat[lc] else 0
  }

  function Measured(v: Snapshot, k: Measure): int {
    match k
    case Count(TotalReconnect) => v.totalReconnectCount
    case Count(Connected) => v.connectedCount
    case Count(Reconnecting) => v.reconnectingCount
    case Count(Sent) => v.messageSent
    case Count(Received) => v.messageReceived
    case Bucket(lc) => Get(v.latency, lc)
  }

  ghost function Pick(keys: set<Sender>): Sender
    requires keys != {}
  {
    var s :| s in keys; s
  }

  /** The sum of one measure over the snapshots of `keys`, in no particular order. */
  ghost function Sum(m: map<Sender, Snapshot>, keys: set<Sender>, k: Measure): int
    requires keys <= m.Keys
    decreases keys
  {
    if keys == {} then 0 else var s := Pick(keys); Measured(m[s], k) + Sum(m, keys - {s}, k)
  }

  /** Any element can be taken out of the sum first: the order of iteration does not matter. */
  lemma {:induction false} SumRemove(m: map<Sender, Snapshot>, keys: set<Sender>, s: Sender, k: Measure)
    requires keys <= m.Keys && s in keys
    ensures Sum(m, keys, k) == Measured(m[s], k) + Sum(m, keys - {s}, k)
    decreases keys
  {
    var p := Pick(keys);
    if p != s {
      SumRemove(m, keys - {p}, s, k);
      SumRemove(m, keys - {s}, p, k);
      assert keys - {p} - {s} == keys - {s} - {p};
    }
  }

  /** A bucket no snapshot has sums to 0. */
  lemma {:induction false} SumOfAbsentBucket(m: map<Sender, Snapshot>, keys: set<Sender>, lc: LatencyClass)
    requires keys <= m.Keys
    requires forall s :: s in keys ==> lc !in m[s].latency
    ensures Sum(m, keys, Bucket(lc)) == 0
    decreases keys
  {
    if keys != {} {
      SumOfAbsentBucket(m, keys - {Pick(keys)}, lc);
    }
  }

  /** The buckets present in at least one of the snapshots of `keys`. */
  ghost function LatencyKeys(m: map<Sender, Snapshot>, keys: set<Sender>): set<LatencyClass>
    requires keys <= m.Keys
  {
    set s, lc | s in keys && lc in m[s].latency :: lc
  }

  /** The report for the snapshots of `keys`. */
  ghost function MergedOver(m: map<Sender, Snapshot>, keys: set<Sender>): Snapshot
    requires keys <= m.Keys
  {
    Snapshot(
      Sum(m, keys, Count(TotalReconnect)),
      Sum(m, keys, Count(Connected)),
      Sum(m, keys, Count(Reconnecting)),
      Sum(m, keys, Count(Sent)),
      Sum(m, keys, Count(Received)),
      map lc | lc in LatencyKeys(m, keys) :: Sum(m, keys, Bucket(lc)))
  }

  /** A round's report: the merge of the current snapshot of every sender. */
  ghost function Merged(m: map<Sender, Snapshot>): Snapshot {
    MergedOver(m, m.Keys)
  }

  /**
   * What a round's report holds: every counter is the sum over the current
   * snapshots, a bucket is present exactly when some snapshot has it, and
   * its value is the sum over all snapshots with absence counting as 0.
   */
  lemma MergedSums(m: map<Sender, Snapshot>)
    ensures forall c: Counter :: Measured(Merged(m), Count(c)) == Sum(m, m.Keys, Count(c))
    ensures forall lc :: lc in Merged(m).latency <==> exists s :: s in m && lc in m[s].latency
    ensures forall lc :: Get(Merged(m).latency, lc) == Sum(m, m.Keys, Bucket(lc))
  {
    var r := MergedOver(m, m.Keys);
    forall lc | lc !in r.latency ensures Get(r.latency, lc) == Sum(m, m.Keys, Bucket(lc)) {
      SumOfAbsentBucket(m, m.Keys, lc);
    }
  }

  /** Adds a snapshot's latency buckets into `a`, key by key; an absent key starts at 0. */
  function AddLatency(a: map<LatencyClass, int>, v: map<LatencyClass, int>): (r: map<LatencyClass, int>)
    ensures r.Keys == a.Keys + v.Keys
    ensures forall lc :: Get(r, lc) == Get(a, lc) + Get(v, lc)
  {
    map lc | lc in a.Keys + v.Keys :: Get(a, lc) + Get(v, lc)
  }

  /** Adds one snapshot into a running total: counters are summed, histograms merged. */
  function Add(a: Snapshot, v: Snapshot): (r: Snapshot)
    ensures forall k :: Measured(r, k) == Measured(a, k) + Measured(v, k)
    ensures r.latency.Keys == a.latency.Keys + v.latency.Keys
  {
    Snapshot(
      a.totalReconnectCount + v.totalReconnectCount,
      a.connectedCount + v.connectedCount,
      a.reconnectingCount + v.reconnectingCount,
      a.messageSent + v.messageSent,
      a.messageReceived + v.messageReceived,
      AddLatency(a.latency, v.latency))
  }

  /** Two snapshots are equal when every measure and the bucket set agree. */
  lemma SnapshotExtensionality(a: Snapshot, b: Snapshot)
    requires forall k :: Measured(a, k) == Measured(b, k)
    requires a.latency.Keys == b.latency.Keys
    ensures a == b
  {
    assert Measured(a, Count(TotalReconnect)) == Measured(b, Count(TotalReconnect));
    assert Measured(a, Count(Connected)) == Measured(b, Count(Connected));
    assert Measured(a, Count(Reconnecting)) == Measured(b, Count(Reconnecting));
    assert Measured(a, Count(Sent)) == Measured(b, Count(Sent));
    assert Measured(a, Count(Received)) == Measured(b, Count(Received));
    forall lc | lc in a.latency ensures a.latency[lc] == b.latency[lc] {
      assert Measured(a, Bucket(lc)) == Measured(b, Bucket(lc));
    }
  }

  /** Nothing merged yet is the empty report. */
  lemma MergedOverNothing(m: map<Sender, Snapshot>)
    ensures MergedOver(m, {}) == EmptySnapshot
  {
    assert LatencyKeys(m, {}) == {};
  }

  /** Reading a measure of a partial report gives the sum over its senders. */
  lemma MeasuredMergedOver(m: map<Sender, Snapshot>, keys: set<Sender>, k: Measure)
    requires keys <= m.Keys
    ensures Measured(MergedOver(m, keys), k) == Sum(m, keys, k)
  {
    if k.Bucket? && k.lc !in LatencyKeys(m, keys) {
      SumOfAbsentBucket(m, keys, k.lc);
    }
  }

  /**
   * Merging one more sender's snapshot is adding it to the running total:
   * the step of the source's loop, whatever order it visits the senders in.
   */
  lemma MergeOneMore(m: map<Sender, Snapshot>, keys: set<Sender>, s: Sender)
    requires keys <= m.Keys && s in m && s !in keys
    ensures MergedOver(m, keys + {s}) == Add(MergedOver(m, keys), m[s])
  {
    var bigger := keys + {s};
    var lhs, rhs := MergedOver(m, bigger), Add(MergedOver(m, keys), m[s]);
    forall k ensures Measured(lhs, k) == Measured(rhs, k) {
      MeasuredMergedOver(m, bigger, k);
      MeasuredMergedOver(m, keys, k);
      SumRemove(m, bigger, s, k);
      assert bigger - {s} == keys;
    }
    assert LatencyKeys(m, bigger) == LatencyKeys(m, keys) + m[s].latency.Keys;
    SnapshotExtensionality(lhs, rhs);
  }

  /**
   * Replacing a sender's snapshot counts the new one once and the old one
   * not at all: the report equals the others' report plus the new snapshot.
   */
  lemma ReplacedSnapshotCountsOnce(m: map<Sender, Snapshot>, s: Sender, v: Snapshot)
    ensures Merged(m[s := v]) == Add(MergedOver(m, m.Keys - {s}), v)
  {
    var m' := m[s := v];
    var others := m.Keys - {s};
    assert m'.Keys == others + {s};
    MergeOneMore(m', others, s);
    assert MergedOver(m', others) == MergedOver(m, others) by {
      forall k ensures Measured(MergedOver(m', others), k) == Measured(MergedOver(m, others), k) {
        MeasuredMergedOver(m', others, k);
        MeasuredMergedOver(m, others, k);
        SumOnSameSnapshots(m', m, others, k);
      }
      assert LatencyKeys(m', others) == LatencyKeys(m, others);
      SnapshotExtensionality(MergedOver(m', others), MergedOver(m, others));
    }
  }

  /** A sum only depends on the snapshots of the senders summed over. */
  lemma {:induction false} SumOnSameSnapshots(m1: map<Sender, Snapshot>, m2: map<Sender, Snapshot>, keys: set<Sender>, k: Measure)
    requires keys <= m1.Keys && keys <= m2.Keys
    requires forall s :: s in keys ==> m1[s] == m2[s]
    ensures Sum(m1, keys, k) == Sum(m2, keys, k)
    decreases keys
  {
    if keys != {} {
      SumOnSameSnapshots(m1, m2, keys - {Pick(keys)}, k);
    }
  }

  /** The report of two senders is the first snapshot added to nothing, then the second. */
  lemma MergedOfTwo(x: Sender, a: Snapshot, y: Sender, b: Snapshot)
    requires x != y
    ensures MergedOver(map[x := a, y := b], {x, y}) == Add(Add(EmptySnapshot, a), b)
  {
    var m := map[x := a, y := b];
    MergedOverNothing(m);
    MergeOneMore(m, {}, x);
    assert {} + {x} == {x};
    MergeOneMore(m, {x}, y);
    assert {x} + {y} == {x, y};
  }

  /**
   * The histogram example: one client reports 5 replies under 50ms, another
   * 3 under 50ms and 2 under 100ms; the round has 8 and 2, and no other bucket.
   */
  lemma HistogramExample()
    ensures var a := Snapshot(0, 0, 0, 0, 0, map[LessThan50ms := 5]);
      var b := Snapshot(0, 0, 0, 0, 0, map[LessThan50ms := 3, LessThan100ms := 2]);
      Merged(map["a" := a, "b" := b]).latency == map[LessThan50ms := 8, LessThan100ms := 2]
  {
    var a := Snapshot(0, 0, 0, 0, 0, map[LessThan50ms := 5]);
    var b := Snapshot(0, 0, 0, 0, 0, map[LessThan50ms := 3, LessThan100ms := 2]);
    var m := map["a" := a, "b" := b];
    assert m.Keys == {"a", "b"};
    MergedOfTwo("a", a, "b", b);
    var one := AddLatency(map[], a.latency);
    assert one == map[LessThan50ms := 5] by {
      assert one.Keys == {LessThan50ms};
    }
    var two := AddLatency(one, b.latency);
    assert two.Keys == {LessThan50ms, LessThan100ms};
    assert Get(two, LessThan50ms) == 8 && Get(two, LessThan100ms) == 2;
    assert two == map[LessThan50ms := 8, LessThan100ms := 2];
  }
}

=== FILE: coordinator.dfy ===
/**
 * The coordinator's test runner (src/Pods/Coordinator/TestRunner.cs): one
 * object per test job that provisions service instances, creates pods,
 * waits for every worker to report ready, drives the rounds of the test
 * over the message bus, aggregates the clients' status reports, records
 * progress in a status record, and tears everything down at the end.
 *
 * Every call the runner makes to something outside itself (storage, the
 * cloud and Kubernetes providers, the message bus, the clock) is an
 * `Action` appended to `trace`. Whether such a call throws is decided by
 * the `Environment` the runner is built with: call number `k` (counting
 * from 0) throws exactly when `k` is in `env.faults`. The bus delivers the
 * ready reports and each round's status reports as sequential streams.
 */
module Coordinator {
  import opened Wrappers
  import opened Enums
  import opened Messages
  import Readiness
  import Aggregation
  import opened Numerals

  // ---------------------------------------------------------------- the job

  /** A service to test against: either a supplied connection string, or an instance to create. */
  datatype ServiceSetting = ServiceSetting(
    location: Option<string>,
    asrsConnectionString: Option<string>,
    tier: Option<string>,
    size: Option<int>)

  /** How many clients behave how in one round. */
  datatype ClientSetting = ClientSetting(
    behavior: ClientBehavior,
    count: int,
    intervalInMilliseconds: int,
    messageSize: int,
    groupFamily: Option<string>)

  datatype RoundSetting = RoundSetting(durationInSeconds: int, clientSettings: seq<ClientSetting>)

  datatype ScenarioSetting = ScenarioSetting(
    totalConnectionCount: int,
    clientLifetime: int,
    isAnonymous: bool,
    protocol: SignalRProtocol,
    rate: int,
    rounds: seq<RoundSetting>)

  datatype TestJob = TestJob(
    testId: string,
    serviceSettings: seq<ServiceSetting>,
    serverCount: int,
    scenario: ScenarioSetting)

  // ------------------------------------------------------- what is sent out

  /** The scenario a client setting becomes; only a group broadcast carries a group family. */
  datatype ScenarioDefinition = ScenarioDefinition(
    behavior: ClientBehavior,
    count: int,
    intervalInMilliseconds: int,
    messageSize: int,
    groupFamily: Option<string>)

  /** The commands the runner sends to the client workers and waits to be acknowledged. */
  datatype Command =
    | SetClientRange
    | StartClientConnections
    | SetScenario
    | StartScenario
    | StopScenario
    | StopClientConnections

  datatype Payload =
    | Ranges(ranges: map<Sender, ClientRange>)
    | Connections(clientLifetime: int, totalCount: int, isAnonymous: bool, protocol: SignalRProtocol, rate: int, url: string)
    | Scenarios(scenarios: seq<ScenarioDefinition>)
    | NoParameters
    | StopConnections(rate: int)

  /** The persisted status of a test (TestStatusEntity). */
  datatype StatusRecord = StatusRecord(status: string, healthy: bool, errorInfo: string, report: seq<Snapshot>)

  /** A call to the world outside the runner. */
  datatype Action =
    | OpenStatusTable
    | LoadStatus(partitionKey: string, rowKey: string)
    | CreateResourceGroup(location: string)
    | CreateInstance(name: string, location: string, tier: string, size: int)
    | GetKey(name: string, location: string)
    | PersistStatus(record: StatusRecord)
    | EnsureNodeCount(nodeCount: int)
    | ConnectBus
    | Subscribe(handler: string)
    | CreateServerPods(connectionStrings: seq<string>, serverPodCount: int)
    | CreateClientPods(clientPodCount: int)
    | AwaitAcks(command: Command, targets: set<Sender>)
    | Send(command: Command, payload: Payload)
    | Dwell(seconds: int)
    | DeleteClientPods
    | DeleteServerPods
    | DeleteResourceGroup(location: string)

  /** Why a step threw: an outside call, or one of the runner's own checks. */
  datatype Failure =
    | External(call: int)
    | DivideByZero
    | GroupFamilyRequired
    | ArgumentOutOfRange
    | NullReference

  /** How RunAsync ends: it returns, it throws, or it waits forever on a barrier that never completes. */
  datatype RunOutcome = Returned | Threw(error: Failure) | Hung

  /** How RunAsync ends when `pending` is the exception that escapes it, if any. */
  function OutcomeOf(pending: Option<Failure>): (r: RunOutcome)
    ensures r.Threw? <==> pending.Some?
    ensures r.Threw? ==> r.error == pending.value
    ensures r != Hung
  {
    if pending.Some? then Threw(pending.value) else Returned
  }

  /** Everything the runner cannot see: which calls throw, what storage, the providers and the bus answer. */
  datatype Environment = Environment(
    faults: set<int>,
    storedRecord: Option<StatusRecord>,
    instanceKey: string -> string,
    serverUrl: string,
    readyReports: seq<ReadyReport>,
    roundReports: seq<seq<StatusReport>>)

  // ----------------------------------------------------------- text helpers

  /** string.LastIndexOf: the last position of `c` in `s`, or -1 when `c` does not occur. */
  function LastIndexOf(s: string, c: char): (r: int)
    ensures -1 <= r < |s|
    ensures r >= 0 ==> s[r] == c
    ensures forall j :: r < j < |s| ==> s[j] != c
    decreases |s|
  {
    if s == [] then -1
    else if s[|s| - 1] == c then |s| - 1
    else LastIndexOf(s[..|s| - 1], c)
  }

  /** How an exception prints into the error log. */
  function Describe(e: Failure): string {
    match e
    case External(k) => "System.Exception: call " + NatToString(if k < 0 then 0 else k) + " failed"
    case DivideByZero => "System.DivideByZeroException: Attempted to divide by zero."
    case GroupFamilyRequired => "System.IO.InvalidDataException: Group family is required."
    case ArgumentOutOfRange => "System.ArgumentOutOfRangeException"
    case NullReference => "System.NullReferenceException"
  }

  /** What UpdateTestStatus appends to the error log for an exception. */
  function ErrorEntry(e: Failure): string {
    "   \n  \n     " + Describe(e)
  }

  /**
   * A status update (UpdateTestStatus): status and health are overwritten,
   * the report is kept, and the error log is only ever appended to, by
   * exactly the exception's entry when the update is unhealthy and carries
   * an exception.
   */
  function WithStatus(r: StatusRecord, status: string, healthy: bool, e: Option<Failure>): (r': StatusRecord)
    ensures r'.status == status && r'.healthy == healthy && r'.report == r.report
    ensures r.errorInfo <= r'.errorInfo
    ensures r'.errorInfo != r.errorInfo <==> !healthy && e.Some?
    ensures !healthy && e.Some? ==> r'.errorInfo[|r.errorInfo|..] == ErrorEntry(e.value)
  {
    if healthy || e.None? then r.(status := status, healthy := healthy)
    else r.(status := status, healthy := healthy, errorInfo := r.errorInfo + ErrorEntry(e.value))
  }

  /** Two unhealthy updates with exceptions leave both entries in the log, in order. */
  lemma ErrorLogKeepsBoth(r: StatusRecord, s1: string, e1: Failure, s2: string, e2: Failure)
    ensures WithStatus(WithStatus(r, s1, false, Some(e1)), s2, false, Some(e2)).errorInfo
         == r.errorInfo + ErrorEntry(e1) + ErrorEntry(e2)
  {
    var r1 := WithStatus(r, s1, false, Some(e1));
    var r2 := WithStatus(r1, s2, false, Some(e2));
    assert r1.errorInfo == r.errorInfo + ErrorEntry(e1);
    assert r2.errorInfo == r1.errorInfo + ErrorEntry(e2);
  }

  /**
   * The scenarios of a round (the conversion in SetScenarioAsync): one
   * definition per client setting, in order; it fails on the first group
   * broadcast without a group family.
   */
  function ScenariosFor(settings: seq<ClientSetting>): Result<seq<ScenarioDefinition>, ()>
    decreases |settings|
  {
    if settings == [] then Success([])
    else
      var cs := settings[|settings| - 1];
      var front := ScenariosFor(settings[..|settings| - 1]);
      if front.Failure? then Failure(())
      else if MissingFamily(cs) then Failure(())
      else
        var family := if cs.behavior == GroupBroadcast then cs.groupFamily else None;
        Success(front.value + [ScenarioDefinition(cs.behavior, cs.count, cs.intervalInMilliseconds, cs.messageSize, family)])
  }

  /**
   * Building a round's scenarios fails exactly when some group broadcast
   * lacks its family; otherwise every setting gets its definition, in order.
   */
  lemma {:induction false} ScenariosForSpec(settings: seq<ClientSetting>)
    ensures ScenariosFor(settings).Failure? <==> exists i :: 0 <= i < |settings| && MissingFamily(settings[i])
    ensures ScenariosFor(settings).Success? ==> |ScenariosFor(settings).value| == |settings|
    ensures ScenariosFor(settings).Success? ==>
      forall i :: 0 <= i < |settings| ==> DefinitionOf(settings[i], ScenariosFor(settings).value[i])
    decreases |settings|
  {
    if settings != [] {
      var front := settings[..|settings| - 1];
      ScenariosForSpec(front);
      assert forall i :: 0 <= i < |front| ==> settings[i] == front[i];
    }
  }

  predicate MissingFamily(cs: ClientSetting) {
    cs.behavior == GroupBroadcast && cs.groupFamily.None?
  }

  /** A definition carries its setting's behaviour and details, and a group family exactly for a group broadcast. */
  predicate DefinitionOf(cs: ClientSetting, sd: ScenarioDefinition) {
    && sd.behavior == cs.behavior
    && sd.count == cs.count
    && sd.intervalInMilliseconds == cs.intervalInMilliseconds
    && sd.messageSize == cs.messageSize
    && sd.groupFamily == (if cs.behavior == GroupBroadcast then cs.groupFamily else None)
  }

  /** Where a service setting's resource group lives (Location ?? DefaultLocation). */
  function LocationOf(ss: ServiceSetting, defaultLocation: string): string {
    ss.location.GetOr(defaultLocation)
  }

  /**
   * The resource groups teardown deletes: the locations of the settings
   * without a supplied connection string, each once, in first-seen order
   * (the group-by of RunAsync's finally block).
   */
  function GroupLocations(settings: seq<ServiceSetting>, defaultLocation: string): (locs: seq<string>)
    ensures forall i, j :: 0 <= i < j < |locs| ==> locs[i] != locs[j]
    decreases |settings|
  {
    if settings == [] then []
    else
      var front := GroupLocations(settings[..|settings| - 1], defaultLocation);
      var ss := settings[|settings| - 1];
      var loc := LocationOf(ss, defaultLocation);
      if ss.asrsConnectionString.None? && loc !in front then front + [loc] else front
  }

  /** A setting that needs a resource group. */
  predicate NeedsGroup(ss: ServiceSetting) {
    ss.asrsConnectionString.None?
  }

  /**
   * Every location of a setting without a connection string is among the
   * groups deleted, and nothing else is.
   */
  lemma {:induction false} GroupLocationsCover(settings: seq<ServiceSetting>, defaultLocation: string, l: string)
    ensures l in GroupLocations(settings, defaultLocation) <==>
      exists k :: 0 <= k < |settings| && NeedsGroup(settings[k]) && LocationOf(settings[k], defaultLocation) == l
    decreases |settings|
  {
    if settings != [] {
      var n := |settings| - 1;
      var front := settings[..n];
      GroupLocationsCover(front, defaultLocation, l);
      assert forall k :: 0 <= k < n ==> front[k] == settings[k];
      if exists k :: 0 <= k < |settings| && NeedsGroup(settings[k]) && LocationOf(settings[k], defaultLocation) == l {
        var k :| 0 <= k < |settings| && NeedsGroup(settings[k]) && LocationOf(settings[k], defaultLocation) == l;
        if k < n {
          assert NeedsGroup(front[k]) && LocationOf(front[k], defaultLocation) == l;
        }
      }
    }
  }

  function DeleteGroups(locs: seq<string>): (r: seq<Action>)
    ensures |r| == |locs| && forall i :: 0 <= i < |locs| ==> r[i] == DeleteResourceGroup(locs[i])
    decreases |locs|
  {
    if locs == [] then [] else DeleteGroups(locs[..|locs| - 1]) + [DeleteResourceGroup(locs[|locs| - 1])]
  }

  /** The status shown while round `i` (1-based) runs. */
  function RoundStatus(i: nat): string {
    "Testing Round " + NatToString(i)
  }

  /** The longest delay Task.Delay accepts, in milliseconds (Timer.MaxSupportedTimeout on .NET 6 and later). */
  const MaxDelayMilliseconds := 0xFFFF_FFFE

  /**
   * Task.Delay(TimeSpan.FromSeconds(seconds)) accepts the delay: it throws
   * ArgumentOutOfRange below -1 ms and above the longest timer delay.
   */
  predicate DelayAllowed(seconds: int) {
    -1 <= seconds * 1000 <= MaxDelayMilliseconds
  }

  /** Whole seconds Task.Delay accepts run from 0 to 4294967. */
  lemma DelayRange(seconds: int)
    ensures DelayAllowed(seconds) <==> 0 <= seconds <= 4_294_967
  {
  }

  /** The failure a result carries, if any. */
  function ErrorOf<T>(r: Result<T, Failure>): Option<Failure> {
    if r.Success? then None else Some(r.error)
  }

  /**
   * The body of UpdateTestReports' outer loop: adds one snapshot's counters
   * into the running total and, bucket by bucket, its latency histogram,
   * a bucket the total lacks starting at 0.
   */
  method AddSnapshot(combined: Snapshot, v: Snapshot) returns (next: Snapshot)
    ensures next == Aggregation.Add(combined, v)
  {
    var latency := combined.latency;
    var buckets := v.latency.Keys;
    while buckets != {}
      invariant buckets <= v.latency.Keys
      invariant latency.Keys == combined.latency.Keys + (v.latency.Keys - buckets)
      invariant forall lc ::
        Aggregation.Get(latency, lc)
        == Aggregation.Get(combined.latency, lc) + (if lc in v.latency.Keys - buckets then v.latency[lc] else 0)
      decreases buckets
    {
      var lc :| lc in buckets;
      if lc !in latency {
        latency := latency[lc := 0];
      }
      latency := latency[lc := latency[lc] + v.latency[lc]];
      buckets := buckets - {lc};
    }
    assert latency == Aggregation.AddLatency(combined.latency, v.latency) by {
      forall lc | lc in latency
        ensures latency[lc] == Aggregation.AddLatency(combined.latency, v.latency)[lc]
      {
        assert Aggregation.Get(latency, lc) == latency[lc];
      }
    }
    next := Snapshot(
      combined.totalReconnectCount + v.totalReconnectCount,
      combined.connectedCount + v.connectedCount,
      combined.reconnectingCount + v.reconnectingCount,
      combined.messageSent + v.messageSent,
      combined.messageReceived + v.messageReceived,
      latency);
  }

  /**
   * UpdateTestReports' merge: every snapshot held, visited in whatever
   * order, is added into a total that starts empty; the result is the
   * round's report whatever the order.
   */
  method MergeSnapshots(m: map<Sender, Snapshot>) returns (combined: Snapshot)
    ensures combined == Aggregation.Merged(m)
  {
    combined := EmptySnapshot;
    var remaining := m.Keys;
    Aggregation.MergedOverNothing(m);
    while remaining != {}
      invariant remaining <= m.Keys
      invariant combined == Aggregation.MergedOver(m, m.Keys - remaining)
      decreases remaining
    {
      var sender :| sender in remaining;
      combined := AddSnapshot(combined, m[sender]);
      Aggregation.MergeOneMore(m, m.Keys - remaining, sender);
      assert (m.Keys - remaining) + {sender} == m.Keys - (remaining - {sender});
      remaining := remaining - {sender};
    }
    assert m.Keys - remaining == m.Keys;
  }

  // ------------------------------------------------------------- the runner

  class TestRunner {
    const job: TestJob
    const defaultLocation: string
    const env: Environment

    var clients: map<Sender, ClientRange>
    var clientStatus: map<Sender, Snapshot>
    var clientStatusList: seq<Snapshot>
    var serverPods: seq<Sender>
    var clientReadyCount: int
    var serverReadyCount: int
    var clientPodsReady: bool
    var serverPodsReady: bool
    var record: StatusRecord
    var url: string
    var trace: seq<Action>

    constructor(job: TestJob, defaultLocation: string, env: Environment)
      ensures this.job == job && this.defaultLocation == defaultLocation && this.env == env
      ensures Fresh() && url == "http://localhost:8080/"
    {
      this.job := job;
      this.defaultLocation := defaultLocation;
      this.env := env;
      clients := map[];
      clientStatus := map[];
      clientStatusList := [];
      serverPods := [];
      clientReadyCount := 0;
      serverReadyCount := 0;
      clientPodsReady := false;
      serverPodsReady := false;
      record := StatusRecord("", true, "", []);
      url := "http://localhost:8080/";
      trace := [];
    }

    /** A runner that has not started: no calls made, no worker known, nothing reported. */
    predicate Fresh()
      reads this
    {
      trace == [] && clients == map[] && serverPods == [] && clientStatus == map[] && clientStatusList == []
    }

    /** The handler's view of the runner's state. */
    function ReadyView(): Readiness.ReadyState
      reads this`clientReadyCount, this`serverReadyCount, this`clients, this`serverPods,
            this`clientPodsReady, this`serverPodsReady
    {
      Readiness.ReadyState(clientReadyCount, serverReadyCount, clients, serverPods, clientPodsReady, serverPodsReady)
    }

    /** No call numbered in [lo, hi) throws. */
    ghost predicate NoFault(lo: int, hi: int) {
      forall k :: lo <= k < hi ==> k !in env.faults
    }

    /** One more call without a fault extends a fault-free stretch, and only such a call does. */
    lemma NoFaultStep(lo: int, hi: int)
      requires lo <= hi
      ensures NoFault(lo, hi + 1) <==> NoFault(lo, hi) && hi !in env.faults
    {
    }

    /**
     * Trace `tr` extends `before` by the calls of `plan`, in order: all of
     * them, none throwing, when `err` is None; otherwise a prefix of them
     * whose last call threw, which `err` reports.
     */
    ghost predicate Ran(tr: seq<Action>, before: seq<Action>, plan: seq<Action>, err: Option<Failure>) {
      var t0 := |before|;
      && before <= tr
      && tr[t0..] <= plan
      && (err.None? ==> tr[t0..] == plan && NoFault(t0, |tr|))
      && (err.Some? ==> t0 < |tr| && NoFault(t0, |tr| - 1) && err == Some(External(|tr| - 1)) && |tr| - 1 in env.faults)
    }

    /** Ran for the runner's own trace. */
    ghost predicate Executed(before: seq<Action>, plan: seq<Action>, err: Option<Failure>)
      reads this`trace
    {
      Ran(trace, before, plan, err)
    }

    /** A plan run to completion followed by a second one is a run of both, in order. */
    lemma RanThen(tr: seq<Action>, before: seq<Action>, p1: seq<Action>, p2: seq<Action>, err: Option<Failure>)
      requires NoFault(|before|, |before| + |p1|)
      requires Ran(tr, before + p1, p2, err)
      ensures Ran(tr, before, p1 + p2, err)
    {
      var t0, t1 := |before|, |before| + |p1|;
      assert tr[..t1] == before + p1;
      assert tr[t0..] == p1 + tr[t1..];
    }

    /** What call number `k` does: throw, exactly when the environment lists it. */
    function FaultAt(k: int): Option<Failure> {
      if k in env.faults then Some(External(k)) else None
    }

    /** A single call is a run of the one-call plan. */
    lemma RanOne(tr: seq<Action>, before: seq<Action>, a: Action)
      requires tr == before + [a]
      ensures Ran(tr, before, [a], FaultAt(|before|))
    {
      assert tr[|before|..] == [a];
    }

    /** A plan whose calls all went through is a run of it. */
    lemma RanAll(tr: seq<Action>, before: seq<Action>, plan: seq<Action>)
      requires tr == before + plan && NoFault(|before|, |tr|)
      ensures Ran(tr, before, plan, None)
    {
      assert tr[|before|..] == plan;
    }

    /** A run of a plan that did not throw made exactly the plan's calls, none throwing. */
    lemma RanDone(tr: seq<Action>, before: seq<Action>, plan: seq<Action>)
      requires Ran(tr, before, plan, None)
      ensures tr == before + plan && NoFault(|before|, |tr|)
    {
      assert tr == tr[..|before|] + tr[|before|..];
    }

    /** Appending calls is associative. */
    lemma Assoc(a: seq<Action>, b: seq<Action>, c: seq<Action>)
      ensures a + (b + c) == (a + b) + c
    {
    }

    /**
     * Trace `tr` extends `before` by `plan` and ends in one of two ways: a
     * call of the plan threw `err` (as in Ran), or every call went through
     * and the runner's own check then ended with `own` (None: no exception).
     */
    ghost predicate Ended(tr: seq<Action>, before: seq<Action>, plan: seq<Action>, own: Option<Failure>, err: Option<Failure>) {
      || (err.Some? && Ran(tr, before, plan, err))
      || (Ran(tr, before, plan, None) && err == own)
    }

    /** A run from a later point, whose plan is the rest of a longer plan, is a run of that plan. */
    lemma RanFrom(tr: seq<Action>, before: seq<Action>, mid: seq<Action>, plan: seq<Action>, rest: seq<Action>, err: Option<Failure>)
      requires before <= mid && before + plan == mid + rest && NoFault(|before|, |mid|)
      requires Ran(tr, mid, rest, err)
      ensures Ran(tr, before, plan, err)
    {
      var t0, t1 := |before|, |mid|;
      assert mid == before + mid[t0..];
      assert (before + plan)[t0..] == plan;
      assert (mid + rest)[t0..] == mid[t0..] + rest;
      assert plan == mid[t0..] + rest;
      assert tr[..t1] == mid;
      assert tr[t0..] == mid[t0..] + tr[t1..];
    }

    /** An ending of the rest of a plan, after a stretch without a throw, is an ending of the whole plan. */
    lemma EndedFrom(tr: seq<Action>, before: seq<Action>, mid: seq<Action>, plan: seq<Action>, rest: seq<Action>,
                    own: Option<Failure>, err: Option<Failure>)
      requires before <= mid && before + plan == mid + rest && NoFault(|before|, |mid|)
      requires Ended(tr, mid, rest, own, err)
      ensures Ended(tr, before, plan, own, err)
    {
      if err.Some? && Ran(tr, mid, rest, err) {
        RanFrom(tr, before, mid, plan, rest, err);
      } else {
        RanFrom(tr, before, mid, plan, rest, None);
      }
    }

    /** A run cut short by a throwing call is an ending of any longer plan. */
    lemma EndedByThrow(tr: seq<Action>, before: seq<Action>, p: seq<Action>, q: seq<Action>, own: Option<Failure>, err: Option<Failure>)
      requires Ran(tr, before, p, err) && err.Some? && p <= q
      ensures Ended(tr, before, q, own, err)
    {
      RanLonger(tr, before, p, q, err);
    }

    /** Two adjacent stretches without a throw make one. */
    lemma NoFaultJoin(lo: int, mid: int, hi: int)
      requires NoFault(lo, mid) && NoFault(mid, hi)
      ensures NoFault(lo, hi)
    {
    }

    /**
     * An ending that threw is an ending of the plan with more calls after
     * it, when those calls only follow where the plan throws of its own
     * nothing (or there are none).
     */
    lemma EndedCut(tr: seq<Action>, before: seq<Action>, p: seq<Action>, more: seq<Action>, own: Option<Failure>, err: Option<Failure>)
      requires Ended(tr, before, p, own, err) && err.Some? && (own.None? || more == [])
      ensures Ended(tr, before, p + more, own, err)
    {
      if more == [] {
        assert p + more == p;
      } else {
        RanLonger(tr, before, p, p + more, err);
      }
    }

    /** A run that stopped at a failing call is also a run of any longer plan. */
    lemma RanLonger(tr: seq<Action>, before: seq<Action>, p: seq<Action>, q: seq<Action>, err: Option<Failure>)
      requires Ran(tr, before, p, err) && err.Some? && p <= q
      ensures Ran(tr, before, q, err)
    {
    }

    /** A trace made of a prefix, a plan and a tail shows the plan, then the tail, right after the prefix. */
    lemma TraceSplit(tr: seq<Action>, before: seq<Action>, plan: seq<Action>, tail: seq<Action>)
      requires tr == before + plan + tail
      ensures tr[|before|..|before| + |plan|] == plan && tr[|before| + |plan|..] == tail
    {
    }

    /** One call to the outside world; call number |trace| throws exactly when the environment says so. */
    method Call(a: Action) returns (err: Option<Failure>)
      modifies this`trace
      ensures trace == old(trace) + [a]
      ensures err == FaultAt(|old(trace)|)
    {
      err := FaultAt(|trace|);
      trace := trace + [a];
    }

    /** UpdateTestStatus: updates the record in memory, then persists it. */
    method UpdateTestStatus(status: string, healthy: bool, e: Option<Failure>) returns (err: Option<Failure>)
      modifies this`record, this`trace
      ensures record == WithStatus(old(record), status, healthy, e)
      ensures trace == old(trace) + [PersistStatus(record)]
      ensures Executed(old(trace), [PersistStatus(record)], err)
      ensures err == FaultAt(|old(trace)|)
    {
      record := WithStatus(record, status, healthy, e);
      err := Call(PersistStatus(record));
      RanOne(trace, old(trace), PersistStatus(record));
    }

    /** CollectClientStatus: a status report overwrites its sender's snapshot. */
    method CollectClientStatus(r: StatusReport)
      modifies this`clientStatus
      ensures clientStatus == Aggregation.Collect(old(clientStatus), r)
    {
      clientStatus := clientStatus[r.sender := r.snapshot];
    }

    /** The status reports of a stream, collected in arrival order. */
    method CollectAllClientStatus(reports: seq<StatusReport>)
      modifies this`clientStatus
      ensures clientStatus == Aggregation.CollectAll(old(clientStatus), reports)
    {
      var k := 0;
      while k < |reports|
        invariant 0 <= k <= |reports|
        invariant clientStatus == Aggregation.CollectAll(old(clientStatus), reports[..k])
      {
        CollectClientStatus(reports[k]);
        assert reports[..k + 1][..k] == reports[..k];
        k := k + 1;
      }
      assert reports[..k] == reports;
    }

    /**
     * UpdateTestReports: merges the snapshots held into one report, appends
     * it to the report list, stores the list in the record and persists the
     * record.
     */
    method UpdateTestReports() returns (err: Option<Failure>)
      modifies this`clientStatusList, this`record, this`trace
      ensures clientStatusList == old(clientStatusList) + [Aggregation.Merged(clientStatus)]
      ensures record == old(record).(report := clientStatusList)
      ensures Executed(old(trace), [PersistStatus(record)], err)
    {
      var combined := MergeSnapshots(clientStatus);
      clientStatusList := clientStatusList + [combined];
      record := record.(report := clientStatusList);
      err := Call(PersistStatus(record));
      RanOne(trace, old(trace), PersistStatus(record));
    }

    // ---------------------------------------------------------- readiness

    /**
     * The ReportReady handler built by GetReportReady: a client report takes
     * the next range of the barrier, a server report is counted and listed,
     * anything else is ignored; the behaviour is Readiness.Step, whose
     * consequences over a stream are the lemmas of module Readiness.
     */
    method ReportReady(m: ReadyReport, b: Readiness.Barrier)
      modifies this`clientReadyCount, this`serverReadyCount, this`clients, this`serverPods,
               this`clientPodsReady, this`serverPodsReady
      ensures ReadyView() == Readiness.Step(b, old(ReadyView()), m)
    {
      match m.role {
        case Some(Clients) =>
          clientReadyCount := clientReadyCount + 1;
          if clientReadyCount < b.podCount {
            clients := clients[m.sender := ClientRange((clientReadyCount - 1) * b.countPerPod, b.countPerPod)];
          } else if clientReadyCount == b.podCount {
            clients := clients[m.sender :=
              ClientRange((clientReadyCount - 1) * b.countPerPod, b.total - (clientReadyCount - 1) * b.countPerPod)];
            clientPodsReady := true;
          } else {
            clients := clients[m.sender := ClientRange(0, 0)];
          }
        case Some(AppServers) =>
          serverReadyCount := serverReadyCount + 1;
          if serverReadyCount == b.serverPodCount {
            serverPodsReady := true;
          }
          serverPods := serverPods + [m.sender];
        case _ =>
      }
    }

    /** The ready reports of a stream, handled in arrival order. */
    method HandleReadyReports(reports: seq<ReadyReport>, b: Readiness.Barrier)
      modifies this`clientReadyCount, this`serverReadyCount, this`clients, this`serverPods,
               this`clientPodsReady, this`serverPodsReady
      ensures ReadyView() == Readiness.Fold(b, old(ReadyView()), reports)
    {
      var k := 0;
      while k < |reports|
        invariant 0 <= k <= |reports|
        invariant ReadyView() == Readiness.Fold(b, old(ReadyView()), reports[..k])
      {
        ReportReady(reports[k], b);
        assert reports[..k + 1][..k] == reports[..k];
        k := k + 1;
      }
      assert reports[..k] == reports;
    }

    // --------------------------------------------------------- provisioning

    /** The name of the instance created for service setting `i`. */
    function InstanceName(i: nat): (name: string)
      ensures job.testId + "-" <= name && |name| > |job.testId| + 1
    {
      job.testId + "-" + NatToString(i)
    }

    /** Each service setting gets an instance of its own: different settings, different names. */
    lemma InstanceNamesDistinct(i: nat, j: nat)
      requires i != j
      ensures InstanceName(i) != InstanceName(j)
    {
      if InstanceName(i) == InstanceName(j) {
        var k := |job.testId| + 1;
        assert InstanceName(i)[k..] == NatToString(i);
        assert InstanceName(j)[k..] == NatToString(j);
        NatToStringInjective(i, j);
      }
    }

    /** The calls that provision setting `i`: none when it supplies a connection string. */
    function InstanceActions(i: nat): seq<Action>
      requires i < |job.serviceSettings|
    {
      var ss := job.serviceSettings[i];
      var loc := LocationOf(ss, defaultLocation);
      if ss.asrsConnectionString.Some? then []
      else [CreateResourceGroup(loc),
            CreateInstance(InstanceName(i), loc, ss.tier.GetOr("Standard"), ss.size.GetOr(1)),
            GetKey(InstanceName(i), loc)]
    }

    /** The calls that provision the first `n` settings, in order. */
    function ProvisionPlan(n: nat): seq<Action>
      requires n <= |job.serviceSettings|
      decreases n
    {
      if n == 0 then [] else ProvisionPlan(n - 1) + InstanceActions(n - 1)
    }

    lemma {:induction false} ProvisionPlanGrows(i: nat, n: nat)
      requires i <= n <= |job.serviceSettings|
      ensures ProvisionPlan(i) <= ProvisionPlan(n)
      decreases n - i
    {
      if i < n {
        ProvisionPlanGrows(i + 1, n);
        assert ProvisionPlan(i + 1) == ProvisionPlan(i) + InstanceActions(i);
      }
    }

    /** The connection string used for setting `i`: the supplied one, or the key of the instance created for it. */
    function ConnectionString(i: nat): string
      requires i < |job.serviceSettings|
    {
      job.serviceSettings[i].asrsConnectionString.GetOr(env.instanceKey(InstanceName(i)))
    }

    /** The connection strings of the first `n` settings. */
    ghost function ConnectionStrings(n: nat): (r: seq<string>)
      requires n <= |job.serviceSettings|
      ensures |r| == n && forall i :: 0 <= i < n ==> r[i] == ConnectionString(i)
    {
      seq(n, i requires 0 <= i < n => ConnectionString(i))
    }

    /**
     * CreateAsrsAsync: creates the resource group and the instance of
     * setting `i` (tier "Standard" and size 1 unless given) and fetches its
     * key; the first call that throws ends it.
     */
    method CreateAsrs(i: nat) returns (r: Result<string, Failure>)
      requires i < |job.serviceSettings| && NeedsGroup(job.serviceSettings[i])
      modifies this`trace
      ensures Executed(old(trace), InstanceActions(i), ErrorOf(r))
      ensures r.Success? ==> r.value == env.instanceKey(InstanceName(i))
    {
      ghost var t0 := trace;
      var ss := job.serviceSettings[i];
      var loc := LocationOf(ss, defaultLocation);
      var name := InstanceName(i);
      var a1, a2, a3 := CreateResourceGroup(loc), CreateInstance(name, loc, ss.tier.GetOr("Standard"), ss.size.GetOr(1)), GetKey(name, loc);
      assert InstanceActions(i) == [a1, a2, a3];
      var err := Call(a1);
      RanOne(trace, t0, a1);
      if err.Some? {
        RanLonger(trace, t0, [a1], [a1, a2, a3], err);
        return Failure(err.value);
      }
      err := Call(a2);
      RanOne(trace, t0 + [a1], a2);
      RanThen(trace, t0, [a1], [a2], err);
      if err.Some? {
        RanLonger(trace, t0, [a1, a2], [a1, a2, a3], err);
        return Failure(err.value);
      }
      err := Call(a3);
      RanOne(trace, t0 + [a1, a2], a3);
      RanThen(trace, t0, [a1, a2], [a3], err);
      if err.Some? {
        return Failure(err.value);
      }
      r := Success(env.instanceKey(name));
    }

    /**
     * One turn of PrepairAsrsInstancesAsync's loop, after the settings
     * before `i` were provisioned without a throw since `t0`: the supplied
     * connection string, or a new instance's key.
     */
    method ProvisionSetting(ghost t0: seq<Action>, i: nat) returns (r: Result<string, Failure>)
      requires i < |job.serviceSettings| && trace == t0 + ProvisionPlan(i) && NoFault(|t0|, |trace|)
      modifies this`trace
      ensures r.Success? ==> r.value == ConnectionString(i) && trace == t0 + ProvisionPlan(i + 1) && NoFault(|t0|, |trace|)
      ensures r.Failure? ==> Executed(t0, ProvisionPlan(|job.serviceSettings|), Some(r.error))
    {
      var ss := job.serviceSettings[i];
      if ss.asrsConnectionString.Some? {
        assert ProvisionPlan(i + 1) == ProvisionPlan(i);
        return Success(ss.asrsConnectionString.value);
      }
      ghost var plan, next := ProvisionPlan(i), ProvisionPlan(i + 1);
      assert next == plan + InstanceActions(i);
      assert ConnectionString(i) == env.instanceKey(InstanceName(i));
      RanAll(trace, t0, plan);
      r := CreateAsrs(i);
      RanThen(trace, t0, plan, InstanceActions(i), ErrorOf(r));
      if r.Failure? {
        ProvisionPlanGrows(i + 1, |job.serviceSettings|);
        RanLonger(trace, t0, next, ProvisionPlan(|job.serviceSettings|), ErrorOf(r));
      } else {
        RanDone(trace, t0, next);
      }
    }

    /**
     * PrepairAsrsInstancesAsync: for each setting in order, keeps its
     * supplied connection string or creates an instance for it; the first
     * call that throws ends it.
     */
    method PrepareInstances() returns (r: Result<seq<string>, Failure>)
      modifies this`trace
      ensures Executed(old(trace), ProvisionPlan(|job.serviceSettings|), ErrorOf(r))
      ensures r.Success? ==> |r.value| == |job.serviceSettings|
      ensures r.Success? ==> forall i :: 0 <= i < |r.value| ==> r.value[i] == ConnectionString(i)
    {
      ghost var t0 := trace;
      var n := |job.serviceSettings|;
      var strings: seq<string> := [];
      var i := 0;
      while i < n
        invariant 0 <= i <= n
        invariant strings == ConnectionStrings(i)
        invariant trace == t0 + ProvisionPlan(i) && NoFault(|t0|, |trace|)
      {
        var s := ProvisionSetting(t0, i);
        if s.Failure? {
          return Failure(s.error);
        }
        strings := strings + [s.value];
        assert strings == ConnectionStrings(i + 1);
        i := i + 1;
      }
      RanAll(trace, t0, ProvisionPlan(n));
      return Success(strings);
    }

    // ------------------------------------------------------------- phases

    /**
     * One networked phase (GetWhenAllAckAsync, then the command): wait for
     * acknowledgements from every client known now, send the command, and
     * wait until all of them have acknowledged it.
     */
    method AckPhase(command: Command, payload: Payload) returns (err: Option<Failure>)
      modifies this`trace
      ensures Executed(old(trace), [AwaitAcks(command, clients.Keys), Send(command, payload)], err)
    {
      var a1, a2 := AwaitAcks(command, clients.Keys), Send(command, payload);
      err := Call(a1);
      RanOne(trace, old(trace), a1);
      if err.None? {
        err := Call(a2);
        RanOne(trace, old(trace) + [a1], a2);
        RanThen(trace, old(trace), [a1], [a2], err);
      } else {
        RanLonger(trace, old(trace), [a1], [a1, a2], err);
      }
    }

    /**
     * SetScenarioAsync: the acknowledgement barrier is installed first, then
     * the round's scenarios are built; a group broadcast without a group
     * family throws before anything is sent.
     */
    method SetScenarioPhase(round: RoundSetting) returns (err: Option<Failure>)
      modifies this`trace
      ensures ScenariosFor(round.clientSettings).Success? ==>
        Executed(old(trace),
          [AwaitAcks(SetScenario, clients.Keys), Send(SetScenario, Scenarios(ScenariosFor(round.clientSettings).value))],
          err)
      ensures ScenariosFor(round.clientSettings).Failure? ==>
        && trace == old(trace) + [AwaitAcks(SetScenario, clients.Keys)]
        && err == Some(if |old(trace)| in env.faults then External(|old(trace)|) else GroupFamilyRequired)
    {
      var a1 := AwaitAcks(SetScenario, clients.Keys);
      err := Call(a1);
      RanOne(trace, old(trace), a1);
      var scenarios := ScenariosFor(round.clientSettings);
      if err.Some? {
        if scenarios.Success? {
          RanLonger(trace, old(trace), [a1], [a1, Send(SetScenario, Scenarios(scenarios.value))], err);
        }
        return;
      }
      if scenarios.Failure? {
        return Some(GroupFamilyRequired);
      }
      var a2 := Send(SetScenario, Scenarios(scenarios.value));
      err := Call(a2);
      RanOne(trace, old(trace) + [a1], a2);
      RanThen(trace, old(trace), [a1], [a2], err);
    }

    /**
     * The calls CreatePodsAsync makes, given how readiness ended: whether
     * both barriers completed (`ready`) and the client ranges assigned.
     */
    ghost function CreatePodsPlan(connectionStrings: seq<string>, podCount: int, serverPodCount: int,
                                  ready: bool, ranges: map<Sender, ClientRange>): seq<Action>
    {
      [Subscribe("ReportReady"), CreateServerPods(connectionStrings, serverPodCount), CreateClientPods(podCount)]
      + (if ready then [AwaitAcks(SetClientRange, ranges.Keys), Send(SetClientRange, Ranges(ranges))] else [])
    }

    /**
     * How readiness ends with `podCount` client pods: the environment's
     * ready reports handled in arrival order by the handler GetReportReady
     * builds (none is built when there is no client pod).
     */
    ghost function ReadyEnd(total: int, podCount: int, serverPodCount: int): Readiness.ReadyState
    {
      if podCount == 0 then Readiness.Initial
      else Readiness.Fold(Readiness.Barrier(total, podCount, serverPodCount, Readiness.TruncDiv(total, podCount)),
                          Readiness.Initial, env.readyReports)
    }

    /**
     * CreatePodsAsync: builds the ready handler (which divides by the client
     * pod count), subscribes it, creates the server pods (whose url the
     * runner keeps) and the client pods, handles the ready reports, and,
     * once both barriers have completed, sends every client its range.
     * If a barrier never completes the runner waits forever (`hung`): that
     * happens exactly when the three launch calls went through and the
     * ready reports leave a barrier incomplete.
     */
    method CreatePods(connectionStrings: seq<string>, total: int, podCount: int, serverPodCount: int)
      returns (err: Option<Failure>, hung: bool)
      requires clients == map[] && serverPods == []
      modifies this`clientReadyCount, this`serverReadyCount, this`clients, this`serverPods,
               this`clientPodsReady, this`serverPodsReady, this`url, this`trace
      ensures podCount == 0 ==> err == Some(DivideByZero) && !hung && trace == old(trace)
      ensures var ready := ReadyEnd(total, podCount, serverPodCount);
        podCount != 0 ==>
          Executed(old(trace), CreatePodsPlan(connectionStrings, podCount, serverPodCount, Readiness.BothReady(ready), ready.clients), err)
      ensures podCount != 0 && NoFault(|old(trace)|, |old(trace)| + 3) ==>
        ReadyView() == ReadyEnd(total, podCount, serverPodCount) && url == env.serverUrl
      ensures hung <==>
        podCount != 0 && NoFault(|old(trace)|, |old(trace)| + 3) && !Readiness.BothReady(ReadyEnd(total, podCount, serverPodCount))
      ensures hung ==> err.None? && !(clientPodsReady && serverPodsReady)
      ensures err.None? && !hung ==> clientPodsReady && serverPodsReady && clients != map[]
    {
      hung := false;
      var made := Readiness.MakeBarrier(total, podCount, serverPodCount);
      if made.Failure? {
        return Some(DivideByZero), false;
      }
      var b := made.value;
      ghost var ready := ReadyEnd(total, podCount, serverPodCount);
      ghost var plan := CreatePodsPlan(connectionStrings, podCount, serverPodCount, Readiness.BothReady(ready), ready.clients);
      clientReadyCount, serverReadyCount, clientPodsReady, serverPodsReady := 0, 0, false, false;
      ghost var t0 := trace;
      ghost var launch := [Subscribe("ReportReady"), CreateServerPods(connectionStrings, serverPodCount), CreateClientPods(podCount)];
      assert launch <= plan;
      err := LaunchPods(connectionStrings, podCount, serverPodCount);
      if err.Some? {
        RanFirstFault(trace, t0, launch, err);
        RanLonger(trace, t0, launch, plan, err);
        return;
      }
      RanDone(trace, t0, launch);
      var reports := env.readyReports;
      assert ReadyView() == Readiness.Initial;
      HandleReadyReports(reports, b);
      if !(clientPodsReady && serverPodsReady) {
        assert plan == launch;
        return None, true;
      }
      Readiness.ReadyClientsNonEmpty(b, reports);
      ghost var ack := [AwaitAcks(SetClientRange, clients.Keys), Send(SetClientRange, Ranges(clients))];
      assert plan == launch + ack;
      err := AckPhase(SetClientRange, Ranges(clients));
      RanThen(trace, t0, launch, ack, err);
    }

    /**
     * The first calls of CreatePodsAsync: subscribe the ready handler, create
     * the server pods (keeping their url) and the client pods, each only if
     * the one before did not throw.
     */
    method LaunchPods(connectionStrings: seq<string>, podCount: int, serverPodCount: int) returns (err: Option<Failure>)
      modifies this`url, this`trace
      ensures Executed(old(trace), [Subscribe("ReportReady"), CreateServerPods(connectionStrings, serverPodCount), CreateClientPods(podCount)], err)
      ensures err.None? ==> url == env.serverUrl
    {
      ghost var t0 := trace;
      var a1, a2, a3 := Subscribe("ReportReady"), CreateServerPods(connectionStrings, serverPodCount), CreateClientPods(podCount);
      err := Call(a1);
      RanOne(trace, t0, a1);
      if err.Some? {
        RanLonger(trace, t0, [a1], [a1, a2, a3], err);
        return;
      }
      err := Call(a2);
      RanOne(trace, t0 + [a1], a2);
      RanThen(trace, t0, [a1], [a2], err);
      if err.Some? {
        RanLonger(trace, t0, [a1, a2], [a1, a2, a3], err);
        return;
      }
      url := env.serverUrl;
      err := Call(a3);
      RanOne(trace, t0 + [a1, a2], a3);
      RanThen(trace, t0, [a1, a2], [a3], err);
    }

    /**
     * The parameters of StartClientConnectionsAsync for `clientCount`
     * clients and the server at `serverUrl`: the rate is shared out over the
     * clients (C# integer division).
     */
    function ConnectionParameters(clientCount: nat, serverUrl: string): (p: Payload)
      requires clientCount > 0
      ensures p.Connections? && p.url == serverUrl && p.totalCount == job.scenario.totalConnectionCount
      ensures p.rate == StopRate(clientCount)
    {
      var s := job.scenario;
      Connections(s.clientLifetime, s.totalConnectionCount, s.isAnonymous, s.protocol,
                  Readiness.TruncDiv(s.rate, clientCount), serverUrl)
    }

    // --------------------------------------------------------------- rounds

    /** The status reports the bus delivers during round `i` (0-based). */
    function RoundMessages(i: nat): seq<StatusReport> {
      if i < |env.roundReports| then env.roundReports[i] else []
    }

    /** The report of round `i`: the merge of every client's last snapshot of that round. */
    ghost function RoundReport(i: nat): Snapshot {
      Aggregation.Merged(Aggregation.CollectAll(map[], RoundMessages(i)))
    }

    /** The reports of the first `n` rounds, in round order. */
    ghost function RoundReports(n: nat): seq<Snapshot>
      decreases n
    {
      if n == 0 then [] else RoundReports(n - 1) + [RoundReport(n - 1)]
    }

    /** The record a round shows while it runs: "Testing Round i+1", healthy. */
    function RoundShown(i: nat, r: StatusRecord): StatusRecord {
      WithStatus(r, RoundStatus(i + 1), true, None)
    }

    /** The record after round `i` completes, from record `r` and report list `list` before it. */
    ghost function AfterRound(i: nat, r: StatusRecord, list: seq<Snapshot>): StatusRecord {
      RoundShown(i, r).(report := list + [RoundReport(i)])
    }

    /**
     * The calls of round `i` up to its dwell: show the round, await the
     * SetScenario acknowledgements, and, unless a group broadcast lacks its
     * family, send the scenarios and run the StartScenario phase.
     */
    ghost function RoundStartPlan(i: nat, keys: set<Sender>, r: StatusRecord): seq<Action>
      requires i < |job.scenario.rounds|
    {
      var scenarios := ScenariosFor(job.scenario.rounds[i].clientSettings);
      [PersistStatus(RoundShown(i, r)), AwaitAcks(SetScenario, keys)]
      + (if scenarios.Failure? then []
         else [Send(SetScenario, Scenarios(scenarios.value)), AwaitAcks(StartScenario, keys), Send(StartScenario, NoParameters)])
    }

    /** The calls of round `i` from its dwell on: dwell, run the StopScenario phase, persist the record with the new report. */
    ghost function RoundEndPlan(i: nat, keys: set<Sender>, r: StatusRecord, list: seq<Snapshot>): seq<Action>
      requires i < |job.scenario.rounds|
    {
      [Dwell(job.scenario.rounds[i].durationInSeconds), AwaitAcks(StopScenario, keys), Send(StopScenario, NoParameters),
       PersistStatus(AfterRound(i, r, list))]
    }

    /** What round `i` throws of its own once all its calls went through: a group broadcast without a family, or a dwell Task.Delay refuses. */
    function RoundThrows(i: nat): Option<Failure>
      requires i < |job.scenario.rounds|
    {
      var round := job.scenario.rounds[i];
      if ScenariosFor(round.clientSettings).Failure? then Some(GroupFamilyRequired)
      else if !DelayAllowed(round.durationInSeconds) then Some(ArgumentOutOfRange)
      else None
    }

    /** The calls of round `i`, from record `r` and report list `list`, cut where the round throws of its own. */
    ghost function RoundPlan(i: nat, keys: set<Sender>, r: StatusRecord, list: seq<Snapshot>): seq<Action>
      requires i < |job.scenario.rounds|
    {
      RoundStartPlan(i, keys, r) + (if RoundThrows(i).Some? then [] else RoundEndPlan(i, keys, r, list))
    }

    /**
     * The first half of a round: show it, forget the previous round's
     * snapshots, set the scenario (a group broadcast without a family throws
     * after the acknowledgement barrier is installed) and start it.
     */
    method StartRound(i: nat) returns (err: Option<Failure>)
      requires i < |job.scenario.rounds|
      modifies this`record, this`trace, this`clientStatus
      ensures record == RoundShown(i, old(record))
      ensures clientStatus == if |old(trace)| in env.faults then old(clientStatus) else map[]
      ensures Ended(trace, old(trace), RoundStartPlan(i, clients.Keys, old(record)),
                    if ScenariosFor(job.scenario.rounds[i].clientSettings).Failure? then Some(GroupFamilyRequired) else None, err)
    {
      var round := job.scenario.rounds[i];
      ghost var t0 := trace;
      ghost var plan := RoundStartPlan(i, clients.Keys, old(record));
      var scenarios := ScenariosFor(round.clientSettings);
      err := UpdateTestStatus(RoundStatus(i + 1), true, None);
      var a1 := PersistStatus(record);
      if err.Some? {
        EndedByThrow(trace, t0, [a1], plan, if scenarios.Failure? then Some(GroupFamilyRequired) else None, err);
        return;
      }
      clientStatus := map[];
      ghost var t1 := trace;
      err := SetScenarioPhase(round);
      if scenarios.Failure? {
        assert plan == [a1, AwaitAcks(SetScenario, clients.Keys)];
        RanOne(trace, t1, AwaitAcks(SetScenario, clients.Keys));
        RanThen(trace, t0, [a1], [AwaitAcks(SetScenario, clients.Keys)], FaultAt(|t1|));
        return;
      }
      ghost var setPhase := [AwaitAcks(SetScenario, clients.Keys), Send(SetScenario, Scenarios(scenarios.value))];
      ghost var startPhase := [AwaitAcks(StartScenario, clients.Keys), Send(StartScenario, NoParameters)];
      assert plan == [a1] + setPhase + startPhase;
      if err.Some? {
        RanThen(trace, t0, [a1], setPhase, err);
        EndedByThrow(trace, t0, [a1] + setPhase, plan, None, err);
        return;
      }
      RanDone(trace, t1, setPhase);
      ghost var t2 := trace;
      err := AckPhase(StartScenario, NoParameters);
      RanFrom(trace, t0, t2, plan, startPhase, err);
    }

    /**
     * The second half of a round, begun with record `r0` shown: dwell while
     * the round's status reports arrive, run the StopScenario phase and
     * append the round's report.
     */
    method EndRound(i: nat, ghost r0: StatusRecord) returns (err: Option<Failure>)
      requires i < |job.scenario.rounds| && clientStatus == map[] && record == RoundShown(i, r0)
      modifies this`record, this`trace, this`clientStatus, this`clientStatusList
      ensures Executed(old(trace), RoundEndPlan(i, clients.Keys, r0, old(clientStatusList)), err)
      ensures record.status == old(record).status && record.healthy && record.errorInfo == old(record).errorInfo
      ensures err.None? ==> clientStatusList == old(clientStatusList) + [RoundReport(i)] && record == AfterRound(i, r0, old(clientStatusList))
      ensures err.Some? ==>
        clientStatusList == old(clientStatusList) || clientStatusList == old(clientStatusList) + [RoundReport(i)]
    {
      var round := job.scenario.rounds[i];
      ghost var t0 := trace;
      ghost var plan := RoundEndPlan(i, clients.Keys, r0, clientStatusList);
      var a1 := Dwell(round.durationInSeconds);
      ghost var stop := [AwaitAcks(StopScenario, clients.Keys), Send(StopScenario, NoParameters)];
      ghost var a4 := PersistStatus(AfterRound(i, r0, clientStatusList));
      assert plan == [a1] + stop + [a4];
      err := Call(a1);
      RanOne(trace, t0, a1);
      if err.Some? {
        RanLonger(trace, t0, [a1], plan, err);
        return;
      }
      CollectAllClientStatus(RoundMessages(i));
      ghost var t1 := trace;
      err := AckPhase(StopScenario, NoParameters);
      if err.Some? {
        RanThen(trace, t0, [a1], stop, err);
        RanLonger(trace, t0, [a1] + stop, plan, err);
        return;
      }
      RanThen(trace, t0, [a1], stop, err);
      RanDone(trace, t0, [a1] + stop);
      err := UpdateTestReports();
      RanThen(trace, t0, [a1] + stop, [a4], err);
    }

    /**
     * One round (the body of RunAsync's loop): show the round, forget the
     * previous round's snapshots, set and start the scenario, dwell while
     * the round's status reports arrive, stop the scenario and append the
     * round's report. Every status update of a round is healthy.
     */
    method RunRound(i: nat) returns (err: Option<Failure>)
      requires i < |job.scenario.rounds|
      modifies this`record, this`trace, this`clientStatus, this`clientStatusList
      ensures Ended(trace, old(trace), RoundPlan(i, clients.Keys, old(record), old(clientStatusList)), RoundThrows(i), err)
      ensures record.errorInfo == old(record.errorInfo) && record.healthy
      ensures err.None? ==>
        && clientStatusList == old(clientStatusList) + [RoundReport(i)]
        && record == AfterRound(i, old(record), old(clientStatusList))
      ensures err.Some? ==>
        clientStatusList == old(clientStatusList) || clientStatusList == old(clientStatusList) + [RoundReport(i)]
    {
      var round := job.scenario.rounds[i];
      ghost var t0, r0, l0 := trace, record, clientStatusList;
      ghost var startPlan := RoundStartPlan(i, clients.Keys, r0);
      ghost var plan := RoundPlan(i, clients.Keys, r0, l0);
      err := StartRound(i);
      if err.Some? {
        if err.value.External? {
          assert Ran(trace, t0, startPlan, err);
          EndedByThrow(trace, t0, startPlan, plan, RoundThrows(i), err);
        } else {
          assert plan == startPlan;
        }
        return;
      }
      assert Ran(trace, t0, startPlan, None);
      RanDone(trace, t0, startPlan);
      if !DelayAllowed(round.durationInSeconds) {
        assert plan == startPlan;
        return Some(ArgumentOutOfRange);
      }
      ghost var t1 := trace;
      assert plan == startPlan + RoundEndPlan(i, clients.Keys, r0, l0);
      err := EndRound(i, r0);
      RanFrom(trace, t0, t1, plan, RoundEndPlan(i, clients.Keys, r0, l0), err);
    }

    /**
     * Shows "Starting client connections" and runs the StartClientConnections
     * phase; the requested rate is shared out over the clients with C#
     * integer division.
     */
    method StartClients() returns (err: Option<Failure>)
      requires clients != map[]
      modifies this`record, this`trace
      ensures record == WithStatus(old(record), "Starting client connections", true, None)
      ensures Executed(old(trace), StartPlan(old(record), clients.Keys, url), err)
    {
      ClientKeys();
      err := UpdateTestStatus("Starting client connections", true, None);
      var a1 := PersistStatus(record);
      var ack := [AwaitAcks(StartClientConnections, clients.Keys), Send(StartClientConnections, ConnectionParameters(|clients|, url))];
      if err.Some? {
        RanLonger(trace, old(trace), [a1], [a1] + ack, err);
        return;
      }
      err := AckPhase(StartClientConnections, ConnectionParameters(|clients|, url));
      RanThen(trace, old(trace), [a1], ack, err);
    }

    /** The calls that start the connections of clients `keys` to the server at `serverUrl`, from record `r`. */
    ghost function StartPlan(r: StatusRecord, keys: set<Sender>, serverUrl: string): seq<Action>
      requires keys != {}
    {
      [PersistStatus(WithStatus(r, "Starting client connections", true, None)),
       AwaitAcks(StartClientConnections, keys), Send(StartClientConnections, ConnectionParameters(|keys|, serverUrl))]
    }

    /** The calls of rounds i.. to the last, from record `r` and report list `list`; the first round that throws of its own ends them. */
    ghost function RoundsPlan(i: nat, keys: set<Sender>, r: StatusRecord, list: seq<Snapshot>): seq<Action>
      requires i <= |job.scenario.rounds|
      decreases |job.scenario.rounds| - i
    {
      if i == |job.scenario.rounds| then []
      else RoundPlan(i, keys, r, list)
           + (if RoundThrows(i).Some? then [] else RoundsPlan(i + 1, keys, AfterRound(i, r, list), list + [RoundReport(i)]))
    }

    /** What rounds i.. throw of their own once all their calls went through: the first such round's exception. */
    function RoundsThrow(i: nat): Option<Failure>
      requires i <= |job.scenario.rounds|
      decreases |job.scenario.rounds| - i
    {
      if i == |job.scenario.rounds| then None
      else if RoundThrows(i).Some? then RoundThrows(i)
      else RoundsThrow(i + 1)
    }

    /** The record after rounds i.. all complete, from record `r` and report list `list`. */
    ghost function AfterRounds(i: nat, r: StatusRecord, list: seq<Snapshot>): StatusRecord
      requires i <= |job.scenario.rounds|
      decreases |job.scenario.rounds| - i
    {
      if i == |job.scenario.rounds| then r
      else AfterRounds(i + 1, AfterRound(i, r, list), list + [RoundReport(i)])
    }

    /**
     * The loop over the rounds: each completed round appends its report,
     * in round order, and the error log is never touched; the first round
     * that throws ends the loop.
     */
    method RunRounds() returns (err: Option<Failure>)
      modifies this`record, this`trace, this`clientStatus, this`clientStatusList
      ensures Ended(trace, old(trace), RoundsPlan(0, clients.Keys, old(record), old(clientStatusList)), RoundsThrow(0), err)
      ensures record.errorInfo == old(record.errorInfo)
      ensures record.healthy == (old(record.healthy) || |job.scenario.rounds| > 0)
      ensures err.None? ==> clientStatusList == old(clientStatusList) + RoundReports(|job.scenario.rounds|)
      ensures err.None? ==> record == AfterRounds(0, old(record), old(clientStatusList))
      ensures err.None? && |job.scenario.rounds| > 0 ==> record.report == clientStatusList
    {
      ghost var t0, r0, l0, keys := trace, record, clientStatusList, clients.Keys;
      ghost var whole, own, final := RoundsPlan(0, keys, r0, l0), RoundsThrow(0), AfterRounds(0, r0, l0);
      var i := 0;
      while i < |job.scenario.rounds|
        invariant 0 <= i <= |job.scenario.rounds|
        invariant t0 + whole == trace + RoundsPlan(i, keys, record, clientStatusList)
        invariant t0 <= trace && NoFault(|t0|, |trace|)
        invariant own == RoundsThrow(i) && final == AfterRounds(i, record, clientStatusList)
        invariant clientStatusList == l0 + RoundReports(i)
        invariant record.errorInfo == r0.errorInfo
        invariant record.healthy == (r0.healthy || i > 0)
        invariant i > 0 ==> record.report == clientStatusList
      {
        err := RoundTurn(keys, t0, whole, own, final, l0, i);
        if err.Some? {
          return;
        }
        i := i + 1;
      }
      err := None;
      RanAll(trace, t0, whole);
    }

    /**
     * One turn of the round loop, after rounds before `i` completed without
     * a throw since `t0`, so that `whole`, the calls of all the rounds, are
     * the calls made since plus those of rounds i..: the round runs, and a
     * throw in it ends the loop with `whole` ended.
     */
    method RoundTurn(ghost keys: set<Sender>, ghost t0: seq<Action>, ghost whole: seq<Action>, ghost own: Option<Failure>,
                     ghost final: StatusRecord, ghost l0: seq<Snapshot>, i: nat) returns (err: Option<Failure>)
      requires i < |job.scenario.rounds| && keys == clients.Keys
      requires t0 + whole == trace + RoundsPlan(i, keys, record, clientStatusList)
      requires t0 <= trace && NoFault(|t0|, |trace|)
      requires own == RoundsThrow(i) && final == AfterRounds(i, record, clientStatusList)
      requires clientStatusList == l0 + RoundReports(i)
      modifies this`record, this`trace, this`clientStatus, this`clientStatusList
      ensures record.errorInfo == old(record.errorInfo) && record.healthy
      ensures err.Some? ==> Ended(trace, t0, whole, own, err)
      ensures err.None? ==>
        && t0 + whole == trace + RoundsPlan(i + 1, keys, record, clientStatusList)
        && t0 <= trace && NoFault(|t0|, |trace|)
        && own == RoundsThrow(i + 1) && final == AfterRounds(i + 1, record, clientStatusList)
        && clientStatusList == l0 + RoundReports(i + 1)
        && record.report == clientStatusList
    {
      ghost var ti, ri, li := trace, record, clientStatusList;
      ghost var rest := RoundsPlan(i, keys, ri, li);
      ghost var round := RoundPlan(i, keys, ri, li);
      err := RunRound(i);
      if err.Some? {
        if Ran(trace, ti, round, err) {
          EndedByThrow(trace, ti, round, rest, own, err);
        } else {
          assert rest == round;
        }
        EndedFrom(trace, t0, ti, whole, rest, own, err);
        return;
      }
      RanDone(trace, ti, round);
      ghost var later := RoundsPlan(i + 1, keys, record, clientStatusList);
      assert rest == round + later;
      Assoc(ti, round, later);
      NoFaultJoin(|t0|, |ti|, |trace|);
    }

    /** The calls that stop the connections of clients `keys`, from record `r`. */
    ghost function StopPlan(r: StatusRecord, keys: set<Sender>): seq<Action>
      requires keys != {}
    {
      var stopping := WithStatus(r, "Stopping client connections", true, None);
      [PersistStatus(stopping), AwaitAcks(StopClientConnections, keys),
       Send(StopClientConnections, StopConnections(StopRate(|keys|))),
       PersistStatus(WithStatus(stopping, "Test Finishes", true, None))]
    }

    /** The rate of StopClientConnectionsAsync: the requested rate shared out over `clientCount` clients (C# integer division). */
    function StopRate(clientCount: nat): int
      requires clientCount > 0
    {
      Readiness.TruncDiv(job.scenario.rate, clientCount)
    }

    /**
     * The share of a nonnegative rate each of `clientCount` clients gets:
     * together they send at most the requested rate, and less than one
     * message per client short of it.
     */
    lemma RateShare(clientCount: nat)
      requires clientCount > 0 && job.scenario.rate >= 0
      ensures 0 <= StopRate(clientCount) && StopRate(clientCount) * clientCount <= job.scenario.rate
      ensures job.scenario.rate < StopRate(clientCount) * clientCount + clientCount
    {
      Readiness.DivBounds(job.scenario.rate, clientCount);
    }

    /** A runner that knows a client knows a nonempty set of them, as many as its map holds. */
    lemma ClientKeys()
      requires clients != map[]
      ensures clients.Keys != {} && |clients.Keys| == |clients| > 0
    {
      var x :| x in clients;
    }

    /** Shows "Stopping client connections", runs the StopClientConnections phase, and shows "Test Finishes". */
    method StopClients() returns (err: Option<Failure>)
      requires clients != map[]
      modifies this`record, this`trace
      ensures Executed(old(trace), StopPlan(old(record), clients.Keys), err)
      ensures record.errorInfo == old(record.errorInfo) && record.report == old(record.report) && record.healthy
      ensures err.None? ==> record == WithStatus(WithStatus(old(record), "Stopping client connections", true, None), "Test Finishes", true, None)
    {
      ClientKeys();
      ghost var t0, plan := trace, StopPlan(record, clients.Keys);
      err := UpdateTestStatus("Stopping client connections", true, None);
      var a1 := PersistStatus(record);
      ghost var ack := [AwaitAcks(StopClientConnections, clients.Keys), Send(StopClientConnections, StopConnections(StopRate(|clients|)))];
      ghost var a4 := PersistStatus(WithStatus(record, "Test Finishes", true, None));
      assert plan == [a1] + ack + [a4];
      if err.Some? {
        RanLonger(trace, t0, [a1], plan, err);
        return;
      }
      err := AckPhase(StopClientConnections, StopConnections(StopRate(|clients|)));
      RanThen(trace, t0, [a1], ack, err);
      if err.Some? {
        RanLonger(trace, t0, [a1] + ack, plan, err);
        return;
      }
      RanDone(trace, t0, [a1] + ack);
      err := UpdateTestStatus("Test Finishes", true, None);
      RanThen(trace, t0, [a1] + ack, [a4], err);
    }

    /**
     * The calls from starting the connections of clients `keys` to the
     * server at `serverUrl` to stopping them, from record `r`; the rounds can
     * cut them short.
     */
    ghost function ClientsPlan(r: StatusRecord, keys: set<Sender>, serverUrl: string): seq<Action>
      requires keys != {}
    {
      var starting := WithStatus(r, "Starting client connections", true, None);
      StartPlan(r, keys, serverUrl) + (RoundsPlan(0, keys, starting, [])
                                       + (if RoundsThrow(0).Some? then [] else StopPlan(AfterRounds(0, starting, []), keys)))
    }

    /**
     * The try block after the pods are ready: start the client connections,
     * run every round in order, then stop the connections.
     */
    method RunClients() returns (err: Option<Failure>)
      requires clients != map[] && clientStatusList == []
      modifies this`record, this`trace, this`clientStatus, this`clientStatusList
      ensures clients.Keys != {} && Ended(trace, old(trace), ClientsPlan(old(record), clients.Keys, url), RoundsThrow(0), err)
      ensures record.errorInfo == old(record.errorInfo) && record.healthy
      ensures err.None? ==>
        && clientStatusList == RoundReports(|job.scenario.rounds|)
        && record.status == "Test Finishes"
        && (|job.scenario.rounds| > 0 ==> record.report == clientStatusList)
    {
      ClientKeys();
      ghost var t0, r0, own, keys := trace, record, RoundsThrow(0), clients.Keys;
      ghost var starting := WithStatus(r0, "Starting client connections", true, None);
      ghost var start, rounds := StartPlan(r0, keys, url), RoundsPlan(0, keys, starting, []);
      ghost var stop := if own.Some? then [] else StopPlan(AfterRounds(0, starting, []), keys);
      ghost var plan := start + (rounds + stop);
      err := StartClients();
      if err.Some? {
        EndedByThrow(trace, t0, start, plan, own, err);
        return;
      }
      RanDone(trace, t0, start);
      ghost var t1 := trace;
      err := RunRounds();
      if err.Some? {
        EndedCut(trace, t1, rounds, stop, own, err);
        Assoc(t0, start, rounds + stop);
        EndedFrom(trace, t0, t1, plan, rounds + stop, own, err);
        return;
      }
      RanDone(trace, t1, rounds);
      ghost var t2 := trace;
      NoFaultJoin(|t0|, |t1|, |t2|);
      Assoc(t0, start, rounds + stop);
      Assoc(t0 + start, rounds, stop);
      err := StopClients();
      RanFrom(trace, t0, t2, plan, stop, err);
    }

    /**
     * The calls of RunAsync's try block, from record `r`: show "Creating
     * pods", then, once the provisioning task is awaited, create the pods
     * and run the clients. How readiness ended (`ready`, the client
     * `ranges`) and the server's url decide the calls after the pods.
     */
    ghost function TryPlan(r: StatusRecord, provisioned: Result<seq<string>, Failure>, podCount: int, serverPodCount: int,
                           ready: bool, ranges: map<Sender, ClientRange>, serverUrl: string): seq<Action>
    {
      var creating := WithStatus(r, "Creating pods", true, None);
      [PersistStatus(creating)]
      + (if provisioned.Failure? then []
         else PodsPlan(provisioned.value, podCount, serverPodCount, creating, ready, ranges, serverUrl))
    }

    /**
     * The calls after "Creating pods" is shown with record `r`: create the
     * pods, then start the clients, run the rounds and stop the clients. It
     * ends early where the ready handler cannot be built or a barrier never
     * completes.
     */
    ghost function PodsPlan(connectionStrings: seq<string>, podCount: int, serverPodCount: int, r: StatusRecord,
                            ready: bool, ranges: map<Sender, ClientRange>, serverUrl: string): seq<Action>
    {
      if podCount == 0 then []
      else CreatePodsPlan(connectionStrings, podCount, serverPodCount, ready, ranges)
           + (if !ready || ranges.Keys == {} then [] else ClientsPlan(r, ranges.Keys, serverUrl))
    }

    /** What the try block throws of its own once all its calls went through. */
    function TryThrows(provisioned: Result<seq<string>, Failure>, podCount: int): Option<Failure> {
      if provisioned.Failure? then Some(provisioned.error)
      else if podCount == 0 then Some(DivideByZero)
      else RoundsThrow(0)
    }

    /**
     * The try block from the pods on: create them, and when both barriers
     * complete, run the clients. The calls it makes follow from the
     * environment: its faults and its ready reports.
     */
    method PodsAndClients(connectionStrings: seq<string>, total: int, podCount: int, serverPodCount: int)
      returns (err: Option<Failure>, hung: bool)
      requires clients == map[] && serverPods == [] && clientStatusList == []
      modifies this
      ensures var ready := ReadyEnd(total, podCount, serverPodCount);
        !hung ==>
          Ended(trace, old(trace), PodsPlan(connectionStrings, podCount, serverPodCount, old(record), Readiness.BothReady(ready), ready.clients, env.serverUrl),
                if podCount == 0 then Some(DivideByZero) else RoundsThrow(0), err)
      ensures var ready := ReadyEnd(total, podCount, serverPodCount);
        hung ==>
          && err.None? && !(clientPodsReady && serverPodsReady)
          && Ran(trace, old(trace), PodsPlan(connectionStrings, podCount, serverPodCount, old(record), false, ready.clients, env.serverUrl), None)
      ensures hung <==>
        podCount != 0 && NoFault(|old(trace)|, |old(trace)| + 3) && !Readiness.BothReady(ReadyEnd(total, podCount, serverPodCount))
      ensures record.errorInfo == old(record.errorInfo) && (record.healthy || record == old(record))
      ensures err.None? && !hung ==>
        && clientStatusList == RoundReports(|job.scenario.rounds|)
        && record.status == "Test Finishes"
        && (|job.scenario.rounds| > 0 ==> record.report == clientStatusList)
    {
      ghost var t0, r0, own := trace, record, if podCount == 0 then Some(DivideByZero) else RoundsThrow(0);
      err, hung := CreatePods(connectionStrings, total, podCount, serverPodCount);
      if podCount != 0 {
        ghost var ready := ReadyEnd(total, podCount, serverPodCount);
        ghost var pods := CreatePodsPlan(connectionStrings, podCount, serverPodCount, Readiness.BothReady(ready), ready.clients);
        ghost var whole := PodsPlan(connectionStrings, podCount, serverPodCount, r0, Readiness.BothReady(ready), ready.clients, env.serverUrl);
        if err.Some? {
          EndedByThrow(trace, t0, pods, whole, own, err);
        } else if hung {
          assert whole == pods;
        } else {
          RanDone(trace, t0, pods);
          assert NoFault(|t0|, |t0| + 3);
          ClientKeys();
          err := ClientsAfterPods(t0, pods);
        }
      }
    }

    /** RunClients after the pod calls `pods` went through since `t0`: the two make one ending. */
    method ClientsAfterPods(ghost t0: seq<Action>, ghost pods: seq<Action>) returns (err: Option<Failure>)
      requires clients.Keys != {} && clientStatusList == []
      requires trace == t0 + pods && NoFault(|t0|, |trace|)
      modifies this`record, this`trace, this`clientStatus, this`clientStatusList
      ensures Ended(trace, t0, pods + ClientsPlan(old(record), clients.Keys, url), RoundsThrow(0), err)
      ensures record.errorInfo == old(record.errorInfo) && record.healthy
      ensures err.None? ==>
        && clientStatusList == RoundReports(|job.scenario.rounds|)
        && record.status == "Test Finishes"
        && (|job.scenario.rounds| > 0 ==> record.report == clientStatusList)
    {
      ghost var t1, plan := trace, ClientsPlan(record, clients.Keys, url);
      Assoc(t0, pods, plan);
      err := RunClients();
      EndedFrom(trace, t0, t1, pods + plan, plan, RoundsThrow(0), err);
    }

    /**
     * The body of RunAsync's try block: pods, client connections, every
     * round in order, then stopping the connections. It keeps the error log
     * as it was and, when nothing throws, leaves one report per round. A
     * provisioning failure surfaces here, where its task is awaited.
     */
    method RunPhases(provisioned: Result<seq<string>, Failure>, total: int, podCount: int, serverPodCount: int)
      returns (err: Option<Failure>, hung: bool)
      requires clients == map[] && serverPods == [] && clientStatusList == []
      modifies this
      ensures var ready := ReadyEnd(total, podCount, serverPodCount);
        !hung ==>
          Ended(trace, old(trace), TryPlan(old(record), provisioned, podCount, serverPodCount, Readiness.BothReady(ready), ready.clients, env.serverUrl),
                TryThrows(provisioned, podCount), err)
      ensures var ready := ReadyEnd(total, podCount, serverPodCount);
        hung ==>
          && err.None? && !(clientPodsReady && serverPodsReady)
          && Ran(trace, old(trace), TryPlan(old(record), provisioned, podCount, serverPodCount, false, ready.clients, env.serverUrl), None)
      ensures hung <==>
        && provisioned.Success? && podCount != 0 && NoFault(|old(trace)|, |old(trace)| + 4)
        && !Readiness.BothReady(ReadyEnd(total, podCount, serverPodCount))
      ensures record.errorInfo == old(record.errorInfo) && record.healthy
      ensures err.None? && !hung ==>
        && clientStatusList == RoundReports(|job.scenario.rounds|)
        && record.status == "Test Finishes"
        && (|job.scenario.rounds| > 0 ==> record.report == clientStatusList)
    {
      hung := false;
      ghost var t0, r0 := trace, record;
      ghost var ready := ReadyEnd(total, podCount, serverPodCount);
      ghost var whole := TryPlan(r0, provisioned, podCount, serverPodCount, Readiness.BothReady(ready), ready.clients, env.serverUrl);
      err := UpdateTestStatus("Creating pods", true, None);
      ghost var a1, creating := PersistStatus(record), record;
      if err.Some? {
        EndedByThrow(trace, t0, [a1], whole, TryThrows(provisioned, podCount), err);
        return;
      }
      if provisioned.Failure? {
        return Some(provisioned.error), false;
      }
      ghost var t1 := trace;
      NoFaultStep(|t0|, |t0|);
      assert NoFault(|t0|, |t0| + 4) <==> NoFault(|t1|, |t1| + 3);
      err, hung := PodsAndClients(provisioned.value, total, podCount, serverPodCount);
      ghost var rest := PodsPlan(provisioned.value, podCount, serverPodCount, creating, Readiness.BothReady(ready), ready.clients, env.serverUrl);
      Assoc(t0, [a1], rest);
      if hung {
        ghost var stalled := PodsPlan(provisioned.value, podCount, serverPodCount, creating, false, ready.clients, env.serverUrl);
        Assoc(t0, [a1], stalled);
        RanFrom(trace, t0, t1, [a1] + stalled, stalled, None);
      } else {
        EndedFrom(trace, t0, t1, [a1] + rest, rest, TryThrows(provisioned, podCount), err);
      }
    }

    // ------------------------------------------------------------- teardown

    /**
     * The calls of the finally block when teardown starts at call `t0`:
     * delete the client pods, then (unless that threw) the server pods, then
     * (unless that threw) one resource group per location, all issued.
     */
    function TeardownPlan(t0: int): seq<Action> {
      [DeleteClientPods]
      + (if t0 in env.faults then []
         else [DeleteServerPods]
              + (if t0 + 1 in env.faults then [] else DeleteGroups(GroupLocations(job.serviceSettings, defaultLocation))))
    }

    /** The first call numbered in [lo, hi) that throws, if any. */
    function FirstFault(lo: int, hi: int): (r: Option<Failure>)
      ensures r.Some? ==> r.value.External? && lo <= r.value.call < hi && r.value.call in env.faults
      decreases hi - lo
    {
      if lo >= hi then None
      else if lo in env.faults then Some(External(lo))
      else FirstFault(lo + 1, hi)
    }

    /** Looking at one more call: the first fault stays first, or the new call is the first to throw. */
    lemma {:induction false} FirstFaultExtend(lo: int, hi: int)
      requires lo <= hi
      ensures FirstFault(lo, hi + 1) == (if FirstFault(lo, hi).Some? then FirstFault(lo, hi) else FaultAt(hi))
      decreases hi - lo
    {
      if lo < hi && lo !in env.faults {
        FirstFaultExtend(lo + 1, hi);
      }
    }

    /** No call in [lo, hi) throws exactly when there is no first fault there. */
    lemma {:induction false} FirstFaultNone(lo: int, hi: int)
      ensures FirstFault(lo, hi).None? <==> NoFault(lo, hi)
      decreases hi - lo
    {
      if lo < hi {
        FirstFaultNone(lo + 1, hi);
      }
    }

    /** A throwing call after a stretch without a throw is the first fault of every interval reaching it. */
    lemma {:induction false} FirstFaultAt(lo: int, k: int, hi: int)
      requires lo <= k < hi && NoFault(lo, k) && k in env.faults
      ensures FirstFault(lo, hi) == Some(External(k))
      decreases k - lo
    {
      if lo < k {
        FirstFaultAt(lo + 1, k, hi);
      }
    }

    /**
     * The environment alone decides a run: it throws the first fault among
     * the plan's call numbers, and it stops right after that call (or after
     * the whole plan).
     */
    lemma RanFirstFault(tr: seq<Action>, before: seq<Action>, plan: seq<Action>, err: Option<Failure>)
      requires Ran(tr, before, plan, err)
      ensures err == FirstFault(|before|, |before| + |plan|)
      ensures |tr| == (if err.Some? then err.value.call + 1 else |before| + |plan|)
    {
      var t0 := |before|;
      if err.None? {
        FirstFaultNone(t0, t0 + |plan|);
      } else {
        assert |tr[t0..]| <= |plan|;
        FirstFaultAt(t0, |tr| - 1, t0 + |plan|);
      }
    }

    /**
     * Running `plan` from call `start` ends with `err` after `end` calls:
     * the first call of the plan to throw, or else `own` once every call
     * went through.
     */
    ghost predicate EndsWith(start: int, plan: seq<Action>, own: Option<Failure>, err: Option<Failure>, end: int) {
      var f := FirstFault(start, start + |plan|);
      err == (if f.Some? then f else own) && end == (if f.Some? then f.value.call + 1 else start + |plan|)
    }

    /** An ending is decided by the environment too: the plan's first fault, or else the runner's own exception. */
    lemma EndedFirstFault(tr: seq<Action>, before: seq<Action>, plan: seq<Action>, own: Option<Failure>, err: Option<Failure>)
      requires Ended(tr, before, plan, own, err)
      ensures EndsWith(|before|, plan, own, err, |tr|)
    {
      if err.Some? && Ran(tr, before, plan, err) {
        RanFirstFault(tr, before, plan, err);
      } else {
        RanFirstFault(tr, before, plan, None);
      }
    }

    /** Some call of the teardown starting at call `t` threw. */
    ghost predicate CleanupFailed(t: int) {
      CleanupError(t).Some?
    }

    /** The exception the teardown starting at call `t` reports: the first of its calls to throw. */
    ghost function CleanupError(t: int): Option<Failure> {
      FirstFault(t, t + |TeardownPlan(t)|)
    }

    /**
     * What escapes the finally block starting at call `t`: its catch swallows
     * the teardown's exception, so only a throw of the "Clean up failed"
     * persist call, right after the teardown calls, gets out.
     */
    ghost function CleanupThrows(t: int): Option<Failure> {
      if CleanupFailed(t) then FaultAt(t + |TeardownPlan(t)|) else None
    }

    /**
     * What escapes the catch and finally blocks when the try block threw
     * `tryError` and the teardown starts at call `t`: the finally block's
     * exception, or else that of the catch block's persist call (call t - 1),
     * or else nothing. The try block's own exception never escapes.
     */
    ghost function Escaped(tryError: Option<Failure>, t: int): Option<Failure> {
      if CleanupThrows(t).Some? then CleanupThrows(t)
      else if tryError.Some? then FaultAt(t - 1)
      else None
    }

    /**
     * The persist calls of both catch blocks go through: the "Testing Round
     * failed " one (call t - 1) when the try block threw, and the "Clean up
     * failed" one when the teardown starting at call `t` threw.
     */
    ghost predicate CatchesPersist(tryError: Option<Failure>, t: int) {
      && (tryError.Some? ==> t - 1 !in env.faults)
      && (CleanupFailed(t) ==> t + |TeardownPlan(t)| !in env.faults)
    }

    /**
     * Nothing escapes exactly when both catch blocks' persist calls go
     * through: the try block's and the teardown's own exceptions are
     * swallowed.
     */
    lemma FailuresSwallowed(tryError: Option<Failure>, t: int)
      ensures Escaped(tryError, t) == None <==> CatchesPersist(tryError, t)
    {
    }

    /**
     * The resource-group deletions of the finally block (Task.WhenAll):
     * every deletion is issued, and the first exception in call order is
     * the one reported.
     */
    method DeleteResourceGroups(locs: seq<string>) returns (err: Option<Failure>)
      modifies this`trace
      ensures trace == old(trace) + DeleteGroups(locs)
      ensures err == FirstFault(|old(trace)|, |trace|)
    {
      ghost var t0 := |trace|;
      err := None;
      var i := 0;
      while i < |locs|
        invariant 0 <= i <= |locs|
        invariant trace == old(trace) + DeleteGroups(locs[..i])
        invariant err == FirstFault(t0, |trace|)
      {
        FirstFaultExtend(t0, |trace|);
        var e := Call(DeleteResourceGroup(locs[i]));
        if err.None? {
          err := e;
        }
        assert locs[..i + 1][..i] == locs[..i];
        i := i + 1;
      }
      assert locs[..i] == locs;
    }

    /**
     * The finally block of RunAsync: the client pods, then the server pods,
     * then every resource group at once; a throwing pod deletion stops the
     * rest, and the first exception in call order is the one reported.
     */
    method Teardown() returns (err: Option<Failure>)
      modifies this`trace
      ensures trace == old(trace) + TeardownPlan(|old(trace)|)
      ensures err == FirstFault(|old(trace)|, |trace|) == CleanupError(|old(trace)|)
    {
      ghost var t0 := |trace|;
      err := Call(DeleteClientPods);
      if err.Some? {
        return;
      }
      err := Call(DeleteServerPods);
      if err.Some? {
        return;
      }
      var locs := GroupLocations(job.serviceSettings, defaultLocation);
      err := DeleteResourceGroups(locs);
    }

    /** Teardown started at call `t`, ran its plan, and persisted "Clean up failed" exactly when it threw. */
    ghost predicate TornDown(t: int)
      reads this`trace, this`record
    {
      var plan := TeardownPlan(t);
      && 0 <= t && t + |plan| <= |trace|
      && trace[t..t + |plan|] == plan
      && trace[t + |plan|..] == (if CleanupFailed(t) then [PersistStatus(record)] else [])
    }

    // -------------------------------------------------------------- the run

    /** The first calls of the setup: open the status table, then load the record under the test id split at its last '-'. */
    ghost function SetupHead(): seq<Action>
      requires LastIndexOf(job.testId, '-') >= 0
    {
      var idx := LastIndexOf(job.testId, '-');
      [OpenStatusTable, LoadStatus(job.testId[..idx], job.testId[idx + 1..])]
    }

    /** The calls of the setup after provisioning, on the loaded record `stored`: show "Creating vms", size the node pool, connect, subscribe. */
    ghost function SetupTail(stored: StatusRecord, podCount: int): seq<Action>
    {
      [PersistStatus(WithStatus(stored, "Creating vms", true, None)), EnsureNodeCount(podCount + job.serverCount),
       ConnectBus, Subscribe("ReportClientStatus")]
    }

    /**
     * What the first calls of the setup throw, decided by the environment:
     * with no '-' in the test id, opening the table's fault or else the
     * split's ArgumentOutOfRange; otherwise the first fault of the two calls.
     */
    ghost function HeadError(): Option<Failure> {
      if LastIndexOf(job.testId, '-') < 0 then (if 0 in env.faults then Some(External(0)) else Some(ArgumentOutOfRange))
      else FirstFault(0, 2)
    }

    /** The provisioning calls, numbered from 2 (after the setup's head): their first fault, if any. */
    ghost function ProvisionFault(): Option<Failure> {
      FirstFault(2, 2 + |ProvisionPlan(|job.serviceSettings|)|)
    }

    /** What provisioning yields after a head without a throw: every connection string, or its first fault. */
    ghost function Provisioned(): Result<seq<string>, Failure> {
      if ProvisionFault().Some? then Failure(ProvisionFault().value) else Success(ConnectionStrings(|job.serviceSettings|))
    }

    /** The number of calls made when provisioning has ended. */
    ghost function ProvisionEnd(): int {
      if ProvisionFault().Some? then ProvisionFault().value.call + 1 else 2 + |ProvisionPlan(|job.serviceSettings|)|
    }

    /**
     * What the whole setup throws, decided by the environment: the head's
     * exception, else NullReference when no record is stored, else the first
     * fault of the four calls after provisioning.
     */
    ghost function SetupError(): Option<Failure> {
      if HeadError().Some? then HeadError()
      else if env.storedRecord.None? then Some(NullReference)
      else FirstFault(ProvisionEnd(), ProvisionEnd() + 4)
    }

    /** The number of the first call of the try block, once the setup went through. */
    ghost function TryStart(): int {
      ProvisionEnd() + 4
    }

    /** The calls of RunAsync's try block, decided by the environment (once a record is stored). */
    ghost function TryCalls(): seq<Action>
      requires env.storedRecord.Some?
    {
      var total := job.scenario.totalConnectionCount;
      var podCount := Readiness.ClientPodCount(total);
      var ready := ReadyEnd(total, podCount, job.serverCount);
      TryPlan(WithStatus(env.storedRecord.value, "Creating vms", true, None), Provisioned(), podCount, job.serverCount,
              Readiness.BothReady(ready), ready.clients, env.serverUrl)
    }

    /** The first call of the try block to throw, if any. */
    ghost function TryFault(): Option<Failure>
      requires env.storedRecord.Some?
    {
      FirstFault(TryStart(), TryStart() + |TryCalls()|)
    }

    /** What the try block throws, decided by the environment: its first fault, or else its own exception. */
    ghost function TryError(): Option<Failure>
      requires env.storedRecord.Some?
    {
      if TryFault().Some? then TryFault()
      else TryThrows(Provisioned(), Readiness.ClientPodCount(job.scenario.totalConnectionCount))
    }

    /** The number of calls made when the try block has ended. */
    ghost function TryEnd(): int
      requires env.storedRecord.Some?
    {
      if TryFault().Some? then TryFault().value.call + 1 else TryStart() + |TryCalls()|
    }

    /**
     * RunAsync waits forever, decided by the environment: there is a
     * service setting, the setup and provisioning went through, there is a
     * client pod, "Creating pods" and the three launch calls went through,
     * and the ready reports leave a barrier incomplete.
     */
    ghost predicate Hangs() {
      var total := job.scenario.totalConnectionCount;
      var podCount := Readiness.ClientPodCount(total);
      && |job.serviceSettings| > 0 && SetupError().None? && Provisioned().Success? && podCount != 0
      && NoFault(TryStart(), TryStart() + 4)
      && !Readiness.BothReady(ReadyEnd(total, podCount, job.serverCount))
    }

    /** The last part of the setup: show "Creating vms", size the node pool to `podCount` plus the server pods, connect to the bus, subscribe to status reports. */
    method PrepareCluster(podCount: int) returns (err: Option<Failure>)
      modifies this`record, this`trace
      ensures record == WithStatus(old(record), "Creating vms", true, None)
      ensures Executed(old(trace), SetupTail(old(record), podCount), err)
    {
      ghost var t0, plan := trace, SetupTail(record, podCount);
      err := UpdateTestStatus("Creating vms", true, None);
      var calls := [EnsureNodeCount(podCount + job.serverCount), ConnectBus, Subscribe("ReportClientStatus")];
      assert plan == [plan[0]] + calls;
      if err.Some? {
        RanLonger(trace, t0, [plan[0]], plan, err);
        return;
      }
      RanDone(trace, t0, [plan[0]]);
      err := CallAll(calls);
      RanThen(trace, t0, [plan[0]], calls, err);
    }

    /** Makes the calls of `calls` in order until one throws. */
    method CallAll(calls: seq<Action>) returns (err: Option<Failure>)
      modifies this`trace
      ensures Executed(old(trace), calls, err)
    {
      ghost var t0 := trace;
      err := None;
      var i := 0;
      while i < |calls|
        invariant 0 <= i <= |calls|
        invariant Ran(trace, t0, calls[..i], None) && err.None?
      {
        RanDone(trace, t0, calls[..i]);
        ghost var ti := trace;
        err := Call(calls[i]);
        RanOne(trace, ti, calls[i]);
        RanThen(trace, t0, calls[..i], [calls[i]], err);
        assert calls[..i] + [calls[i]] == calls[..i + 1];
        if err.Some? {
          RanLonger(trace, t0, calls[..i + 1], calls, err);
          return;
        }
        i := i + 1;
      }
      assert calls[..i] == calls;
    }

    /**
     * The part of RunAsync before its try block: open the status table,
     * load this test's record (the test id splits at its last '-'; with no
     * '-' the split throws), work out the pod counts, provision the service
     * instances (whose failure only surfaces when they are awaited inside
     * the try block), show "Creating vms" (which throws when no record was
     * found), size the node pool, connect to the bus and subscribe to status
     * reports. `provisionEnd` is the number of calls made when provisioning
     * ended.
     */
    method Setup() returns (err: Option<Failure>, provisioned: Result<seq<string>, Failure>, podCount: int, ghost provisionEnd: nat)
      modifies this`record, this`trace
      ensures podCount == Readiness.ClientPodCount(job.scenario.totalConnectionCount)
      ensures LastIndexOf(job.testId, '-') < 0 ==> err == Some(ArgumentOutOfRange) || err == Some(External(0))
      ensures LastIndexOf(job.testId, '-') < 0 ==> Ended(trace, [], [OpenStatusTable], Some(ArgumentOutOfRange), err)
      ensures LastIndexOf(job.testId, '-') >= 0 ==>
        || (err.Some? && Ran(trace, [], SetupHead(), err))
        || (&& 2 <= provisionEnd <= |trace| && Ran(trace[..2], [], SetupHead(), None)
            && Ran(trace[..provisionEnd], SetupHead(), ProvisionPlan(|job.serviceSettings|), ErrorOf(provisioned))
            && Ended(trace, trace[..provisionEnd],
                     if env.storedRecord.Some? then SetupTail(env.storedRecord.value, podCount) else [],
                     if env.storedRecord.Some? then None else Some(NullReference), err))
      ensures err.None? ==> env.storedRecord.Some? && record == WithStatus(env.storedRecord.value, "Creating vms", true, None)
      ensures err.None? ==> |trace| >= 2 && trace[1] == LoadStatus(job.testId[..LastIndexOf(job.testId, '-')], job.testId[LastIndexOf(job.testId, '-') + 1..])
      ensures env.storedRecord.None? ==> err.Some?
      ensures err == SetupError()
      ensures err.None? ==> provisioned == Provisioned() && |trace| == TryStart()
      requires trace == []
    {
      podCount := Readiness.ClientPodCount(job.scenario.totalConnectionCount);
      provisioned := Failure(NullReference);
      provisionEnd := 0;
      err := OpenRecord();
      if err.Some? {
        return;
      }
      ghost var head := SetupHead();
      RanDone(trace, [], head);
      assert Ran(trace, [], head, None);
      err, provisioned, provisionEnd := SetupRest(podCount);
      assert trace[..2][1] == head[1];
    }

    /**
     * The setup once the status table is open and the record is loaded:
     * provisioning, then, on a stored record, "Creating vms" and the
     * cluster calls. With no stored record the runner's record stays null
     * and its first use throws NullReference.
     */
    method SetupRest(podCount: int) returns (err: Option<Failure>, provisioned: Result<seq<string>, Failure>, ghost provisionEnd: nat)
      requires LastIndexOf(job.testId, '-') >= 0 && HeadError().None? && trace == SetupHead()
      modifies this`record, this`trace
      ensures 2 <= provisionEnd <= |trace| && trace[..2] == old(trace)
      ensures Ran(trace[..provisionEnd], old(trace), ProvisionPlan(|job.serviceSettings|), ErrorOf(provisioned))
      ensures Ended(trace, trace[..provisionEnd],
                    if env.storedRecord.Some? then SetupTail(env.storedRecord.value, podCount) else [],
                    if env.storedRecord.Some? then None else Some(NullReference), err)
      ensures err.None? ==> env.storedRecord.Some? && record == WithStatus(env.storedRecord.value, "Creating vms", true, None)
      ensures err == (if env.storedRecord.None? then Some(NullReference) else FirstFault(ProvisionEnd(), ProvisionEnd() + 4))
      ensures err.None? ==> provisioned == Provisioned() && |trace| == ProvisionEnd() + 4
    {
      var loaded := env.storedRecord;
      if loaded.Some? {
        record := loaded.value;
      }
      provisioned := PrepareInstances();
      provisionEnd := |trace|;
      ProvisionOutcome(provisioned);
      assert trace[..provisionEnd] == trace && trace[..2] == old(trace);
      if loaded.None? {
        return Some(NullReference), provisioned, provisionEnd;
      }
      ghost var t1 := trace;
      err := PrepareCluster(podCount);
      RanFirstFault(trace, t1, SetupTail(loaded.value, podCount), err);
      assert trace[..provisionEnd] == t1 && trace[..2] == old(trace);
    }

    /** Provisioning after a head without a throw yields what the environment decides. */
    lemma ProvisionOutcome(r: Result<seq<string>, Failure>)
      requires HeadError().None? && |trace| >= 2
      requires Ran(trace, trace[..2], ProvisionPlan(|job.serviceSettings|), ErrorOf(r))
      requires r.Success? ==> |r.value| == |job.serviceSettings|
      requires r.Success? ==> forall i :: 0 <= i < |r.value| ==> r.value[i] == ConnectionString(i)
      ensures r == Provisioned() && |trace| == ProvisionEnd()
    {
      RanFirstFault(trace, trace[..2], ProvisionPlan(|job.serviceSettings|), ErrorOf(r));
      if r.Success? {
        assert r.value == ConnectionStrings(|job.serviceSettings|);
      }
    }

    /**
     * The setup as the rest of RunAsync relies on it: what it throws, what
     * provisioning yielded, and the record it leaves, all decided by the
     * environment.
     */
    method Prepare() returns (err: Option<Failure>, provisioned: Result<seq<string>, Failure>, podCount: int)
      requires trace == []
      modifies this`record, this`trace
      ensures err == SetupError() && podCount == Readiness.ClientPodCount(job.scenario.totalConnectionCount)
      ensures err.None? ==>
        && env.storedRecord.Some? && record == WithStatus(env.storedRecord.value, "Creating vms", true, None)
        && provisioned == Provisioned() && |trace| == TryStart()
    {
      ghost var provisionEnd;
      err, provisioned, podCount, provisionEnd := Setup();
    }

    /**
     * The first calls of the setup: open the status table, then (when the
     * test id has a '-') load the record. A test id without '-' makes the
     * split throw ArgumentOutOfRange.
     */
    method OpenRecord() returns (err: Option<Failure>)
      requires trace == []
      modifies this`trace
      ensures LastIndexOf(job.testId, '-') < 0 ==> Ended(trace, [], [OpenStatusTable], Some(ArgumentOutOfRange), err)
      ensures LastIndexOf(job.testId, '-') < 0 ==> err == Some(ArgumentOutOfRange) || err == Some(External(0))
      ensures LastIndexOf(job.testId, '-') >= 0 ==> Executed([], SetupHead(), err)
      ensures err == HeadError()
    {
      err := Call(OpenStatusTable);
      RanOne(trace, [], OpenStatusTable);
      var idx := LastIndexOf(job.testId, '-');
      if err.Some? {
        if idx >= 0 {
          RanLonger(trace, [], [OpenStatusTable], SetupHead(), err);
        }
        return;
      }
      if idx < 0 {
        return Some(ArgumentOutOfRange);
      }
      ghost var head := SetupHead();
      err := Call(LoadStatus(job.testId[..idx], job.testId[idx + 1..]));
      RanOne(trace, [OpenStatusTable], head[1]);
      RanThen(trace, [], [OpenStatusTable], [head[1]], err);
      assert [OpenStatusTable] + [head[1]] == head;
      RanFirstFault(trace, [], head, err);
    }

    /**
     * The finally block of RunAsync: teardown, and "Clean up failed",
     * unhealthy, with the teardown's exception when it throws.
     */
    method CleanUp() returns (err: Option<Failure>)
      modifies this`record, this`trace
      ensures old(trace) <= trace && TornDown(|old(trace)|)
      ensures CleanupFailed(|old(trace)|) ==>
        record == WithStatus(old(record), "Clean up failed", false, CleanupError(|old(trace)|))
      ensures !CleanupFailed(|old(trace)|) ==> record == old(record)
      ensures err == CleanupThrows(|old(trace)|)
    {
      ghost var before := trace;
      ghost var t := |trace|;
      ghost var plan := TeardownPlan(t);
      var cleanupError := Teardown();
      assert trace == before + plan;
      err := None;
      if cleanupError.Some? {
        ghost var persistAt := |trace|;
        err := UpdateTestStatus("Clean up failed", false, cleanupError);
        assert err == FaultAt(persistAt) == CleanupThrows(t);
        TraceSplit(trace, before, plan, [PersistStatus(record)]);
      } else {
        assert CleanupThrows(t) == None;
        TraceSplit(trace, before, plan, []);
      }
    }

    /**
     * The catch and finally blocks of RunAsync: a failure of the try block
     * is recorded as unhealthy with its exception, then the finally block
     * runs. The exception RunAsync ends with, if any, is `pending`: that of
     * the finally block's persist call, or else that of the catch block's;
     * the try block's and the teardown's own exceptions are swallowed.
     * `teardownAt` is the number of the first teardown call.
     */
    method Finish(failed: Option<Failure>) returns (pending: Option<Failure>, ghost teardownAt: int)
      modifies this`record, this`trace
      ensures old(trace) <= trace && teardownAt == |old(trace)| + (if failed.Some? then 1 else 0) && TornDown(teardownAt)
      ensures failed.Some? ==> !record.healthy && old(record).errorInfo + ErrorEntry(failed.value) <= record.errorInfo
      ensures CleanupFailed(teardownAt) ==> !record.healthy && record.status == "Clean up failed"
      ensures !CleanupFailed(teardownAt) ==>
        record == (if failed.Some? then WithStatus(old(record), "Testing Round failed ", false, failed) else old(record))
      ensures failed.Some? ==> trace[|old(trace)|] == PersistStatus(WithStatus(old(record), "Testing Round failed ", false, failed))
      ensures pending == Escaped(failed, teardownAt)
    {
      pending := None;
      if failed.Some? {
        pending := UpdateTestStatus("Testing Round failed ", false, failed);
      }
      ghost var r1 := record;
      teardownAt := |trace|;
      var e := CleanUp();
      if e.Some? {
        pending := e;
      }
      assert r1.errorInfo <= record.errorInfo;
    }

    /**
     * RunAsync. With no service setting it does nothing. Otherwise it sets
     * up (a failure there propagates with no teardown), runs the phases of
     * the try block, and then, in every case but a barrier that never
     * completes, records a failure and tears down. `teardownAt` is the
     * number of the first teardown call (-1 if none), `setupError` what the
     * setup threw and `tryError` what the try block threw. All three, and
     * whether it hangs, are decided by the environment: SetupError, Hangs,
     * and the ending of TryPlan from call TryStart(). Both catch blocks
     * swallow their exception, so after the try block RunAsync throws only
     * when one of their own persist calls throws (Escaped).
     */
    method RunAsync() returns (outcome: RunOutcome, ghost teardownAt: int, ghost setupError: Option<Failure>, ghost tryError: Option<Failure>)
      requires Fresh()
      modifies this
      ensures setupError == (if |job.serviceSettings| == 0 then None else SetupError())
      ensures outcome == Hung <==> Hangs()
      ensures teardownAt == -1 <==> (|job.serviceSettings| == 0 || setupError.Some? || outcome == Hung)
      ensures setupError.Some? ==> outcome == Threw(setupError.value) && tryError.None?
      ensures |job.serviceSettings| == 0 ==> outcome == Returned && trace == [] && teardownAt == -1
      ensures outcome == Hung ==> teardownAt == -1 && tryError.None? && !(clientPodsReady && serverPodsReady)
      ensures outcome == Returned && |job.serviceSettings| > 0 ==> teardownAt >= 0
      ensures tryError.Some? ==> teardownAt >= 0
      ensures teardownAt >= 0 ==> outcome == OutcomeOf(Escaped(tryError, teardownAt))
      ensures teardownAt >= 0 && CatchesPersist(tryError, teardownAt) ==> outcome == Returned
      ensures teardownAt >= 0 ==> TornDown(teardownAt) && env.storedRecord.Some?
      ensures teardownAt >= 0 ==>
        env.storedRecord.Some? && tryError == TryError() && teardownAt == TryEnd() + (if tryError.Some? then 1 else 0)
      ensures teardownAt >= 0 && tryError.Some? ==>
        && !record.healthy
        && env.storedRecord.value.errorInfo + ErrorEntry(tryError.value) <= record.errorInfo
      ensures teardownAt >= 0 && tryError.None? ==> clientStatusList == RoundReports(|job.scenario.rounds|)
      ensures teardownAt >= 0 && CleanupFailed(teardownAt) ==> !record.healthy && record.status == "Clean up failed"
      ensures teardownAt >= 0 && !CleanupFailed(teardownAt) && tryError.Some? ==> record.status == "Testing Round failed "
      ensures teardownAt >= 0 && !CleanupFailed(teardownAt) && tryError.None? ==>
        && outcome == Returned && record.healthy && record.status == "Test Finishes"
        && record.errorInfo == env.storedRecord.value.errorInfo
    {
      setupError := None;
      if |job.serviceSettings| == 0 {
        return Returned, -1, None, None;
      }
      var err, provisioned, podCount := Prepare();
      if err.Some? {
        return Threw(err.value), -1, err, None;
      }
      outcome, teardownAt, tryError := RunTry(provisioned, podCount);
    }

    /**
     * What follows a setup that went through, seen from the environment:
     * it hangs exactly when Hangs() holds, and otherwise the try block
     * throws TryError() and the teardown starts at call TryEnd(), one call
     * later when the failure is recorded first.
     */
    method RunTry(provisioned: Result<seq<string>, Failure>, podCount: int)
      returns (outcome: RunOutcome, ghost teardownAt: int, ghost tryError: Option<Failure>)
      requires |job.serviceSettings| > 0 && SetupError().None?
      requires clients == map[] && serverPods == [] && clientStatusList == []
      requires env.storedRecord.Some? && record == WithStatus(env.storedRecord.value, "Creating vms", true, None)
      requires provisioned == Provisioned() && |trace| == TryStart()
      requires podCount == Readiness.ClientPodCount(job.scenario.totalConnectionCount)
      modifies this
      ensures outcome == Hung <==> Hangs()
      ensures outcome == Hung ==> teardownAt == -1 && tryError.None? && !(clientPodsReady && serverPodsReady)
      ensures outcome != Hung ==> teardownAt >= 0 && TornDown(teardownAt)
      ensures teardownAt >= 0 ==> tryError == TryError() && teardownAt == TryEnd() + (if tryError.Some? then 1 else 0)
      ensures tryError.Some? ==> teardownAt >= 0
      ensures teardownAt >= 0 ==> outcome == OutcomeOf(Escaped(tryError, teardownAt))
      ensures teardownAt >= 0 && CatchesPersist(tryError, teardownAt) ==> outcome == Returned
      ensures teardownAt >= 0 && tryError.Some? ==>
        !record.healthy && env.storedRecord.value.errorInfo + ErrorEntry(tryError.value) <= record.errorInfo
      ensures teardownAt >= 0 && tryError.None? ==> clientStatusList == RoundReports(|job.scenario.rounds|)
      ensures teardownAt >= 0 && CleanupFailed(teardownAt) ==> !record.healthy && record.status == "Clean up failed"
      ensures teardownAt >= 0 && !CleanupFailed(teardownAt) && tryError.Some? ==> record.status == "Testing Round failed "
      ensures teardownAt >= 0 && !CleanupFailed(teardownAt) && tryError.None? ==>
        && outcome == Returned && record.healthy && record.status == "Test Finishes"
        && record.errorInfo == env.storedRecord.value.errorInfo
    {
      ghost var ready := ReadyEnd(job.scenario.totalConnectionCount, podCount, job.serverCount);
      ghost var plan := TryPlan(record, provisioned, podCount, job.serverCount, Readiness.BothReady(ready), ready.clients, env.serverUrl);
      TryCallsFrom(record, provisioned, podCount);
      outcome, teardownAt, tryError := TryCatchFinally(provisioned, podCount, plan);
      if teardownAt >= 0 {
        TryOutcome(tryError, teardownAt - (if tryError.Some? then 1 else 0));
      }
    }

    /** TryPlan, built from what the setup leaves behind, is the environment's TryCalls(). */
    lemma TryCallsFrom(r: StatusRecord, provisioned: Result<seq<string>, Failure>, podCount: int)
      requires env.storedRecord.Some? && r == WithStatus(env.storedRecord.value, "Creating vms", true, None)
      requires provisioned == Provisioned() && podCount == Readiness.ClientPodCount(job.scenario.totalConnectionCount)
      ensures var ready := ReadyEnd(job.scenario.totalConnectionCount, podCount, job.serverCount);
        TryPlan(r, provisioned, podCount, job.serverCount, Readiness.BothReady(ready), ready.clients, env.serverUrl) == TryCalls()
    {
    }

    /** The ending of TryCalls() from call TryStart() is TryError() after TryEnd() calls. */
    lemma TryOutcome(err: Option<Failure>, end: int)
      requires env.storedRecord.Some?
      requires EndsWith(TryStart(), TryCalls(), TryThrows(Provisioned(), Readiness.ClientPodCount(job.scenario.totalConnectionCount)), err, end)
      ensures err == TryError() && end == TryEnd()
    {
    }

    /**
     * The try, catch and finally blocks of RunAsync, once the setup went
     * through: the phases, then (unless a barrier never completes) the
     * failure record and the teardown. Whether it hangs, and what the try
     * block throws, follow from the environment: the ending of TryPlan.
     */
    method TryCatchFinally(provisioned: Result<seq<string>, Failure>, podCount: int, ghost plan: seq<Action>)
      returns (outcome: RunOutcome, ghost teardownAt: int, ghost tryError: Option<Failure>)
      requires clients == map[] && serverPods == [] && clientStatusList == []
      requires var ready := ReadyEnd(job.scenario.totalConnectionCount, podCount, job.serverCount);
        plan == TryPlan(record, provisioned, podCount, job.serverCount, Readiness.BothReady(ready), ready.clients, env.serverUrl)
      modifies this
      ensures var ready := ReadyEnd(job.scenario.totalConnectionCount, podCount, job.serverCount);
        outcome == Hung <==>
          provisioned.Success? && podCount != 0 && NoFault(|old(trace)|, |old(trace)| + 4) && !Readiness.BothReady(ready)
      ensures outcome == Hung ==> teardownAt == -1 && tryError.None? && !(clientPodsReady && serverPodsReady)
      ensures outcome != Hung ==> teardownAt >= 0 && TornDown(teardownAt)
      ensures teardownAt >= 0 ==>
        EndsWith(|old(trace)|, plan, TryThrows(provisioned, podCount), tryError, teardownAt - (if tryError.Some? then 1 else 0))
      ensures tryError.Some? ==> teardownAt >= 0
      ensures teardownAt >= 0 ==> outcome == OutcomeOf(Escaped(tryError, teardownAt))
      ensures teardownAt >= 0 && tryError.Some? ==>
        !record.healthy && old(record).errorInfo + ErrorEntry(tryError.value) <= record.errorInfo
      ensures teardownAt >= 0 && tryError.None? ==> clientStatusList == RoundReports(|job.scenario.rounds|)
      ensures teardownAt >= 0 && CleanupFailed(teardownAt) ==> !record.healthy && record.status == "Clean up failed"
      ensures teardownAt >= 0 && !CleanupFailed(teardownAt) && tryError.Some? ==> record.status == "Testing Round failed "
      ensures teardownAt >= 0 && !CleanupFailed(teardownAt) && tryError.None? ==>
        && outcome == Returned && record.healthy && record.status == "Test Finishes"
        && record.errorInfo == old(record).errorInfo
    {
      var failed, hung := TryBlock(provisioned, podCount, plan);
      if hung {
        return Hung, -1, None;
      }
      tryError := failed;
      var pending;
      pending, teardownAt := Finish(failed);
      outcome := OutcomeOf(pending);
    }

    /**
     * RunAsync's try block once the setup went through, seen from the
     * environment: it hangs exactly when the phases' launch calls went
     * through and a barrier never completes, and otherwise throws the first
     * fault among the calls of `plan`, or else its own exception.
     */
    method TryBlock(provisioned: Result<seq<string>, Failure>, podCount: int, ghost plan: seq<Action>)
      returns (failed: Option<Failure>, hung: bool)
      requires clients == map[] && serverPods == [] && clientStatusList == []
      requires var ready := ReadyEnd(job.scenario.totalConnectionCount, podCount, job.serverCount);
        plan == TryPlan(record, provisioned, podCount, job.serverCount, Readiness.BothReady(ready), ready.clients, env.serverUrl)
      modifies this
      ensures hung <==>
        && provisioned.Success? && podCount != 0 && NoFault(|old(trace)|, |old(trace)| + 4)
        && !Readiness.BothReady(ReadyEnd(job.scenario.totalConnectionCount, podCount, job.serverCount))
      ensures hung ==> failed.None? && !(clientPodsReady && serverPodsReady)
      ensures !hung ==> EndsWith(|old(trace)|, plan, TryThrows(provisioned, podCount), failed, |trace|)
      ensures record.errorInfo == old(record.errorInfo) && record.healthy
      ensures failed.None? && !hung ==>
        && clientStatusList == RoundReports(|job.scenario.rounds|)
        && record.status == "Test Finishes"
        && (|job.scenario.rounds| > 0 ==> record.report == clientStatusList)
    {
      ghost var t1 := trace;
      failed, hung := RunPhases(provisioned, job.scenario.totalConnectionCount, podCount, job.serverCount);
      if !hung {
        EndedFirstFault(trace, t1, plan, TryThrows(provisioned, podCount), failed);
      }
    }
  }
}

=== FILE: enums.dfy ===
/**
 * The enumerations shared by the coordinator and its workers
 * (src/Libs/Common/Enums.cs).
 *
 * A SignalRProtocol value packs an HTTP transport into its low nibble and a
 * transfer format into its high nibble; the two parts are recovered with
 * `value & 0xF` and `value >> 4`.
 */
module Enums {
  import opened Wrappers

  datatype HttpTransportType = WebSockets | ServerSentEvents | LongPolling

  /** The numeric value of each transport, as documented beside each protocol. */
  function TransportCode(t: HttpTransportType): bv8 {
    match t
    case WebSockets => 1
    case ServerSentEvents => 2
    case LongPolling => 4
  }

  datatype TransferFormat = Binary | Text

  function FormatCode(f: TransferFormat): bv8 {
    match f
    case Binary => 1
    case Text => 2
  }

  datatype SignalRProtocol =
    | WebSocketsWithMessagePack
    | WebSocketsWithJson
    | ServerSideEventsWithJson
    | LongPollingWithMessagePack
    | LongPollingWithJson

  /** The integer behind each enum member, written as in the declaration. */
  function Value(p: SignalRProtocol): bv8 {
    match p
    case WebSocketsWithMessagePack => 1 | 0x10
    case WebSocketsWithJson => 1 | 0x20
    case ServerSideEventsWithJson => 2 | 0x20
    case LongPollingWithMessagePack => 4 | 0x10
    case LongPollingWithJson => 4 | 0x20
  }

  /** The transport each member names; its code is the low nibble of the value. */
  function Transport(p: SignalRProtocol): (t: HttpTransportType)
    ensures TransportCode(t) == Value(p) & 0xF
  {
    match p
    case WebSocketsWithMessagePack | WebSocketsWithJson => WebSockets
    case ServerSideEventsWithJson => ServerSentEvents
    case LongPollingWithMessagePack | LongPollingWithJson => LongPolling
  }

  /** The transfer format each member names; its code is the high nibble of the value. */
  function Format(p: SignalRProtocol): (f: TransferFormat)
    ensures FormatCode(f) == Value(p) >> 4
    ensures f == Binary <==> p in {WebSocketsWithMessagePack, LongPollingWithMessagePack}
  {
    match p
    case WebSocketsWithMessagePack | LongPollingWithMessagePack => Binary
    case _ => Text
  }

  /** Packs a transport and a format; both parts come back out, since every transport code is below 16. */
  function Encode(t: HttpTransportType, f: TransferFormat): (v: bv8)
    ensures v & 0xF == TransportCode(t)
    ensures v >> 4 == FormatCode(f)
  {
    TransportCode(t) | (FormatCode(f) << 4)
  }

  /** Every member's value is the packing of its own transport and format. */
  lemma ValueIsEncoding(p: SignalRProtocol)
    ensures Value(p) == Encode(Transport(p), Format(p))
  {
  }

  /** The member whose value is `v`, if there is one. */
  function FromValue(v: bv8): (r: Option<SignalRProtocol>)
    ensures forall p :: Value(p) == v <==> r == Some(p)
  {
    if v == 0x11 then Some(WebSocketsWithMessagePack)
    else if v == 0x21 then Some(WebSocketsWithJson)
    else if v == 0x22 then Some(ServerSideEventsWithJson)
    else if v == 0x14 then Some(LongPollingWithMessagePack)
    else if v == 0x24 then Some(LongPollingWithJson)
    else None
  }

  /** The five values are pairwise distinct: transport and format determine the member. */
  lemma {:induction false} ProtocolDeterminedByParts(p: SignalRProtocol, q: SignalRProtocol)
    ensures Value(p) == Value(q) <==> p == q
    ensures Transport(p) == Transport(q) && Format(p) == Format(q) <==> p == q
  {
    if Value(p) == Value(q) {
      assert FromValue(Value(p)) == Some(p);
    }
  }

  datatype ClientBehavior = Listen | Echo | Broadcast | GroupBroadcast

  /** The members of ClientBehavior in declaration order. */
  const AllClientBehaviors: seq<ClientBehavior> := [Listen, Echo, Broadcast, GroupBroadcast]

  /** The position of a member in its declaration (the underlying enum integer). */
  function BehaviorOrdinal(b: ClientBehavior): (i: nat)
    ensures i < |AllClientBehaviors| && AllClientBehaviors[i] == b
  {
    match b
    case Listen => 0
    case Echo => 1
    case Broadcast => 2
    case GroupBroadcast => 3
  }

  /** Latency buckets, from fastest to slowest. */
  datatype LatencyClass =
    | LessThan50ms
    | LessThan100ms
    | LessThan200ms
    | LessThan500ms
    | LessThan1s
    | LessThan2s
    | LessThan5s
    | MoreThan5s

  const AllLatencyClasses: seq<LatencyClass> :=
    [LessThan50ms, LessThan100ms, LessThan200ms, LessThan500ms, LessThan1s, LessThan2s, LessThan5s, MoreThan5s]

  function LatencyOrdinal(c: LatencyClass): (i: nat)
    ensures i < |AllLatencyClasses| && AllLatencyClasses[i] == c
  {
    match c
    case LessThan50ms => 0
    case LessThan100ms => 1
    case LessThan200ms => 2
    case LessThan500ms => 3
    case LessThan1s => 4
    case LessThan2s => 5
    case LessThan5s => 6
    case MoreThan5s => 7
  }

  /** Exactly eight buckets, each listed once, in declaration order. */
  lemma LatencyClassesAreEight()
    ensures |AllLatencyClasses| == 8
    ensures forall i, j :: 0 <= i < j < 8 ==> AllLatencyClasses[i] != AllLatencyClasses[j]
    ensures forall i :: 0 <= i < 8 ==> LatencyOrdinal(AllLatencyClasses[i]) == i
    ensures AllLatencyClasses[0] == LessThan50ms && AllLatencyClasses[7] == MoreThan5s
  {
  }

  /** Exactly four behaviours, each listed once. */
  lemma ClientBehaviorsAreFour()
    ensures |AllClientBehaviors| == 4
    ensures forall i, j :: 0 <= i < j < 4 ==> AllClientBehaviors[i] != AllClientBehaviors[j]
    ensures forall i :: 0 <= i < 4 ==> BehaviorOrdinal(AllClientBehaviors[i]) == i
  {
  }
}

=== FILE: messages.dfy ===
/**
 * The messages exchanged between the coordinator and its workers, as far as
 * the coordinator reads them: the sender's address, the role a worker
 * declares when it is ready, the range a client is given, and the status
 * snapshot a client reports (ReportClientStatusParameters).
 */
module Messages {
  import opened Wrappers
  import opened Enums

  /** A bus address. */
  type Sender = string

  datatype Role = Coordinator | Clients | AppServers

  /** A ReportReady command; `role` is None when the message has no parameters. */
  datatype ReadyReport = ReadyReport(sender: Sender, role: Option<Role>)

  /** The slice [startId, startId + count) of connection ids given to one client worker (SetClientRange). */
  datatype ClientRange = ClientRange(startId: int, count: int) {
    function End(): int { startId + count }
    predicate Contains(id: int) { startId <= id < startId + count }
  }

  /** One client's counters and latency histogram. */
  datatype Snapshot = Snapshot(
    totalReconnectCount: int,
    connectedCount: int,
    reconnectingCount: int,
    messageSent: int,
    messageReceived: int,
    latency: map<LatencyClass, int>)

  /** All counters 0 and no latency bucket: where a round's merge starts. */
  const EmptySnapshot: Snapshot := Snapshot(0, 0, 0, 0, 0, map[])

  /** A ReportClientStatus command. */
  datatype StatusReport = StatusReport(sender: Sender, snapshot: Snapshot)
}

=== FILE: numerals.dfy ===
/**
 * Decimal text of integers, as .NET's int.ToString prints it and as its
 * integer parsers read it back.
 */
module Numerals {
  import opened Wrappers

  predicate IsDigit(c: char) {
    '0' <= c <= '9'
  }

  /** A string of decimal digits only. */
  predicate AllDigits(s: string) {
    forall i :: 0 <= i < |s| ==> IsDigit(s[i])
  }

  function Digit(d: nat): char
    requires d < 10
  {
    "0123456789"[d]
  }

  function DigitValue(c: char): nat
    requires IsDigit(c)
  {
    c as int - '0' as int
  }

  /** The decimal text of a natural number (int.ToString): digits only, no leading zero. */
  function NatToString(n: nat): (s: string)
    ensures |s| >= 1 && AllDigits(s)
    ensures |s| > 1 ==> s[0] != '0'
    decreases n
  {
    if n < 10 then [Digit(n)] else NatToString(n / 10) + [Digit(n % 10)]
  }

  /** Each digit character stands for its own value. */
  lemma DigitRoundTrip(d: nat)
    requires d < 10
    ensures IsDigit(Digit(d)) && DigitValue(Digit(d)) == d
  {
  }

  /** The value of a string of decimal digits, most significant first. */
  function DigitsValue(s: string): (v: nat)
    requires AllDigits(s)
    decreases |s|
  {
    if s == [] then 0 else DigitsValue(s[..|s| - 1]) * 10 + DigitValue(s[|s| - 1])
  }

  /** Reading back the text of a natural number gives the number. */
  lemma {:induction false} NatToStringRoundTrip(n: nat)
    ensures DigitsValue(NatToString(n)) == n
    decreases n
  {
    var s := NatToString(n);
    if n < 10 {
      DigitRoundTrip(n);
      assert s == [Digit(n)] && s[..0] == [];
    } else {
      var front := NatToString(n / 10);
      assert s == front + [Digit(n % 10)];
      assert s[..|s| - 1] == front && s[|s| - 1] == Digit(n % 10);
      DigitRoundTrip(n % 10);
      NatToStringRoundTrip(n / 10);
    }
  }

  /** Distinct numbers have distinct texts. */
  lemma NatToStringInjective(m: nat, n: nat)
    requires NatToString(m) == NatToString(n)
    ensures m == n
  {
    NatToStringRoundTrip(m);
    NatToStringRoundTrip(n);
  }

  /** The decimal text of an integer: a '-' before the digits of a negative one. */
  function IntToString(n: int): string {
    if n < 0 then "-" + NatToString(-n) else NatToString(n)
  }

  predicate InInt32(v: int) {
    -0x8000_0000 <= v < 0x8000_0000
  }

  /** The digits after an optional leading sign. */
  function Unsigned(s: string): string {
    if |s| > 0 && (s[0] == '-' || s[0] == '+') then s[1..] else s
  }

  /**
   * Int32 parsing with a leading sign allowed and no surrounding white
   * space: a sign, then one or more decimal digits, whose value must fit
   * in 32 bits.
   */
  function ParseInt32(s: string): (r: Option<int>)
    ensures r.Some? ==> InInt32(r.value) && |Unsigned(s)| > 0
    ensures r.Some? && r.value < 0 ==> s[0] == '-'
  {
    var digits := Unsigned(s);
    if digits == [] || !AllDigits(digits) then None
    else
      var v: int := if s[0] == '-' then 0 - DigitsValue(digits) as int else DigitsValue(digits);
      if InInt32(v) then Some(v) else None
  }

  /** Parsing the text of any 32-bit integer gives that integer back. */
  lemma IntToStringRoundTrip(n: int)
    requires InInt32(n)
    ensures ParseInt32(IntToString(n)) == Some(n)
  {
    if n < 0 {
      NegativeRoundTrip(n);
    } else {
      NonNegativeRoundTrip(n);
    }
  }

  lemma NegativeRoundTrip(n: int)
    requires InInt32(n) && n < 0
    ensures ParseInt32(IntToString(n)) == Some(n)
  {
    var m: nat := -n;
    var d := NatToString(m);
    assert IntToString(n) == "-" + d;
    NatToStringRoundTrip(m);
    SignedDigits(d, m);
  }

  /** A '-' before the digits of m reads back as -m. */
  lemma SignedDigits(d: string, m: nat)
    requires |d| >= 1 && AllDigits(d) && DigitsValue(d) == m && m <= 0x8000_0000
    ensures ParseInt32("-" + d) == Some(-(m as int))
  {
    var s := "-" + d;
    assert s[0] == '-' && s[1..] == d;
    assert Unsigned(s) == d;
  }

  lemma NonNegativeRoundTrip(n: int)
    requires InInt32(n) && n >= 0
    ensures ParseInt32(IntToString(n)) == Some(n)
  {
    var s := IntToString(n);
    var d := NatToString(n);
    assert s == d;
    assert IsDigit(d[0]);
    assert Unsigned(s) == d;
    NatToStringRoundTrip(n);
    assert DigitsValue(d) == n;
  }

  /** A digit string has value 0 exactly when every digit is '0'. */
  lemma {:induction false} DigitsValueZero(s: string)
    requires AllDigits(s)
    ensures DigitsValue(s) == 0 <==> forall i :: 0 <= i < |s| ==> s[i] == '0'
    decreases |s|
  {
    if s != [] {
      var init := s[..|s| - 1];
      DigitsValueZero(init);
      assert forall i :: 0 <= i < |init| ==> init[i] == s[i];
    }
  }
}

=== FILE: readiness.dfy ===
/**
 * The readiness barrier of the coordinator (GetReportReady in
 * src/Pods/Coordinator/TestRunner.cs): workers announce themselves in
 * arrival order, each client worker is handed a contiguous slice of the
 * connection ids [0, total), and each role's barrier completes at an exact
 * count. This module holds the arithmetic and the specification of the
 * handler as a fold over the stream of reports; the class in module
 * Coordinator runs the handler on its own fields.
 */
module Readiness {
  import opened Wrappers
  import opened Messages

  const MaxClientCountInPod: int := 5000

  /**
   * The number of client pods: the total connection count divided by 5000,
   * rounded up (Math.Ceiling of a double quotient, which is exact here).
   */
  function ClientPodCount(total: int): (p: int)
    ensures (p - 1) * MaxClientCountInPod < total <= p * MaxClientCountInPod
    ensures total >= 1 ==> 1 <= p <= total
  {
    if total >= 0 then (total + 4999) / 5000 else -((-total) / 5000)
  }

  function Abs(x: int): nat { if x < 0 then -x else x }

  /** Integer division rounding toward zero, as C# divides `int`s. */
  function TruncDiv(a: int, b: int): (q: int)
    requires b != 0
    ensures Abs(q) == Abs(a) / Abs(b)
    ensures q != 0 ==> (q > 0 <==> (a > 0 <==> b > 0))
    ensures a >= 0 && b > 0 ==> q == a / b
  {
    var m := Abs(a) / Abs(b);
    assert m >= 0 by { DivNonnegative(Abs(a), Abs(b)); }
    if (a >= 0) == (b > 0) then m else -m
  }

  lemma DivNonnegative(x: int, y: int)
    requires x >= 0 && y > 0
    ensures x / y >= 0
  {
  }

  /** What the handler captured when it was created: the counts it works with. */
  datatype Barrier = Barrier(total: int, podCount: int, serverPodCount: int, countPerPod: int)

  /** The barrier GetReportReady builds; it divides by `podCount`, which fails when it is 0. */
  function MakeBarrier(total: int, podCount: int, serverPodCount: int): (b: Result<Barrier, ()>)
    ensures b.Success? <==> podCount != 0
    ensures b.Success? ==>
      && b.value.total == total && b.value.podCount == podCount
      && b.value.serverPodCount == serverPodCount
      && b.value.countPerPod == TruncDiv(total, podCount)
  {
    if podCount == 0 then Failure(()) else Success(Barrier(total, podCount, serverPodCount, TruncDiv(total, podCount)))
  }

  /**
   * The range given to the n-th client report (1-based, in arrival order):
   * an equal share before the last expected pod, the remainder at the last
   * one, and an empty range for every report after it.
   */
  function RangeFor(b: Barrier, n: int): (r: ClientRange)
    ensures n < b.podCount ==> r.count == b.countPerPod
    ensures n == b.podCount ==> r.End() == b.total
    ensures n > b.podCount ==> r.count == 0
  {
    if n < b.podCount then ClientRange((n - 1) * b.countPerPod, b.countPerPod)
    else if n == b.podCount then ClientRange((n - 1) * b.countPerPod, b.total - (n - 1) * b.countPerPod)
    else ClientRange(0, 0)
  }

  /** The state the handler updates: its two counters, the runner's client map and server list, and the two barriers. */
  datatype ReadyState = ReadyState(
    clientReadyCount: int,
    serverReadyCount: int,
    clients: map<Sender, ClientRange>,
    serverPods: seq<Sender>,
    clientPodsReady: bool,
    serverPodsReady: bool)

  const Initial: ReadyState := ReadyState(0, 0, map[], [], false, false)

  /** Both barriers have completed: the runner may go on past CreatePodsAsync's wait. */
  predicate BothReady(st: ReadyState) {
    st.clientPodsReady && st.serverPodsReady
  }

  /** One report handled. */
  function Step(b: Barrier, st: ReadyState, m: ReadyReport): (r: ReadyState)
    ensures m.role == Some(Clients) ==>
      && r.clientReadyCount == st.clientReadyCount + 1
      && r.clients == st.clients[m.sender := RangeFor(b, r.clientReadyCount)]
      && (r.clientPodsReady <==> st.clientPodsReady || r.clientReadyCount == b.podCount)
      && (r.serverReadyCount, r.serverPods, r.serverPodsReady) == (st.serverReadyCount, st.serverPods, st.serverPodsReady)
    ensures m.role == Some(AppServers) ==>
      && r.serverReadyCount == st.serverReadyCount + 1
      && r.serverPods == st.serverPods + [m.sender]
      && (r.serverPodsReady <==> st.serverPodsReady || r.serverReadyCount == b.serverPodCount)
      && (r.clientReadyCount, r.clients, r.clientPodsReady) == (st.clientReadyCount, st.clients, st.clientPodsReady)
    ensures m.role != Some(Clients) && m.role != Some(AppServers) ==> r == st
  {
    match m.role
    case Some(Clients) =>
      var n := st.clientReadyCount + 1;
      st.(clientReadyCount := n,
          clients := st.clients[m.sender := RangeFor(b, n)],
          clientPodsReady := st.clientPodsReady || n == b.podCount)
    case Some(AppServers) =>
      var n := st.serverReadyCount + 1;
      st.(serverReadyCount := n,
          serverPods := st.serverPods + [m.sender],
          serverPodsReady := st.serverPodsReady || n == b.serverPodCount)
    case _ => st
  }

  /** A stream of reports handled in arrival order. */
  function Fold(b: Barrier, st: ReadyState, ms: seq<ReadyReport>): (r: ReadyState)
    ensures r.clientReadyCount >= st.clientReadyCount && r.serverReadyCount >= st.serverReadyCount
    ensures st.clients.Keys <= r.clients.Keys && st.serverPods <= r.serverPods
    ensures st.clientPodsReady ==> r.clientPodsReady
    ensures st.serverPodsReady ==> r.serverPodsReady
    decreases |ms|
  {
    if ms == [] then st else Step(b, Fold(b, st, ms[..|ms| - 1]), ms[|ms| - 1])
  }

  /** The senders of the client reports in a stream, in arrival order. */
  function ClientSenders(ms: seq<ReadyReport>): seq<Sender>
    decreases |ms|
  {
    if ms == [] then []
    else ClientSenders(ms[..|ms| - 1]) + (if ms[|ms| - 1].role == Some(Clients) then [ms[|ms| - 1].sender] else [])
  }

  /** The senders of the server reports in a stream, in arrival order. */
  function ServerSenders(ms: seq<ReadyReport>): seq<Sender>
    decreases |ms|
  {
    if ms == [] then []
    else ServerSenders(ms[..|ms| - 1]) + (if ms[|ms| - 1].role == Some(AppServers) then [ms[|ms| - 1].sender] else [])
  }

  /** A report without parameters or with another role changes nothing. */
  lemma IgnoredReport(b: Barrier, st: ReadyState, m: ReadyReport)
    requires m.role !in {Some(Clients), Some(AppServers)}
    ensures Step(b, st, m) == st
  {
  }

  /**
   * Counters and barriers after a stream: each counter is the number of
   * reports of its role, every server is listed in arrival order, and a
   * barrier has completed exactly when its expected count (at least 1) has
   * been reached; a barrier expecting 0 or fewer reports never completes.
   */
  lemma {:induction false} FoldCounters(b: Barrier, ms: seq<ReadyReport>)
    ensures Fold(b, Initial, ms).clientReadyCount == |ClientSenders(ms)|
    ensures Fold(b, Initial, ms).serverReadyCount == |ServerSenders(ms)|
    ensures Fold(b, Initial, ms).serverPods == ServerSenders(ms)
    ensures Fold(b, Initial, ms).clientPodsReady <==> 1 <= b.podCount <= |ClientSenders(ms)|
    ensures Fold(b, Initial, ms).serverPodsReady <==> 1 <= b.serverPodCount <= |ServerSenders(ms)|
    decreases |ms|
  {
    if ms != [] {
      FoldCounters(b, ms[..|ms| - 1]);
    }
  }

  /**
   * `clients` maps exactly the senders of `cs`, and a sender's entry is the
   * range of its LAST position in `cs`.
   */
  predicate AssignedByArrival(b: Barrier, clients: map<Sender, ClientRange>, cs: seq<Sender>) {
    && clients.Keys == (set s | s in cs)
    && forall i :: 0 <= i < |cs| && LastOccurrence(cs, i) ==> cs[i] in clients && clients[cs[i]] == RangeFor(b, i + 1)
  }

  /** No later element of `cs` repeats `cs[i]`. */
  predicate LastOccurrence(cs: seq<Sender>, i: int)
    requires 0 <= i < |cs|
  {
    forall j :: i < j < |cs| ==> cs[j] != cs[i]
  }

  /**
   * The client map after a stream: its keys are the client senders, and a
   * sender's entry is the range of its last report, so a repeated sender
   * overwrites its own earlier entry.
   */
  lemma {:induction false} FoldClients(b: Barrier, ms: seq<ReadyReport>)
    ensures AssignedByArrival(b, Fold(b, Initial, ms).clients, ClientSenders(ms))
    decreases |ms|
  {
    if ms != [] {
      var init, m := ms[..|ms| - 1], ms[|ms| - 1];
      FoldClients(b, init);
      FoldCounters(b, init);
      var st0 := Fold(b, Initial, init);
      var cs, cs0 := ClientSenders(ms), ClientSenders(init);
      assert Fold(b, Initial, ms) == Step(b, st0, m);
      if m.role == Some(Clients) {
        ClientStep(b, st0.clients, cs0, m.sender);
      } else {
        assert cs == cs0;
      }
    }
  }

  /** One more client report keeps the client map assigned by arrival. */
  lemma ClientStep(b: Barrier, clients0: map<Sender, ClientRange>, cs0: seq<Sender>, x: Sender)
    requires AssignedByArrival(b, clients0, cs0)
    ensures AssignedByArrival(b, clients0[x := RangeFor(b, |cs0| + 1)], cs0 + [x])
  {
    var clients, cs := clients0[x := RangeFor(b, |cs0| + 1)], cs0 + [x];
    assert clients.Keys == (set s | s in cs) by {
      assert (set s | s in cs) == (set s | s in cs0) + {x};
    }
    forall i | 0 <= i < |cs| && LastOccurrence(cs, i)
      ensures cs[i] in clients && clients[cs[i]] == RangeFor(b, i + 1)
    {
      if i < |cs0| {
        EarlierStep(b, clients0, cs0, x, i);
      }
    }
  }

  /** A sender whose last report came before `x`'s keeps its range when `x` reports. */
  lemma EarlierStep(b: Barrier, clients0: map<Sender, ClientRange>, cs0: seq<Sender>, x: Sender, i: int)
    requires AssignedByArrival(b, clients0, cs0)
    requires 0 <= i < |cs0| && LastOccurrence(cs0 + [x], i)
    ensures cs0[i] != x && cs0[i] in clients0 && clients0[x := RangeFor(b, |cs0| + 1)][cs0[i]] == RangeFor(b, i + 1)
  {
    var cs, s := cs0 + [x], cs0[i];
    assert cs[i] == s && cs[|cs0|] == x;
    assert LastOccurrence(cs0, i) by {
      forall j | i < j < |cs0| ensures cs0[j] != s { assert cs[j] == cs0[j]; }
    }
  }

  /** A completed client barrier means at least one client has a range. */
  lemma ReadyClientsNonEmpty(b: Barrier, ms: seq<ReadyReport>)
    requires Fold(b, Initial, ms).clientPodsReady
    ensures Fold(b, Initial, ms).clients != map[]
  {
    FoldCounters(b, ms);
    FoldClients(b, ms);
    var cs := ClientSenders(ms);
    assert cs[0] in Fold(b, Initial, ms).clients;
  }

  /** Reports beyond the expected pods receive the empty range. */
  lemma ExtraReportGetsEmptyRange(b: Barrier, n: int)
    requires n > b.podCount
    ensures RangeFor(b, n) == ClientRange(0, 0)
  {
  }

  /** n * c is monotone in n for c >= 0. */
  lemma MulMonotone(m: int, n: int, c: int)
    requires m <= n && c >= 0
    ensures m * c <= n * c
  {
    assert n * c - m * c == (n - m) * c;
  }

  /** Quotient and remainder of a nonnegative number by a positive one. */
  lemma DivBounds(x: int, c: int)
    requires x >= 0 && c > 0
    ensures (x / c) * c <= x < (x / c) * c + c
  {
  }

  /** The counts that hold whenever the handler was built for a nonnegative total on at least one pod. */
  predicate WellFormed(b: Barrier) {
    b.total >= 0 && b.podCount >= 1 && b.countPerPod == b.total / b.podCount
  }

  /**
   * The ranges handed to reports 1..podCount are back to back: the first
   * starts at 0, each ends where the next starts, the last ends at `total`,
   * and no count is negative.
   */
  lemma RangesContiguous(b: Barrier)
    requires WellFormed(b)
    ensures RangeFor(b, 1).startId == 0
    ensures forall n :: 1 <= n < b.podCount ==> RangeFor(b, n).End() == RangeFor(b, n + 1).startId
    ensures RangeFor(b, b.podCount).End() == b.total
    ensures forall n :: 1 <= n <= b.podCount ==> RangeFor(b, n).count >= 0
  {
    var p, c := b.podCount, b.countPerPod;
    DivBounds(b.total, p);
    assert c * p <= b.total;
    MulMonotone(p - 1, p, c);
    assert (p - 1) * c + c == p * c;
    forall n | 1 <= n < p ensures RangeFor(b, n).End() == RangeFor(b, n + 1).startId {
      assert (n - 1) * c + c == n * c;
    }
  }

  /** Sum of the counts handed to reports 1..n. */
  function CountSum(b: Barrier, n: nat): int {
    if n == 0 then 0 else CountSum(b, n - 1) + RangeFor(b, n).count
  }

  /** The counts of the first n ranges add up to where the n-th range ends. */
  lemma {:induction false} CountSumIsEnd(b: Barrier, n: nat)
    requires WellFormed(b)
    requires 1 <= n <= b.podCount
    ensures CountSum(b, n) == RangeFor(b, n).End()
  {
    RangesContiguous(b);
    if n > 1 {
      CountSumIsEnd(b, n - 1);
    }
  }

  /** The counts of all expected pods add up to exactly `total`. */
  lemma CountsSumToTotal(b: Barrier)
    requires WellFormed(b)
    ensures CountSum(b, b.podCount) == b.total
  {
    CountSumIsEnd(b, b.podCount);
    RangesContiguous(b);
  }

  /** Every id in [0, total) lies in the range of one of reports 1..podCount. */
  lemma RangeOwner(b: Barrier, id: int) returns (n: int)
    requires WellFormed(b)
    requires 0 <= id < b.total
    ensures 1 <= n <= b.podCount && RangeFor(b, n).Contains(id)
  {
    var p, c := b.podCount, b.countPerPod;
    RangesContiguous(b);
    if c == 0 {
      n := p;
    } else {
      var k := id / c;
      DivBounds(id, c);
      if k + 1 < p {
        n := k + 1;
        assert RangeFor(b, n) == ClientRange(k * c, c);
      } else {
        MulMonotone(p - 1, k, c);
        n := p;
      }
    }
  }

  /** Of two of the ranges 1..podCount, the lower one ends before the higher one starts. */
  lemma RangesDisjoint(b: Barrier, n: int, k: int)
    requires WellFormed(b)
    requires 1 <= n < k <= b.podCount
    ensures RangeFor(b, n).End() <= RangeFor(b, k).startId
  {
    var c := b.countPerPod;
    RangesContiguous(b);
    MulMonotone(n, k - 1, c);
    if n < b.podCount {
      assert RangeFor(b, n).End() == (n - 1) * c + c == n * c;
    }
  }

  /** The worked example: 12001 connections need 3 pods, which get 4000, 4000 and 4001 ids. */
  lemma Example12001()
    ensures ClientPodCount(12001) == 3
    ensures var b := Barrier(12001, 3, 0, TruncDiv(12001, 3));
      RangeFor(b, 1) == ClientRange(0, 4000) && RangeFor(b, 2) == ClientRange(4000, 4000)
      && RangeFor(b, 3) == ClientRange(8000, 4001) && RangeFor(b, 4) == ClientRange(0, 0)
  {
  }

  /** All elements of `s` are different. */
  predicate Distinct(s: seq<Sender>) {
    forall i, j :: 0 <= i < j < |s| ==> s[i] != s[j]
  }

  /** Some client's range holds `id`. */
  ghost predicate Owned(clients: map<Sender, ClientRange>, id: int) {
    exists s :: s in clients && clients[s].Contains(id)
  }

  /** The ranges in `clients` partition [0, total): no negative count, and every id has exactly one owner. */
  ghost predicate PartitionsIds(clients: map<Sender, ClientRange>, total: int) {
    && (forall s :: s in clients ==> clients[s].count >= 0)
    && (forall id :: 0 <= id < total ==> Owned(clients, id))
    && (forall id, s, t :: s in clients && t in clients && clients[s].Contains(id) && clients[t].Contains(id) ==> s == t)
  }

  /**
   * The partition invariant over a stream: once at least `podCount` client
   * reports have come from distinct senders, the client barrier has
   * completed and the client ranges partition the connection ids [0, total).
   */
  lemma StreamPartition(b: Barrier, ms: seq<ReadyReport>)
    requires WellFormed(b)
    requires Distinct(ClientSenders(ms)) && |ClientSenders(ms)| >= b.podCount
    ensures Fold(b, Initial, ms).clientPodsReady
    ensures |Fold(b, Initial, ms).clients| == |ClientSenders(ms)|
    ensures PartitionsIds(Fold(b, Initial, ms).clients, b.total)
  {
    var cs := ClientSenders(ms);
    var clients := Fold(b, Initial, ms).clients;
    FoldCounters(b, ms);
    FoldClients(b, ms);
    forall i | 0 <= i < |cs| ensures cs[i] in clients && clients[cs[i]] == RangeFor(b, i + 1) {
      assert LastOccurrence(cs, i);
    }
    DistinctCardinality(cs);
    assert |clients| == |clients.Keys|;
    PartitionByArrival(b, clients, cs);
  }

  /** Ranges given to distinct senders by arrival position, with every expected pod reported, partition the ids. */
  lemma PartitionByArrival(b: Barrier, clients: map<Sender, ClientRange>, cs: seq<Sender>)
    requires WellFormed(b)
    requires Distinct(cs) && |cs| >= b.podCount
    requires clients.Keys == (set s | s in cs)
    requires forall i :: 0 <= i < |cs| ==> cs[i] in clients && clients[cs[i]] == RangeFor(b, i + 1)
    ensures PartitionsIds(clients, b.total)
  {
    RangesContiguous(b);
    forall s | s in clients ensures clients[s].count >= 0 {
      var i :| 0 <= i < |cs| && cs[i] == s;
    }
    forall id | 0 <= id < b.total ensures Owned(clients, id) {
      var n := RangeOwner(b, id);
      assert clients[cs[n - 1]].Contains(id);
    }
    ArrivalOwnersUnique(b, clients, cs);
  }

  /** Distinct senders with arrival-order ranges never share an id. */
  lemma ArrivalOwnersUnique(b: Barrier, clients: map<Sender, ClientRange>, cs: seq<Sender>)
    requires WellFormed(b)
    requires Distinct(cs) && |cs| >= b.podCount
    requires clients.Keys == (set s | s in cs)
    requires forall i :: 0 <= i < |cs| ==> cs[i] in clients && clients[cs[i]] == RangeFor(b, i + 1)
    ensures forall id, s, t :: s in clients && t in clients && clients[s].Contains(id) && clients[t].Contains(id) ==> s == t
  {
    forall id, s, t | s in clients && t in clients && clients[s].Contains(id) && clients[t].Contains(id)
      ensures s == t
    {
      var i :| 0 <= i < |cs| && cs[i] == s;
      var j :| 0 <= j < |cs| && cs[j] == t;
      if i < j && j < b.podCount {
        RangesDisjoint(b, i + 1, j + 1);
      } else if j < i && i < b.podCount {
        RangesDisjoint(b, j + 1, i + 1);
      }
    }
  }

  /** A sequence of distinct elements has as many elements as its set. */
  lemma {:induction false} DistinctCardinality(s: seq<Sender>)
    requires Distinct(s)
    ensures |set x | x in s| == |s|
  {
    if s != [] {
      var init := s[..|s| - 1];
      DistinctCardinality(init);
      assert (set x | x in s) == (set x | x in init) + {s[|s| - 1]};
      assert s[|s| - 1] !in init;
    }
  }

  /** The position of the last occurrence of `x` in `cs`. */
  lemma LastPosition(cs: seq<Sender>, x: Sender) returns (k: int)
    requires x in cs
    ensures 0 <= k < |cs| && cs[k] == x && LastOccurrence(cs, k)
  {
    k := |cs| - 1;
    while cs[k] != x
      invariant 0 <= k < |cs| && x in cs[..k + 1]
      invariant forall j :: k < j < |cs| ==> cs[j] != x
      decreases k
    {
      assert cs[..k + 1] == cs[..k] + [cs[k]];
      k := k - 1;
    }
  }

  /**
   * A client that reports again loses the range of its earlier report: when
   * the i-th client report (0-based) is not its sender's last, no client
   * holds any id of the range that report was given.
   */
  lemma RepeatedSenderLosesRange(b: Barrier, ms: seq<ReadyReport>, i: int, id: int)
    requires WellFormed(b)
    requires 0 <= i < |ClientSenders(ms)| && !LastOccurrence(ClientSenders(ms), i)
    requires RangeFor(b, i + 1).Contains(id)
    ensures !Owned(Fold(b, Initial, ms).clients, id)
  {
    FoldClients(b, ms);
    LostRange(b, Fold(b, Initial, ms).clients, ClientSenders(ms), i, id);
  }

  /** The ranges given to two different arrivals share no id. */
  lemma ArrivalRangesDisjoint(b: Barrier, n: int, k: int, id: int)
    requires WellFormed(b) && 1 <= n && 1 <= k && n != k
    ensures !(RangeFor(b, n).Contains(id) && RangeFor(b, k).Contains(id))
  {
    if n > b.podCount || k > b.podCount {
    } else if n < k {
      RangesDisjoint(b, n, k);
    } else {
      RangesDisjoint(b, k, n);
    }
  }

  /** In a map assigned by arrival, the range of a position that is not its sender's last holds no id of any client. */
  lemma LostRange(b: Barrier, clients: map<Sender, ClientRange>, cs: seq<Sender>, i: int, id: int)
    requires WellFormed(b) && AssignedByArrival(b, clients, cs)
    requires 0 <= i < |cs| && !LastOccurrence(cs, i)
    requires RangeFor(b, i + 1).Contains(id)
    ensures !Owned(clients, id)
  {
    if Owned(clients, id) {
      var s :| s in clients && clients[s].Contains(id);
      assert s in clients.Keys;
      var k := LastPosition(cs, s);
      assert clients[s] == RangeFor(b, k + 1) && k != i;
      ArrivalRangesDisjoint(b, k + 1, i + 1, id);
    }
  }

  /**
   * A client that reports twice loses its first range: with 10000
   * connections on 2 pods, a second report from the first client, after the
   * barrier, leaves ids 0..4999 with no owner.
   */
  lemma RepeatedSenderOverwritesOwnRange()
    ensures var b := Barrier(10000, 2, 0, 5000);
      var ms := [ReadyReport("a", Some(Clients)), ReadyReport("b", Some(Clients)), ReadyReport("a", Some(Clients))];
      Fold(b, Initial, ms).clients == map["a" := ClientRange(0, 0), "b" := ClientRange(5000, 5000)]
      && Fold(b, Initial, ms).clientPodsReady
  {
    var b := Barrier(10000, 2, 0, 5000);
    var ms := [ReadyReport("a", Some(Clients)), ReadyReport("b", Some(Clients)), ReadyReport("a", Some(Clients))];
    assert ms[..2][..1] == ms[..1] && ms[..1][..0] == [] && ms[..1][0] == ms[0];
    var s1 := Fold(b, Initial, ms[..1]);
    assert s1 == Step(b, Fold(b, Initial, []), ms[0]);
    var s2 := Fold(b, Initial, ms[..2]);
    assert s2 == Step(b, s1, ms[1]);
    assert Fold(b, Initial, ms) == Step(b, s2, ms[2]);
  }
}

=== FILE: send_to_client.dfy ===
/**
 * The generator of the send-to-client benchmark configuration
 * (SendToClient.generate_config): a pipeline of steps that first prepares
 * the connections, then sends for a number of epochs, each epoch to a
 * larger window of connections [0, remainder_end), and finally cleans up.
 *
 * The common steps (before sending, after sending, and the conditional
 * stop and reconnect steps between epochs) come from helpers that are not
 * part of this model; they are given here as labelled `Helper` steps, the
 * conditional ones as a function of the sending steps so far, as the
 * helper receives them.
 */
module ConfigGenerator {

  /** A step of the generated pipeline. */
  datatype Step =
    | Helper(name: string)
    | RegisterCallbackRecordLatency(typeName: string)
    | CollectConnectionId(typeName: string)
    | SendToClient(
        typeName: string, connectionTotal: int, duration: int, interval: int,
        remainderBegin: int, remainderEnd: int, modulo: int, messageSize: int)
    | Wait(typeName: string, duration: int)

  /** The parts of the sending, scenario and constant configurations the generator reads. */
  datatype Settings = Settings(
    typeName: string,
    connections: int,
    step: int,
    stepLength: int,
    baseStep: int,
    duration: int,
    interval: int,
    messageSize: int,
    waitTime: int)

  /** The steps a helper returned, in order. */
  function Helpers(labels: seq<string>): (r: seq<Step>)
    ensures |r| == |labels| && forall i :: 0 <= i < |r| ==> r[i] == Helper(labels[i])
  {
    seq(|labels|, i requires 0 <= i < |labels| => Helper(labels[i]))
  }

  /** The end of the window sent to at `epoch`: base_step + epoch * step. */
  function WindowEnd(cfg: Settings, epoch: int): int {
    cfg.baseStep + epoch * cfg.step
  }

  /** The send step of `epoch`: every connection's window starts at 0 and is taken modulo the connection count. */
  function SendAt(cfg: Settings, epoch: int): Step {
    SendToClient(cfg.typeName, cfg.connections, cfg.duration, cfg.interval,
                 0, WindowEnd(cfg, epoch), cfg.connections, cfg.messageSize)
  }

  /**
   * The epoch at which the loop, reaching `e`, stops: the first one from
   * `e` on that is past the range or whose window exceeds the connections.
   */
  function EpochsFrom(cfg: Settings, e: int): (r: int)
    ensures r >= e && (r == e || r <= cfg.stepLength)
    ensures forall k :: e <= k < r ==> k < cfg.stepLength && WindowEnd(cfg, k) <= cfg.connections
    ensures r < cfg.stepLength ==> WindowEnd(cfg, r) > cfg.connections
    decreases cfg.stepLength - e
  {
    if e >= cfg.stepLength || WindowEnd(cfg, e) > cfg.connections then e else EpochsFrom(cfg, e + 1)
  }

  /**
   * The number of epochs that send: every one of them is within range and
   * its window fits the connections, and the loop broke early only at a
   * window that does not.
   */
  function Epochs(cfg: Settings): (n: nat)
    ensures n == 0 || n <= cfg.stepLength
    ensures forall e :: 0 <= e < n ==> WindowEnd(cfg, e) <= cfg.connections
    ensures n < cfg.stepLength ==> WindowEnd(cfg, n) > cfg.connections
  {
    EpochsFrom(cfg, 0)
  }

  /**
   * The sending steps of the first `n` epochs: for each, the conditional
   * stop and reconnect steps (not before the first), its send step, and a
   * wait.
   */
  function Sending(cfg: Settings, guard: seq<Step> -> seq<string>, n: nat): (r: seq<Step>)
    ensures |r| >= 2 * n
    decreases n
  {
    if n == 0 then []
    else
      var before := Sending(cfg, guard, n - 1);
      before + Epoch(cfg, guard, before, n - 1)
  }

  /** The steps epoch `e` adds after the steps `before` of the earlier epochs. */
  function Epoch(cfg: Settings, guard: seq<Step> -> seq<string>, before: seq<Step>, e: nat): (r: seq<Step>)
    ensures |r| == (if e > 0 then |guard(before)| else 0) + 2
  {
    (if e > 0 then Helpers(guard(before)) else []) + [SendAt(cfg, e), Wait(cfg.typeName, cfg.waitTime)]
  }

  /** The steps of the pipeline before sending. */
  function PreSending(cfg: Settings, common: seq<string>): seq<Step> {
    Helpers(common) + [RegisterCallbackRecordLatency(cfg.typeName), CollectConnectionId(cfg.typeName)]
  }

  /**
   * generate_config: the pipeline is the steps before sending, the sending
   * steps of every epoch up to the first whose window exceeds the
   * connections, and the steps after sending. Handing the pipeline to the
   * template and saving it as YAML are not part of this model.
   */
  method GenerateConfig(cfg: Settings, preCommon: seq<string>, postCommon: seq<string>, guard: seq<Step> -> seq<string>)
    returns (pipeline: seq<Step>)
    ensures pipeline == PreSending(cfg, preCommon) + Sending(cfg, guard, Epochs(cfg)) + Helpers(postCommon)
  {
    var preSending := Helpers(preCommon);
    preSending := preSending + [RegisterCallbackRecordLatency(cfg.typeName)];
    preSending := preSending + [CollectConnectionId(cfg.typeName)];
    var postSending := Helpers(postCommon);

    var remainderBegin := 0;
    var remainderEndDx := cfg.step;

    var sending: seq<Step> := [];
    var epoch := 0;
    while epoch < cfg.stepLength
      invariant 0 <= epoch <= EpochsFrom(cfg, epoch) == Epochs(cfg)
      invariant sending == Sending(cfg, guard, epoch)
      decreases cfg.stepLength - epoch
    {
      var remainderEnd := cfg.baseStep + epoch * remainderEndDx;
      if remainderEnd - remainderBegin > cfg.connections {
        break;
      }
      if epoch > 0 {
        sending := sending + Helpers(guard(sending));
      }
      var send := SendToClient(cfg.typeName, cfg.connections, cfg.duration, cfg.interval,
                               remainderBegin, remainderEnd, cfg.connections, cfg.messageSize);
      assert send == SendAt(cfg, epoch);
      sending := sending + [send, Wait(cfg.typeName, cfg.waitTime)];
      epoch := epoch + 1;
    }
    pipeline := preSending + sending + postSending;
  }

  // ------------------------------------------------------------ properties

  /** The send steps among `steps`, in order. */
  function Sends(steps: seq<Step>): seq<Step>
    decreases |steps|
  {
    if steps == [] then []
    else (if steps[0].SendToClient? then [steps[0]] else []) + Sends(steps[1..])
  }

  lemma {:induction false} SendsAppend(a: seq<Step>, b: seq<Step>)
    ensures Sends(a + b) == Sends(a) + Sends(b)
    decreases |a|
  {
    if a == [] {
      assert a + b == b;
    } else {
      assert (a + b)[0] == a[0];
      assert (a + b)[1..] == a[1..] + b;
      SendsAppend(a[1..], b);
    }
  }

  lemma {:induction false} HelpersSendNothing(labels: seq<string>)
    ensures Sends(Helpers(labels)) == []
    decreases |labels|
  {
    if labels != [] {
      assert Helpers(labels)[1..] == Helpers(labels[1..]);
      HelpersSendNothing(labels[1..]);
    }
  }

  /** Sends of a sequence of two steps. */
  lemma SendsOfTwo(x: Step, y: Step)
    ensures Sends([x, y]) == (if x.SendToClient? then [x] else []) + (if y.SendToClient? then [y] else [])
  {
    assert [x, y][1..] == [y];
    assert [y][1..] == [];
    assert Sends([y]) == (if y.SendToClient? then [y] else []) + Sends([]);
  }

  /**
   * The first `n` epochs send exactly once each, in epoch order: the send
   * of epoch e covers the window [0, base_step + e * step).
   */
  lemma {:induction false} SendsByEpoch(cfg: Settings, guard: seq<Step> -> seq<string>, n: nat)
    ensures Sends(Sending(cfg, guard, n)) == seq(n, e => SendAt(cfg, e))
    decreases n
  {
    if n > 0 {
      var before := Sending(cfg, guard, n - 1);
      var g := if n - 1 > 0 then Helpers(guard(before)) else [];
      var tail := [SendAt(cfg, n - 1), Wait(cfg.typeName, cfg.waitTime)];
      assert Sending(cfg, guard, n) == before + (g + tail);
      SendsByEpoch(cfg, guard, n - 1);
      SendsAppend(before, g + tail);
      SendsAppend(g, tail);
      if n - 1 > 0 {
        HelpersSendNothing(guard(before));
      }
      SendsOfTwo(SendAt(cfg, n - 1), Wait(cfg.typeName, cfg.waitTime));
      assert seq(n, e => SendAt(cfg, e)) == seq(n - 1, e => SendAt(cfg, e)) + [SendAt(cfg, n - 1)];
    }
  }

  /**
   * The generated pipeline sends once per epoch that ran, at most
   * step_length times; every send starts its window at 0 and ends it at
   * base_step + epoch * step, which never exceeds the connection count.
   */
  lemma GeneratedSends(cfg: Settings, preCommon: seq<string>, postCommon: seq<string>, guard: seq<Step> -> seq<string>)
    ensures var sends := Sends(PreSending(cfg, preCommon) + Sending(cfg, guard, Epochs(cfg)) + Helpers(postCommon));
      && sends == seq(Epochs(cfg), e => SendAt(cfg, e))
      && (|sends| == 0 || |sends| <= cfg.stepLength)
      && forall i :: 0 <= i < |sends| ==>
           sends[i].remainderBegin == 0 && sends[i].remainderEnd <= cfg.connections
  {
    var pre := PreSending(cfg, preCommon);
    var sending := Sending(cfg, guard, Epochs(cfg));
    SendsAppend(pre + sending, Helpers(postCommon));
    SendsAppend(pre, sending);
    SendsAppend(Helpers(preCommon), [RegisterCallbackRecordLatency(cfg.typeName), CollectConnectionId(cfg.typeName)]);
    HelpersSendNothing(preCommon);
    HelpersSendNothing(postCommon);
    SendsOfTwo(RegisterCallbackRecordLatency(cfg.typeName), CollectConnectionId(cfg.typeName));
    SendsByEpoch(cfg, guard, Epochs(cfg));
  }

  /** The sending steps of fewer epochs are a prefix of those of more. */
  lemma {:induction false} SendingGrows(cfg: Settings, guard: seq<Step> -> seq<string>, m: nat, n: nat)
    requires m <= n
    ensures Sending(cfg, guard, m) <= Sending(cfg, guard, n)
    decreases n - m
  {
    if m < n {
      SendingGrows(cfg, guard, m, n - 1);
    }
  }

  /**
   * Where epoch `e` sits among the sending steps of `n` epochs: right
   * after the steps of the earlier epochs, its conditional stop and
   * reconnect steps (none before epoch 0), its send, and a wait.
   */
  lemma EpochLayout(cfg: Settings, guard: seq<Step> -> seq<string>, e: nat, n: nat)
    requires e < n
    ensures var before := Sending(cfg, guard, e);
      var ep := Epoch(cfg, guard, before, e);
      var all := Sending(cfg, guard, n);
      && |before| + |ep| <= |all|
      && all[|before|..|before| + |ep|] == ep
  {
    var before := Sending(cfg, guard, e);
    var ep := Epoch(cfg, guard, before, e);
    var next := Sending(cfg, guard, e + 1);
    var all := Sending(cfg, guard, n);
    assert next == before + ep;
    SendingGrows(cfg, guard, e + 1, n);
    assert all[..|next|] == next;
    assert all[|before|..|next|] == next[|before|..] == ep;
  }

  /** An epoch's steps are helper steps, then its one send, then a wait. */
  lemma EpochShape(cfg: Settings, guard: seq<Step> -> seq<string>, before: seq<Step>, e: nat)
    ensures var ep := Epoch(cfg, guard, before, e);
      && ep[|ep| - 2] == SendAt(cfg, e) && ep[|ep| - 1] == Wait(cfg.typeName, cfg.waitTime)
      && forall i :: 0 <= i < |ep| - 2 ==> ep[i].Helper?
  {
  }

  /** Every send step in `s` is immediately followed by the wait `w`. */
  predicate SendsThenWait(s: seq<Step>, w: Step) {
    forall i :: 0 <= i < |s| && s[i].SendToClient? ==> i + 1 < |s| && s[i + 1] == w
  }

  /** Every send step is immediately followed by a wait of wait_time. */
  lemma {:induction false} SendThenWait(cfg: Settings, guard: seq<Step> -> seq<string>, n: nat)
    ensures SendsThenWait(Sending(cfg, guard, n), Wait(cfg.typeName, cfg.waitTime))
    decreases n
  {
    if n > 0 {
      var w := Wait(cfg.typeName, cfg.waitTime);
      SendThenWait(cfg, guard, n - 1);
      var before := Sending(cfg, guard, n - 1);
      var g := if n - 1 > 0 then Helpers(guard(before)) else [];
      var s := Sending(cfg, guard, n);
      assert s == before + g + [SendAt(cfg, n - 1), w];
      forall i | 0 <= i < |s| && s[i].SendToClient?
        ensures i + 1 < |s| && s[i + 1] == w
      {
        if i < |before| {
          assert s[i] == before[i];
          assert s[i + 1] == before[i + 1];
        }
      }
    }
  }
}

=== FILE: simple_benchmark_configuration.dfy ===
/**
 * The benchmark plugin's simple configuration
 * (SimpleBenchmarkConfiguration.cs): recognising a "simple" configuration
 * document, and the builders of the master steps of a benchmark pipeline.
 *
 * Every builder creates a master step and writes entries into its
 * parameter dictionary one at a time; a later write to a key replaces the
 * earlier value. The dictionary keys are the plugin's named constants
 * (Constants.Type, Constants.Method and the SignalRConstants keys), taken
 * here to be distinct, so each is one `Key` tag. The step's method is the
 * name of the master method class the runner looks up.
 */
module BenchmarkConfiguration {
  import opened Wrappers
  import opened Numerals

  // ------------------------------------------------------- the "mode" key

  /** ConfigurationMode's underlying values. */
  const Simple := 0
  const Advance := 1

  const ModeKey := "mode"

  /** The white space .NET trims before parsing (the ASCII and Latin-1 spaces). */
  predicate IsWhiteSpace(c: char) {
    c == ' ' || c == '\t' || c == '\n' || c == '\U{000B}' || c == '\U{000C}' || c == '\r'
    || c == '\U{0085}' || c == '\U{00A0}'
  }

  predicate AllWhiteSpace(s: string) {
    forall i :: 0 <= i < |s| ==> IsWhiteSpace(s[i])
  }

  /** `s` without its leading white space. */
  function TrimStart(s: string): (r: string)
    ensures |r| <= |s| && r == s[|s| - |r|..]
    ensures AllWhiteSpace(s[..|s| - |r|])
    ensures r == [] || !IsWhiteSpace(r[0])
    decreases |s|
  {
    if s != [] && IsWhiteSpace(s[0]) then
      var r := TrimStart(s[1..]);
      assert s[..|s| - |r|] == [s[0]] + s[1..][..|s| - 1 - |r|];
      r
    else s
  }

  /** `s` without its trailing white space. */
  function TrimEnd(s: string): (r: string)
    ensures |r| <= |s| && r == s[..|r|]
    ensures AllWhiteSpace(s[|r|..])
    ensures r == [] || !IsWhiteSpace(r[|r| - 1])
    decreases |s|
  {
    if s != [] && IsWhiteSpace(s[|s| - 1]) then
      var r := TrimEnd(s[..|s| - 1]);
      assert s[|r|..] == s[..|s| - 1][|r|..] + [s[|s| - 1]];
      r
    else s
  }

  function Trim(s: string): string {
    TrimEnd(TrimStart(s))
  }

  /**
   * Enum.TryParse for ConfigurationMode: leading white space is skipped; a
   * text starting with a digit or a sign is read as a 32-bit integer
   * (trailing white space allowed), and any such value is accepted, named
   * or not; otherwise the trimmed text must be one of the names, case
   * sensitive.
   */
  function ParseMode(text: string): (r: Option<int>)
    ensures r.Some? ==> InInt32(r.value)
    ensures TrimStart(text) == [] ==> r.None?
  {
    var t := TrimStart(text);
    if t == [] then None
    else if IsDigit(t[0]) || t[0] == '-' || t[0] == '+' then ParseInt32(TrimEnd(t))
    else if TrimEnd(t) == "simple" then Some(Simple)
    else if TrimEnd(t) == "advance" then Some(Advance)
    else None
  }

  /**
   * isSimple: the document root, each of its keys mapped to the text of
   * its value node, is simple when it has a "mode" entry that parses to
   * ConfigurationMode.simple.
   */
  predicate IsSimple(root: map<string, string>): (simple: bool)
    ensures simple <==> ModeKey in root && (Trim(root[ModeKey]) == "simple" || IsZeroNumeral(Trim(root[ModeKey])))
  {
    ModeKey in root && (ModeIsSimple(root[ModeKey]); ParseMode(root[ModeKey]) == Some(Simple))
  }

  /** A numeral for zero: an optional sign, then one or more '0' digits. */
  predicate IsZeroNumeral(t: string) {
    var d := Unsigned(t);
    |d| > 0 && forall i :: 0 <= i < |d| ==> d[i] == '0'
  }

  /** An Int32 numeral parses to 0 exactly when it is a numeral for zero. */
  lemma ParsesToZero(e: string)
    ensures ParseInt32(e) == Some(0) <==> IsZeroNumeral(e)
  {
    var d := Unsigned(e);
    if AllDigits(d) {
      DigitsValueZero(d);
    } else {
      var i :| 0 <= i < |d| && !IsDigit(d[i]);
      assert d[i] != '0';
    }
  }

  /** A text whose trimmed form starts with a letter is simple exactly when it is the name "simple". */
  lemma NameIsSimple(text: string)
    requires var t := TrimStart(text); t != [] && !(IsDigit(t[0]) || t[0] == '-' || t[0] == '+')
    ensures ParseMode(text) == Some(Simple) <==> Trim(text) == "simple"
    ensures !IsZeroNumeral(Trim(text))
  {
    var t := TrimStart(text);
    var e := TrimEnd(t);
    assert Trim(text) == e;
    assert ParseMode(text) == (if e == "simple" then Some(Simple) else if e == "advance" then Some(Advance) else None);
    assert !IsWhiteSpace(t[0]);
    assert e != [] && e[0] == t[0];
    assert Unsigned(e) == e;
    assert e[0] != '0';
  }

  /** A text whose trimmed form starts with a digit or a sign is simple exactly when it is a numeral for zero. */
  lemma NumeralIsSimple(text: string)
    requires var t := TrimStart(text); t != [] && (IsDigit(t[0]) || t[0] == '-' || t[0] == '+')
    ensures ParseMode(text) == Some(Simple) <==> IsZeroNumeral(Trim(text))
    ensures Trim(text) != "simple"
  {
    var t := TrimStart(text);
    var e := TrimEnd(t);
    assert !IsWhiteSpace(t[0]);
    assert e != [] && e[0] == t[0];
    ParsesToZero(e);
  }

  /** The two names of ConfigurationMode, with any white space around them, parse to their values. */
  lemma ModeNames(text: string)
    ensures Trim(text) == "simple" ==> ParseMode(text) == Some(Simple)
    ensures Trim(text) == "advance" ==> ParseMode(text) == Some(Advance)
  {
    var t := TrimStart(text);
    var e := TrimEnd(t);
    assert Trim(text) == e;
    if e == "simple" || e == "advance" {
      assert t != [] && e[0] == t[0];
    }
  }

  /** A mode text parses to ConfigurationMode.simple exactly when, trimmed, it is the name "simple" or a numeral for zero. */
  lemma ModeIsSimple(text: string)
    ensures ParseMode(text) == Some(Simple) <==> Trim(text) == "simple" || IsZeroNumeral(Trim(text))
  {
    var t := TrimStart(text);
    if t == [] {
      assert Trim(text) == [];
    } else if IsDigit(t[0]) || t[0] == '-' || t[0] == '+' {
      NumeralIsSimple(text);
    } else {
      NameIsSimple(text);
    }
  }

  /** Leading white space before a text that starts with something else is exactly what TrimStart drops. */
  lemma {:induction false} TrimStartPadded(a: string, x: string)
    requires AllWhiteSpace(a) && |x| > 0 && !IsWhiteSpace(x[0])
    ensures TrimStart(a + x) == x
    decreases |a|
  {
    if a == [] {
      assert a + x == x;
    } else {
      var s := a + x;
      assert s[0] == a[0] && IsWhiteSpace(s[0]);
      assert s[1..] == a[1..] + x;
      var rest := a[1..];
      forall i | 0 <= i < |rest| ensures IsWhiteSpace(rest[i]) {
        assert rest[i] == a[i + 1];
      }
      TrimStartPadded(a[1..], x);
    }
  }

  /** Trailing white space after a text that ends with something else is exactly what TrimEnd drops. */
  lemma {:induction false} TrimEndPadded(x: string, b: string)
    requires AllWhiteSpace(b) && |x| > 0 && !IsWhiteSpace(x[|x| - 1])
    ensures TrimEnd(x + b) == x
    decreases |b|
  {
    if b == [] {
      assert x + b == x;
    } else {
      var s := x + b;
      assert s[|s| - 1] == b[|b| - 1] && IsWhiteSpace(s[|s| - 1]);
      assert s[..|s| - 1] == x + b[..|b| - 1];
      var front := b[..|b| - 1];
      forall i | 0 <= i < |front| ensures IsWhiteSpace(front[i]) {
        assert front[i] == b[i];
      }
      TrimEndPadded(x, b[..|b| - 1]);
    }
  }

  /** Stripping white space that surrounds a word leaves the word. */
  lemma TrimPadded(a: string, w: string, b: string)
    requires AllWhiteSpace(a) && AllWhiteSpace(b)
    requires |w| > 0 && !IsWhiteSpace(w[0]) && !IsWhiteSpace(w[|w| - 1])
    ensures TrimStart(a + w + b) == w + b
    ensures Trim(a + w + b) == w
  {
    assert a + w + b == a + (w + b);
    TrimStartPadded(a, w + b);
    TrimEndPadded(w, b);
  }

  /** The names parse whatever white space surrounds them: "simple" is simple, "advance" is not. */
  lemma NamedModes(root: map<string, string>, a: string, b: string)
    requires AllWhiteSpace(a) && AllWhiteSpace(b)
    ensures ModeKey in root && root[ModeKey] == a + "simple" + b ==> IsSimple(root)
    ensures ModeKey in root && root[ModeKey] == a + "advance" + b ==> !IsSimple(root)
    ensures ModeKey !in root ==> !IsSimple(root)
  {
    if ModeKey in root {
      var text := root[ModeKey];
      if text == a + "simple" + b {
        TrimPadded(a, "simple", b);
        assert TrimStart(text)[0] == 's';
        NameIsSimple(text);
      } else if text == a + "advance" + b {
        TrimPadded(a, "advance", b);
        assert TrimStart(text)[0] == 'a';
        NameIsSimple(text);
      }
    }
  }

  // ------------------------------------------------------ the master step

  /** The parameter dictionary's keys. */
  datatype Key =
    | Type | Method
    | ConnectionTotal | HubProtocol | TransportType | HubUrls
    | LatencyStep | LatencyMax
    | Interval | PercentileList | StatPrintMode | StatisticsOutputPath
    | ConcurrentConnection | BatchMode | BatchWait
    | Duration | ActionAfterConnect
    | CriteriaMaxFailConnectionAmount | CriteriaMaxFailConnectionPercentage | CriteriaMaxFailSendingPercentage
    | RemainderBegin | RemainderEnd | Modulo | MessageSize
    | GroupConfigMode | GroupCount

  /** A dictionary value: an int, a string, a bool or a double (kept exact). */
  datatype Value = Int(i: int) | Text(s: string) | Flag(b: bool) | Double(d: real)

  /** The values of SignalRConstants that the builders store but that are defined elsewhere. */
  datatype PluginConstants = PluginConstants(latencyStep: int, latencyMax: int, percentileList: string)

  /** A step of the benchmark pipeline, whose parameters the builders fill in. */
  class MasterStep {
    var parameters: map<Key, Value>

    constructor()
      ensures parameters == map[]
    {
      parameters := map[];
    }

    /** `Parameters[key] = value`: adds the entry, or replaces the key's old value. */
    method Set(key: Key, value: Value)
      modifies this
      ensures parameters == old(parameters)[key := value]
    {
      parameters := parameters[key := value];
    }
  }

  /** AttachType: the type name goes under Type, every other entry stays, and the same step is returned. */
  method AttachType(step: MasterStep, typeName: string) returns (r: MasterStep)
    modifies step
    ensures r == step
    ensures step.parameters == old(step.parameters)[Type := Text(typeName)]
  {
    step.Set(Type, Text(typeName));
    r := step;
  }

  /** Writing a key the value it already holds leaves the dictionary as it was. */
  lemma RewriteSame(m: map<Key, Value>, k: Key, v: Value)
    requires k in m && m[k] == v
    ensures m[k := v] == m
  {
  }

  /** The entries of a step that only names its master method and its type. */
  function Plain(methodName: string, typeName: string): map<Key, Value> {
    map[Method := Text(methodName), Type := Text(typeName)]
  }

  /** A step with a method and a type and nothing else, built as the plain builders do. */
  method PlainStep(methodName: string, typeName: string) returns (step: MasterStep)
    ensures fresh(step) && step.parameters == Plain(methodName, typeName)
  {
    step := new MasterStep();
    step.Set(Method, Text(methodName));
    step := AttachType(step, typeName);
  }

  method RegisterRecordLatency(typeName: string) returns (step: MasterStep)
    ensures fresh(step) && step.parameters == Plain("RegisterCallbackRecordLatency", typeName)
  {
    step := PlainStep("RegisterCallbackRecordLatency", typeName);
  }

  method RegisterOnConnected(typeName: string) returns (step: MasterStep)
    ensures fresh(step) && step.parameters == Plain("RegisterCallbackOnConnected", typeName)
  {
    step := PlainStep("RegisterCallbackOnConnected", typeName);
  }

  method CollectConnectionId(typeName: string) returns (step: MasterStep)
    ensures fresh(step) && step.parameters == Plain("CollectConnectionId", typeName)
  {
    step := PlainStep("CollectConnectionId", typeName);
  }

  method StopCollector(typeName: string) returns (step: MasterStep)
    ensures fresh(step) && step.parameters == Plain("StopCollector", typeName)
  {
    step := PlainStep("StopCollector", typeName);
  }

  method StopConnection(typeName: string) returns (step: MasterStep)
    ensures fresh(step) && step.parameters == Plain("StopConnection", typeName)
  {
    step := PlainStep("StopConnection", typeName);
  }

  method DisposeConnection(typeName: string) returns (step: MasterStep)
    ensures fresh(step) && step.parameters == Plain("DisposeConnection", typeName)
  {
    step := PlainStep("DisposeConnection", typeName);
  }

  // --------------------------------------------------------- connections

  /** What every connection-creating step holds besides its method. */
  function ConnectionEntries(totalConnections: int, targetUrl: string, protocol: string, transport: string, typeName: string)
    : map<Key, Value>
  {
    map[Type := Text(typeName), ConnectionTotal := Int(totalConnections), HubProtocol := Text(protocol),
        TransportType := Text(transport), HubUrls := Text(targetUrl)]
  }

  /** CreateConnectionInternal: the type, the connection count, the protocol, the transport and the hub url. */
  method CreateConnectionInternal(totalConnections: int, targetUrl: string, protocol: string, transport: string, typeName: string)
    returns (step: MasterStep)
    ensures fresh(step) && step.parameters == ConnectionEntries(totalConnections, targetUrl, protocol, transport, typeName)
  {
    step := new MasterStep();
    step := AttachType(step, typeName);
    step.Set(ConnectionTotal, Int(totalConnections));
    step.Set(HubProtocol, Text(protocol));
    step.Set(TransportType, Text(transport));
    step.Set(HubUrls, Text(targetUrl));
  }

  /** The three ways of creating connections, each with its own master method. */
  datatype ConnectionKind = DirectConnection | AspNetConnection | CoreConnection

  function ConnectionMethod(kind: ConnectionKind): string {
    match kind
    case DirectConnection => "CreateDirectConnection"
    case AspNetConnection => "CreateAspNetConnection"
    case CoreConnection => "CreateConnection"
  }

  /** CreateDirectConnection, CreateAspNetConnection and CreateCoreConnection. */
  method CreateConnection(kind: ConnectionKind, totalConnections: int, targetUrl: string, protocol: string, transport: string, typeName: string)
    returns (step: MasterStep)
    ensures fresh(step)
    ensures step.parameters
      == ConnectionEntries(totalConnections, targetUrl, protocol, transport, typeName)[Method := Text(ConnectionMethod(kind))]
  {
    step := CreateConnectionInternal(totalConnections, targetUrl, protocol, transport, typeName);
    step.Set(Method, Text(ConnectionMethod(kind)));
  }

  /** The three connection builders agree on every entry except Method, and no two share a Method. */
  lemma ConnectionBuildersDifferOnlyInMethod(
    k1: ConnectionKind, k2: ConnectionKind,
    totalConnections: int, targetUrl: string, protocol: string, transport: string, typeName: string)
    ensures var e := ConnectionEntries(totalConnections, targetUrl, protocol, transport, typeName);
      var m1, m2 := e[Method := Text(ConnectionMethod(k1))], e[Method := Text(ConnectionMethod(k2))];
      && m1.Keys == m2.Keys
      && (forall k :: k in m1 && k != Method ==> m1[k] == m2[k])
      && (m1[Method] == m2[Method] <==> k1 == k2)
  {
  }

  /** The batching entries of StartConnectin and Reconnect. */
  function WithBatch(m: map<Key, Value>, concurrent: int, batchMode: string, wait: int): map<Key, Value> {
    m[ConcurrentConnection := Int(concurrent)][BatchMode := Text(batchMode)][BatchWait := Int(wait)]
  }

  /** StartConnectin: starts connections in batches. */
  method StartConnection(batchMode: string, concurrent: int, typeName: string, wait: int) returns (step: MasterStep)
    ensures fresh(step)
    ensures step.parameters == StartEntries(batchMode, concurrent, typeName, wait)
  {
    step := new MasterStep();
    step.Set(Method, Text("StartConnection"));
    step.Set(ConcurrentConnection, Int(concurrent));
    step.Set(BatchMode, Text(batchMode));
    step.Set(BatchWait, Int(wait));
    step := AttachType(step, typeName);
  }

  /** Reconnect: a connection step whose method is Reconnect, with the batching entries added. */
  method Reconnect(
    totalConnections: int, targetUrl: string, protocol: string, transport: string,
    batchMode: string, typeName: string, concurrent: int, wait: int)
    returns (step: MasterStep)
    ensures fresh(step)
    ensures step.parameters
      == ReconnectEntries(totalConnections, targetUrl, protocol, transport, batchMode, typeName, concurrent, wait)
  {
    step := CreateConnectionInternal(totalConnections, targetUrl, protocol, transport, typeName);
    step.Set(Method, Text("Reconnect"));
    step.Set(ConcurrentConnection, Int(concurrent));
    step.Set(BatchMode, Text(batchMode));
    step.Set(BatchWait, Int(wait));
  }

  /** The entries of a batched start (StartConnectin). */
  function StartEntries(batchMode: string, concurrent: int, typeName: string, wait: int): map<Key, Value> {
    WithBatch(Plain("StartConnection", typeName), concurrent, batchMode, wait)
  }

  /** The entries of a reconnect step. */
  function ReconnectEntries(
    totalConnections: int, targetUrl: string, protocol: string, transport: string,
    batchMode: string, typeName: string, concurrent: int, wait: int): map<Key, Value>
  {
    WithBatch(ConnectionEntries(totalConnections, targetUrl, protocol, transport, typeName)[Method := Text("Reconnect")],
              concurrent, batchMode, wait)
  }

  lemma ReconnectKeys(
    totalConnections: int, targetUrl: string, protocol: string, transport: string,
    batchMode: string, typeName: string, concurrent: int, wait: int)
    ensures ReconnectEntries(totalConnections, targetUrl, protocol, transport, batchMode, typeName, concurrent, wait).Keys
         == ConnectionEntries(totalConnections, targetUrl, protocol, transport, typeName).Keys
            + StartEntries(batchMode, concurrent, typeName, wait).Keys
  {
  }

  lemma ReconnectKeepsConnection(
    totalConnections: int, targetUrl: string, protocol: string, transport: string,
    batchMode: string, typeName: string, concurrent: int, wait: int)
    ensures var c := ConnectionEntries(totalConnections, targetUrl, protocol, transport, typeName);
      var r := ReconnectEntries(totalConnections, targetUrl, protocol, transport, batchMode, typeName, concurrent, wait);
      forall k :: k in c ==> r[k] == c[k]
  {
  }

  lemma ReconnectKeepsStart(
    totalConnections: int, targetUrl: string, protocol: string, transport: string,
    batchMode: string, typeName: string, concurrent: int, wait: int)
    ensures var s := StartEntries(batchMode, concurrent, typeName, wait);
      var r := ReconnectEntries(totalConnections, targetUrl, protocol, transport, batchMode, typeName, concurrent, wait);
      forall k :: k in s && k != Method ==> r[k] == s[k]
  {
  }

  /**
   * A reconnect step holds every entry of a connection step unchanged, and
   * every entry of a batched start except its method.
   */
  lemma ReconnectCombinesConnectAndStart(
    totalConnections: int, targetUrl: string, protocol: string, transport: string,
    batchMode: string, typeName: string, concurrent: int, wait: int)
    ensures var c := ConnectionEntries(totalConnections, targetUrl, protocol, transport, typeName);
      var s := StartEntries(batchMode, concurrent, typeName, wait);
      var r := ReconnectEntries(totalConnections, targetUrl, protocol, transport, batchMode, typeName, concurrent, wait);
      && r.Keys == c.Keys + s.Keys
      && (forall k :: k in c ==> r[k] == c[k])
      && (forall k :: k in s && k != Method ==> r[k] == s[k])
      && r[Method] == Text("Reconnect")
  {
    ReconnectKeys(totalConnections, targetUrl, protocol, transport, batchMode, typeName, concurrent, wait);
    ReconnectKeepsConnection(totalConnections, targetUrl, protocol, transport, batchMode, typeName, concurrent, wait);
    ReconnectKeepsStart(totalConnections, targetUrl, protocol, transport, batchMode, typeName, concurrent, wait);
  }

  method Wait(typeName: string, wait: int) returns (step: MasterStep)
    ensures fresh(step) && step.parameters == Plain("Wait", typeName)[Duration := Int(wait)]
  {
    step := new MasterStep();
    step.Set(Method, Text("Wait"));
    step.Set(Duration, Int(wait));
    step := AttachType(step, typeName);
  }

  method RepairConnections(typeName: string, action: string) returns (step: MasterStep)
    ensures fresh(step) && step.parameters == Plain("RepairConnections", typeName)[ActionAfterConnect := Text(action)]
  {
    step := new MasterStep();
    step.Set(Method, Text("RepairConnections"));
    step.Set(ActionAfterConnect, Text(action));
    step := AttachType(step, typeName);
  }

  /** ConditionalStop: the failure thresholds that stop the benchmark. */
  method ConditionalStop(typeName: string, maxConnections: int, connectionFailPercentage: real, latencyPercentage: real)
    returns (step: MasterStep)
    ensures fresh(step)
    ensures step.parameters == Plain("ConditionalStop", typeName)
      [CriteriaMaxFailConnectionAmount := Int(maxConnections)]
      [CriteriaMaxFailConnectionPercentage := Double(connectionFailPercentage)]
      [CriteriaMaxFailSendingPercentage := Double(latencyPercentage)]
  {
    step := new MasterStep();
    step.Set(Method, Text("ConditionalStop"));
    step.Set(CriteriaMaxFailConnectionAmount, Int(maxConnections));
    step.Set(CriteriaMaxFailConnectionPercentage, Double(connectionFailPercentage));
    step.Set(CriteriaMaxFailSendingPercentage, Double(latencyPercentage));
    step := AttachType(step, typeName);
  }

  // ----------------------------------------------------------- statistics

  /** InitStatisticsCollectorInternal: the type and the latency histogram's step and maximum. */
  method InitStatisticsCollectorInternal(constants: PluginConstants, typeName: string) returns (step: MasterStep)
    ensures fresh(step)
    ensures step.parameters
      == map[Type := Text(typeName), LatencyStep := Int(constants.latencyStep), LatencyMax := Int(constants.latencyMax)]
  {
    step := new MasterStep();
    step := AttachType(step, typeName);
    step.Set(LatencyStep, Int(constants.latencyStep));
    step.Set(LatencyMax, Int(constants.latencyMax));
  }

  /** InitStatisticsCollector (`connections` false) and InitConnectionStatisticsCollector (true). */
  method InitCollector(constants: PluginConstants, typeName: string, connections: bool) returns (step: MasterStep)
    ensures fresh(step)
    ensures step.parameters
      == map[Type := Text(typeName), LatencyStep := Int(constants.latencyStep), LatencyMax := Int(constants.latencyMax),
             Method := Text(if connections then "InitConnectionStatisticsCollector" else "InitStatisticsCollector")]
  {
    step := InitStatisticsCollectorInternal(constants, typeName);
    step.Set(Method, Text(if connections then "InitConnectionStatisticsCollector" else "InitStatisticsCollector"));
  }

  /** What a statistics-collecting step holds besides its method: the interval is always 1000. */
  function StatisticsEntries(typeName: string, debug: bool, output: string, percentileList: string): map<Key, Value> {
    map[Type := Text(typeName), Interval := Int(1000), PercentileList := Text(percentileList),
        StatPrintMode := Flag(debug), StatisticsOutputPath := Text(output)]
  }

  /**
   * CollectStatisticsInternal: the interval argument is not used; the step
   * always collects every 1000 milliseconds.
   */
  method CollectStatisticsInternal(typeName: string, debug: bool, interval: int, output: string, percentileList: string)
    returns (step: MasterStep)
    ensures fresh(step)
    ensures step.parameters == StatisticsEntries(typeName, debug, output, percentileList)
    ensures step.parameters[Interval] == Int(1000)
  {
    step := new MasterStep();
    step := AttachType(step, typeName);
    step.Set(Interval, Int(1000));
    step.Set(PercentileList, Text(percentileList));
    step.Set(StatPrintMode, Flag(debug));
    step.Set(StatisticsOutputPath, Text(output));
  }

  /** CollectStatistics: the internal step with the given percentile list and method CollectStatistics. */
  method CollectStatistics(constants: PluginConstants, typeName: string, debug: bool, output: string, interval: int, percentileList: string)
    returns (step: MasterStep)
    ensures fresh(step)
    ensures step.parameters == StatisticsEntries(typeName, debug, output, percentileList)[Method := Text("CollectStatistics")]
  {
    step := CollectStatisticsInternal(typeName, debug, interval, output, constants.percentileList);
    step.Set(PercentileList, Text(percentileList));
    step.Set(Method, Text("CollectStatistics"));
  }

  /**
   * CollectConnectionStatistics: the internal step with method
   * CollectConnectionStatistics; its interval and percentile-list arguments
   * are not used, so the list is always the plugin's default one.
   */
  method CollectConnectionStatistics(
    constants: PluginConstants, typeName: string, debug: bool, output: string, interval: int, percentileList: string)
    returns (step: MasterStep)
    ensures fresh(step)
    ensures step.parameters
      == StatisticsEntries(typeName, debug, output, constants.percentileList)[Method := Text("CollectConnectionStatistics")]
  {
    step := CollectStatisticsInternal(typeName, debug, interval, output, constants.percentileList);
    step.Set(Method, Text("CollectConnectionStatistics"));
  }

  /** Whatever the arguments, a statistics step collects every 1000 milliseconds, and keeps the output path and print mode. */
  lemma StatisticsIntervalFixed(typeName: string, debug: bool, output: string, percentileList: string, methodName: string)
    ensures var m := StatisticsEntries(typeName, debug, output, percentileList)[Method := Text(methodName)];
      && m[Interval] == Int(1000)
      && m[StatisticsOutputPath] == Text(output) && m[StatPrintMode] == Flag(debug)
      && m[PercentileList] == Text(percentileList)
  {
  }

  // ------------------------------------------------------------ scenarios

  /** What a sending step holds: the remainder window [beginIndex, endIndex) modulo the connection count, and the traffic. */
  function SendingEntries(
    typeName: string, stepDuration: int, msgSize: int, sendingInterval: int,
    totalConnections: int, beginIndex: int, endIndex: int)
    : map<Key, Value>
  {
    map[RemainderBegin := Int(beginIndex), RemainderEnd := Int(endIndex), Modulo := Int(totalConnections),
        Duration := Int(stepDuration), MessageSize := Int(msgSize), Interval := Int(sendingInterval),
        Type := Text(typeName)]
  }

  /** SimpleSendingScenario. */
  method SimpleSendingScenario(
    typeName: string, stepDuration: int, msgSize: int, sendingInterval: int,
    totalConnections: int, beginIndex: int, endIndex: int)
    returns (step: MasterStep)
    ensures fresh(step)
    ensures step.parameters
      == SendingEntries(typeName, stepDuration, msgSize, sendingInterval, totalConnections, beginIndex, endIndex)
  {
    step := new MasterStep();
    step.Set(RemainderBegin, Int(beginIndex));
    step.Set(RemainderEnd, Int(endIndex));
    step.Set(Modulo, Int(totalConnections));
    step.Set(Duration, Int(stepDuration));
    step.Set(MessageSize, Int(msgSize));
    step.Set(Interval, Int(sendingInterval));
    step := AttachType(step, typeName);
  }

  /** The entries a group scenario adds to a sending step. */
  function WithGroups(sending: map<Key, Value>, groupCount: int, totalConnections: int): map<Key, Value> {
    sending[GroupConfigMode := Text("Connection")][GroupCount := Int(groupCount)][ConnectionTotal := Int(totalConnections)]
  }

  /** The protected SendToGroup overload: a sending step, with groups formed by connection. */
  method GroupSendingScenario(
    typeName: string, groupCount: int, stepDuration: int, msgSize: int, sendingInterval: int,
    totalConnections: int, beginIndex: int, endIndex: int)
    returns (step: MasterStep)
    ensures fresh(step)
    ensures step.parameters
      == WithGroups(SendingEntries(typeName, stepDuration, msgSize, sendingInterval, totalConnections, beginIndex, endIndex),
                    groupCount, totalConnections)
  {
    step := SimpleSendingScenario(typeName, stepDuration, msgSize, sendingInterval, totalConnections, beginIndex, endIndex);
    step.Set(GroupConfigMode, Text("Connection"));
    RewriteSame(step.parameters, Modulo, Int(totalConnections));
    step.Set(Modulo, Int(totalConnections));
    step.Set(GroupCount, Int(groupCount));
    step.Set(ConnectionTotal, Int(totalConnections));
    RewriteSame(step.parameters, Type, Text(typeName));
    step := AttachType(step, typeName);
  }

  /**
   * A group sending step keeps every sending entry, adds the group mode,
   * the group count and the connection total, and its connection total is
   * its modulo.
   */
  lemma GroupSendingKeepsSending(
    typeName: string, groupCount: int, stepDuration: int, msgSize: int, sendingInterval: int,
    totalConnections: int, beginIndex: int, endIndex: int)
    ensures var s := SendingEntries(typeName, stepDuration, msgSize, sendingInterval, totalConnections, beginIndex, endIndex);
      var g := WithGroups(s, groupCount, totalConnections);
      && g.Keys == s.Keys + {GroupConfigMode, GroupCount, ConnectionTotal}
      && (forall k :: k in s ==> g[k] == s[k])
      && g[GroupConfigMode] == Text("Connection") && g[GroupCount] == Int(groupCount)
      && g[ConnectionTotal] == g[Modulo] == Int(totalConnections)
  {
  }

  /** The scenario methods the runner calls by name. */
  datatype ScenarioMethod =
    | SendToGroup | Broadcast | SendToClient | Echo
    | RestSendToUser | RestPersistSendToUser | RestBroadcast | RestPersistBroadcast
    | RestSendToGroup | RestPersistSendToGroup

  function ScenarioName(s: ScenarioMethod): string {
    match s
    case SendToGroup => "SendToGroup"
    case Broadcast => "Broadcast"
    case SendToClient => "SendToClient"
    case Echo => "Echo"
    case RestSendToUser => "RestSendToUser"
    case RestPersistSendToUser => "RestPersistSendToUser"
    case RestBroadcast => "RestBroadcast"
    case RestPersistBroadcast => "RestPersistBroadcast"
    case RestSendToGroup => "RestSendToGroup"
    case RestPersistSendToGroup => "RestPersistSendToGroup"
  }

  predicate IsGroupScenario(s: ScenarioMethod) {
    s == SendToGroup || s == RestSendToGroup || s == RestPersistSendToGroup
  }

  /** The parts of BenchConfigData the scenario methods read. */
  datatype BenchConfigData = BenchConfigData(
    scenarioName: string, groupCount: int, messageSize: int, sendingInterval: int,
    singleStepDuration: int, connections: int)

  /**
   * The scenario methods: a sending step (a group sending step for the
   * group scenarios) over the window [0, endIndex) modulo the configured
   * connection count, with the scenario's own name as its method.
   */
  method Scenario(kind: ScenarioMethod, config: BenchConfigData, endIndex: int) returns (step: MasterStep)
    ensures fresh(step)
    ensures var sending := SendingEntries(
              config.scenarioName, config.singleStepDuration, config.messageSize, config.sendingInterval,
              config.connections, 0, endIndex);
      step.parameters
      == (if IsGroupScenario(kind) then WithGroups(sending, config.groupCount, config.connections) else sending)
         [Method := Text(ScenarioName(kind))]
    ensures step.parameters[RemainderBegin] == Int(0) && step.parameters[RemainderEnd] == Int(endIndex)
    ensures step.parameters[Modulo] == Int(config.connections)
    ensures step.parameters[Method] == Text(ScenarioName(kind)) && step.parameters[Type] == Text(config.scenarioName)
    ensures GroupCount in step.parameters <==> IsGroupScenario(kind)
  {
    if IsGroupScenario(kind) {
      step := GroupSendingScenario(
        config.scenarioName, config.groupCount, config.singleStepDuration, config.messageSize,
        config.sendingInterval, config.connections, 0, endIndex);
    } else {
      step := SimpleSendingScenario(
        config.scenarioName, config.singleStepDuration, config.messageSize, config.sendingInterval,
        config.connections, 0, endIndex);
    }
    step.Set(Method, Text(ScenarioName(kind)));
  }

  /** No two scenario methods share a name. */
  lemma ScenarioNamesDistinct(s1: ScenarioMethod, s2: ScenarioMethod)
    ensures ScenarioName(s1) == ScenarioName(s2) <==> s1 == s2
  {
  }

  // --------------------------------------------------------------- groups

  function GroupEntries(typeName: string, groupCount: int, connections: int): map<Key, Value> {
    map[GroupCount := Int(groupCount), ConnectionTotal := Int(connections), Type := Text(typeName)]
  }

  /** GroupInternal: a group step, whose method is first set to LeaveGroup. */
  method GroupInternal(typeName: string, groupCount: int, connections: int) returns (step: MasterStep)
    ensures fresh(step) && step.parameters == GroupEntries(typeName, groupCount, connections)[Method := Text("LeaveGroup")]
  {
    step := new MasterStep();
    step.Set(Method, Text("LeaveGroup"));
    step.Set(GroupCount, Int(groupCount));
    step.Set(ConnectionTotal, Int(connections));
    step := AttachType(step, typeName);
  }

  /** JoinGroup: the group step with its method overwritten to JoinGroup. */
  method JoinGroup(typeName: string, groupCount: int, connections: int) returns (step: MasterStep)
    ensures fresh(step) && step.parameters == GroupEntries(typeName, groupCount, connections)[Method := Text("JoinGroup")]
  {
    step := GroupInternal(typeName, groupCount, connections);
    step.Set(Method, Text("JoinGroup"));
  }

  /** LeaveGroup: the group step, whose method stays LeaveGroup. */
  method LeaveGroup(typeName: string, groupCount: int, connections: int) returns (step: MasterStep)
    ensures fresh(step) && step.parameters == GroupEntries(typeName, groupCount, connections)[Method := Text("LeaveGroup")]
  {
    step := GroupInternal(typeName, groupCount, connections);
    step.Set(Method, Text("LeaveGroup"));
  }

  /** Joining and leaving steps for the same groups differ in their method only. */
  lemma JoinAndLeaveDifferOnlyInMethod(typeName: string, groupCount: int, connections: int)
    ensures var g := GroupEntries(typeName, groupCount, connections);
      var join, leave := g[Method := Text("JoinGroup")], g[Method := Text("LeaveGroup")];
      && join.Keys == leave.Keys
      && (forall k :: k in join && k != Method ==> join[k] == leave[k])
      && join[Method] != leave[Method]
  {
  }
}

=== FILE: wrappers.dfy ===
/** Option and Result, used wherever the source has a null or throws. */
module Wrappers {

  datatype Option<+T> = None | Some(value: T) {
    /** The value, or `default` for None (the `??` operator of the source). */
    function GetOr(default: T): T {
      match this
      case Some(v) => v
      case None => default
    }
  }

  datatype Result<+R, +E> = Success(value: R) | Failure(error: E)
}
